=== FILE: README.md ===
# testbench in Dafny

A model of the core of **testbench**, the Kiwix Hotspot test bench. The test
bench drives a rack of USB WiFi adapters against a hotspot. Its integration
command connects every adapter and runs a fixed collection of checks on each
one, one worker per device:

- the WiFi connection;
- the DHCP address, gateway and DNS server;
- ping;
- DNS answers for the hotspot's own domains and for an external one;
- two HTTP pages.

Its performance command launches JMeter with one user per adapter and
tallies the results per test and per interface.

The model is functional. Entities are immutable datatypes and operations are
pure functions. Python exceptions become a `Raises<T>` value (`Ok(value)` or
`Raise(error)`), carrying the same message the code raises. Everything the
code reads from outside is a parameter:

- `nmcli` and `ping` exit statuses and output;
- DNS replies (a `Resolver` function);
- HTTP responses;
- `fnmatch`;
- the device order chosen by sorting and shuffling;
- the temporary directory.

Modules, one per source file plus shared helpers:

- `Outcomes`: `Option` and `Raises`.
- `Strings`: `split`, `join`, `strip`, `splitlines()[-1]`, `lower`, `in`.
- `Decimal`: `str(int)` and `int(str)`.
- `IPv4`: dotted quads and prefix membership, as in section 3.1 of RFC 4632.
- `Context` (`context.py`): defaults, `__post_init__`, `fqdn`, the singleton.
- `Dns` (`utils/dns.py`): the answer pattern and the three DNS verdicts.
- `Wlan` (`utils/wlan.py`): `from_nmshow`, the name key, the device filter, the `nmcli`/`ping` commands.
- `Http` (`utils/http.py`): `DeviceResolver.getaddrinfo` and `assert_url_contains`.
- `JMeter` (`jmeter.py`): the runner's argv, environment, ifnames CSV and paths.
- `Perf` (`cli/perf.py`): thread-name attribution and the result tally.
- `Checks` (`integration.py:105-336` and `cli/integration.py:36-53`): check kinds, parameter validation, the collection, each check's `run`, and the command's parameter bag.
- `PerDevice` (`integration.py:339-372`): `run_for_ifname`, with skip mode and parameter errors.
- `Integration` (`integration.py:375-488`): the runner as a state machine.

The runner machine has these steps:

- `Start`;
- `Produce(d)`: worker `d` queues its next result;
- `Tick(done)`: drain the queue, then reap the finished workers among those `wait` reported;
- `Shutdown`.

Its invariant `Inv` ties the counters, the queue and what the workers have produced together.

Two behaviours of the code that the model exposes:

- **Late results.** `tick` drains the queue before it reaps finished workers. A worker that queues its last result in between leaves the runner stopped with that result uncounted until `shutdown` (`Integration.LateResultGap`).
- **Shared names.** A raised or skipped check reports under its class name, not under `str(test)`. The three exact-DNS checks all share the class name "DNS" (`PerDevice.NoLinkReportsClassNames`). The per-device result table is keyed by that name, so it keeps only one of them while the counters count all three (`Integration.RecordOverwrites`).

The `except TimeoutError` branch of `tick` (`integration.py:450-451`) is dead code: `wait` returns on timeout instead of raising. The model therefore has no such branch. A `wait` that reports nothing is `Tick` with an empty `done`.

## Model

| member | source | states |
|---|---|---|
| Context.DefaultsConsistent | src/testbench/context.py:19-27 | the default network 192.168.2.0/24 is strict; the default ping, gateway and DNS addresses lie inside it; the captured-domain address 198.51.100.1 lies outside |
| Context.PostInit | src/testbench/context.py:76-79 | with `exclude_broadcom`, "Broadcom Corp." ends up among the excluded vendors, appended at most once; without it, the configuration is unchanged; no other field changes |
| Context.PostInitIdempotent | src/testbench/context.py:107 | running `__post_init__` a second time, as `setup` does, changes nothing |
| Context.DefaultsUnaffectedByPostInit | src/testbench/context.py:18 | the default configuration has no Broadcom exclusion to add |
| Context.FqdnLabels | src/testbench/context.py:92-93 | the fqdn's dot-separated labels are those of `fld` followed by those of `tld` |
| Context.FqdnTwoLabels | src/testbench/context.py:93 | dot-free `fld` and `tld` give exactly a two-label fqdn |
| Context.DefaultFqdn | src/testbench/context.py:23-24 | the default fqdn is `kiwix.Hotspot`, with labels `kiwix` and `Hotspot` |
| Context.Get | src/testbench/context.py:121-125 | `get` succeeds exactly when an instance is set up, and then returns that instance |
| Context.Lifecycle | src/testbench/context.py:101-107 | `get` raises before `setup`; the first `setup` succeeds and `get` returns the configured instance with the exclusion applied once; a second `setup` raises "Already inited Context" |
| Context.Setup | src/testbench/context.py:101-107 | `setup` raises "Already inited Context" exactly when an instance already exists; otherwise the stored instance is the configuration with the Broadcom exclusion applied once |
| Strings.Split | src/testbench/jmeter.py:107 | `split` yields at least one piece, no piece holds the separator, and text without the separator is one piece |
| Strings.SplitJoin | src/testbench/context.py:93 | splitting separator-free pieces after joining them gives the pieces back |
| Strings.JoinSplit | src/testbench/utils/wlan.py:64 | joining the pieces of a split gives the text back |
| Strings.SplitAround | src/testbench/cli/integration.py:46 | splitting at a separator placed between two texts splits each side on its own |
| Strings.BeforeFirst | src/testbench/utils/wlan.py:66 | `split(c, 1)[0]` is a separator-free prefix that stops at the first separator, or the whole text when there is none |
| Strings.BeforeFirstIsFirstPiece | src/testbench/utils/wlan.py:76 | `split(c, 1)[0]` is the first piece of the full split |
| Strings.Strip | src/testbench/utils/wlan.py:222 | the stripped text sits in the text with only whitespace before and after it, and has no whitespace at either end; it is empty exactly when the text is all whitespace |
| Strings.StripIdempotent | src/testbench/utils/wlan.py:253 | stripping already-stripped output changes nothing |
| Strings.LastLine | src/testbench/utils/wlan.py:253 | the last line is a suffix without line breaks, preceded by a line break unless it is the whole text |
| Strings.LineBreakIsSpace | src/testbench/utils/wlan.py:252-253 | every character `splitlines` breaks at is whitespace that `strip` removes |
| Strings.Lower | src/testbench/utils/wlan.py:104 | lower-casing keeps the length and maps each character through the ASCII case map |
| Strings.LowerIdempotent | src/testbench/utils/wlan.py:171 | lower-casing an already lower-cased pattern changes nothing |
| Strings.Contains | src/testbench/utils/http.py:88 | `title in body` holds exactly when the title occurs at some index of the body |
| Decimal.DigitSpan | src/testbench/utils/dns.py:10 | the leading digit run is all digits and is followed by a non-digit or the end |
| Decimal.DigitSpanOfDigits | src/testbench/cli/perf.py:104 | a digit run followed by a non-digit is read in full |
| Decimal.FormatNat | src/testbench/jmeter.py:118 | `str(n)` is canonical decimal text (no leading zero) that denotes `n` |
| Decimal.FormatValue | src/testbench/cli/perf.py:106 | canonical decimal text is exactly what `str` prints for its value |
| Decimal.ParseIntFormatInt | src/testbench/utils/http.py:47-48 | `int(str(i)) == i` for every integer, negative ones included |
| Decimal.FormatIntParseInt | src/testbench/utils/wlan.py:105 | canonical digit text parses, and prints back to the same text |
| Decimal.FormatInt | src/testbench/integration.py:120 | `str(i)` of a non-negative integer is canonical decimal text denoting it; of a negative one, a `-` followed by canonical text denoting its magnitude |
| Decimal.ParseIntAccepts | src/testbench/cli/perf.py:106 | `int()` succeeds exactly on an optional sign followed by one or more digits; the value is the digits' value, negated after `-`; any other text raises "invalid literal for int() with base 10: '<text>'" |
| IPv4.ToNatInjective | src/testbench/utils/dns.py:68-69 | distinct addresses have distinct 32-bit values, so address equality is value equality |
| IPv4.BaseInNetwork | src/testbench/utils/dns.py:70-71 | a strict network contains its own network address |
| IPv4.HostNetwork | src/testbench/utils/dns.py:71 | a /32 network contains exactly its base address |
| IPv4.OctetError | src/testbench/utils/wlan.py:64 | an octet accepted by `ipaddress` is canonical decimal text of at most three digits with value below 256 |
| IPv4.ParseOctet | src/testbench/utils/dns.py:48 | a parsed octet is the value of canonical text of at most three digits |
| IPv4.ParseFormatOctet | src/testbench/utils/wlan.py:76 | every printed octet parses back to itself |
| IPv4.ParseFormat | src/testbench/utils/http.py:61 | `IPv4Address(str(x)) == x` |
| IPv4.FormatParse | src/testbench/utils/wlan.py:66 | text that parses as an address is exactly the printed form of that address |
| IPv4.ParsedParts | src/testbench/utils/wlan.py:64 | a parsed address comes from exactly four dot-separated octets, each parsing to its octet |
| IPv4.OctetText | src/testbench/utils/wlan.py:76 | an accepted octet text is the printed octet |
| IPv4.FormatAlphabet | src/testbench/utils/dns.py:10 | a printed address holds only digits and dots, so the answer pattern's address group can read it |
| IPv4.FormatOctets | src/testbench/cli/integration.py:45 | `str(x)` splits at its dots into exactly the four octets, each printed as canonical decimal text |
| IPv4.ParseErrors | src/testbench/utils/wlan.py:64 | `IPv4Address` refuses empty text first, then text without exactly four dot-separated parts, then the first refused octet, quoting the whole text; with four parts it succeeds exactly when all four octets parse |
| IPv4.InNetworkRange | src/testbench/integration.py:148 | in a strict network, an address is a member exactly when it lies from the network address up to, not including, the next block of the same size |
| IPv4.BlockOfMultiple | src/testbench/utils/dns.py:71 | rounding a number down to a multiple of the block size gives a block start exactly when the number lies in that block |
| Dns.AddressSpan | src/testbench/utils/dns.py:10 | the leading `[0-9.]` run is maximal: all address characters, followed by a non-address character or the end |
| Dns.MatchAddressSound | src/testbench/utils/dns.py:10 | the address group is a non-empty `[0-9.]` run at the start of its text |
| Dns.MatchTtlSound | src/testbench/utils/dns.py:10 | the TTL group is a non-empty digit run, followed by " IN A " and the address group |
| Dns.MatchTailSound | src/testbench/utils/dns.py:10 | what follows the domain group is `. <ttl> IN A <address>` with a digit TTL and an address run |
| Dns.LongestDomain | src/testbench/utils/dns.py:10 | the domain group is non-empty, within the limit, and the rest of the pattern matches after it |
| Dns.LongestDomainMaximal | src/testbench/utils/dns.py:10 | the greedy domain group ends at the last position after which the rest matches |
| Dns.LongestDomainIs | src/testbench/utils/dns.py:9-11 | the domain group is the position where the rest matches and matches nowhere later |
| Dns.MatchAnswer | src/testbench/utils/dns.py:9-11 | a match has a non-empty single-line domain, a digit TTL and a `[0-9.]` address, and its record text starts the answer |
| Dns.MatchRecordTail | src/testbench/utils/dns.py:10 | the tail pattern reads the TTL and the address back from a record's tail |
| Dns.NoLaterTail | src/testbench/utils/dns.py:10 | past the domain, no position of a record's line starts the tail pattern |
| Dns.RecordSingleLine | src/testbench/utils/dns.py:10 | a well-formed record text holds no newline |
| Dns.MatchRecord | src/testbench/utils/dns.py:9-11 | the pattern reads back the domain, TTL and address of any well-formed record text that ends its line |
| Dns.VerifyDnsFor | src/testbench/utils/dns.py:15-29 | the verdict is true exactly when the first answer is verbatim the TTL-0 A record of the domain for the expected address; a failed query or an empty answer raises |
| Dns.NonZeroTtlFails | src/testbench/utils/dns.py:29 | a record with any TTL other than 0 fails the verbatim comparison |
| Dns.GetDnsAnswerFor | src/testbench/utils/dns.py:32-48 | no address is returned exactly when the first answer does not match the pattern or names another domain; a failed query or an empty answer raises |
| Dns.AnswerOfRecord | src/testbench/utils/dns.py:45-48 | a first answer that is the domain's A record for `x`, with any TTL, yields `x` |
| Dns.RecordOfAnswer | src/testbench/utils/dns.py:45-48 | an address that is found comes from a first answer starting with the domain's A record for exactly that address |
| Dns.VerifiedAnswer | src/testbench/utils/dns.py:29 | an answer that passes the verbatim check for `str(x)` also yields `x` through `get_dns_answer_for` |
| Dns.VerifyDnsWithinFor | src/testbench/utils/dns.py:51-72 | raises without an expected address or network; a missing answer is false; an expected address takes precedence over the network; otherwise the verdict is network membership |
| Dns.WithinForRecord | src/testbench/utils/dns.py:63-71 | for a reply carrying the domain's A record for `x`, the verdict is "x is the expected address", or without one "x lies in the expected network" |
| Http.QuerySource | src/testbench/utils/http.py:55-57 | the lookup is sent from the device's IPv4 address when it has a link, and from 1.1.1.1 when it has none |
| Http.HostText | src/testbench/utils/http.py:61 | the printed answer parses back to the answer; a missing answer prints as "None", which is no address |
| Http.GetAddrInfo | src/testbench/utils/http.py:42-70 | a missing host is "localhost"; a missing port is 0 and a text port goes through `int`; a negative port raises before the IPv6 check does; with a valid port and family, the lookup succeeds exactly when `get_dns_answer_for` does and raises its error otherwise; a success is one TCP/IPv4 entry with the caller's type and port, whose host is the printed DNS answer |
| Http.PortTextAsNumber | src/testbench/utils/http.py:47-48 | a port given as the text `str(n)` resolves exactly like the number `n` |
| Http.SamePortNumber | src/testbench/utils/http.py:45-48 | the lookup depends on the port only through its number |
| Http.ConnectsToAnsweredAddress | src/testbench/utils/http.py:54-70 | when the hotspot answers with the A record of `x`, the client is sent to `x` on the requested port |
| Http.AssertUrlContains | src/testbench/utils/http.py:83-88 | an exception from the exchange propagates; any status other than 200 gives false without decoding the body; at 200 a body that is not UTF-8 raises the decode error, and otherwise the result is whether the title occurs in the body |
| Http.PageWithTitle | src/testbench/utils/http.py:88 | a page that embeds the title passes exactly when its status is 200 |
| Wlan.OptionalAddress | src/testbench/utils/wlan.py:65-79 | an absent or empty field gives no address; a present one raises exactly when its text before the first `/` is not an address, with the parse error, and otherwise gives the address that prints as that text |
| Wlan.LinkFromNmshow | src/testbench/utils/wlan.py:61-80 | reading succeeds exactly when the address parses and neither the gateway nor the DNS field raises; the link's address, gateway and DNS server each print as their field's text before its first `/`; the gateway and DNS are absent exactly when their fields are absent or empty |
| Wlan.LinkFromNmshowRoundTrip | src/testbench/utils/wlan.py:62-80 | an address written as `nmcli` writes it, `<address>/<prefix>`, reads back as that address |
| Wlan.LinkPayloadRoundTrip | src/testbench/utils/wlan.py:62-80 | any link written as `nmcli` writes it (address with prefix, gateway and DNS server when present) reads back as that same link |
| Wlan.LinkOfAddressOnly | src/testbench/utils/wlan.py:63-79 | a payload with an address field and no gateway or DNS field gives the link of that address alone |
| Wlan.AddressFieldOfCidr | src/testbench/utils/wlan.py:64 | the address before the `/` of `<address>/<prefix>` is that address |
| Wlan.DeviceFromNmshow | src/testbench/utils/wlan.py:100-115 | reading succeeds exactly when the MTU parses and, with an address set, the link parses; the device's ifname is the device field, its hardware address that field lower-cased, its MTU the parsed MTU field; it has an IPv4 link exactly when the address field is set, and that link is the one `IP4Link.from_nmshow` reads; its state is the state field's text and its connection the connection field as given; it has a connection path exactly when that field is set, and then the path is that field's text; a set vendor is kept and a missing or empty one reads as "" |
| Wlan.Ip4Link | src/testbench/utils/wlan.py:94-98 | the `ip4link` property returns the link exactly when there is one, and raises "No IPv4 Link" otherwise |
| Wlan.Refresh | src/testbench/utils/wlan.py:117-131 | a failing `nmcli device show` raises its error; otherwise refreshing fails exactly when the MTU or (with an address set) the link does not parse, with the MTU's error first; the new `ip4` is present exactly when the address field is set, and is the link `IP4Link.from_nmshow` reads |
| Wlan.RefreshAsFromNmshow | src/testbench/utils/wlan.py:100-131 | refreshing from a payload succeeds exactly when building the device from it does, reads the same link, and fails with the same error |
| Wlan.RunLength | src/testbench/utils/wlan.py:29 | a run is a maximal prefix of one character class |
| Wlan.Runs | src/testbench/utils/wlan.py:29 | `findall` splits the ifname into non-empty runs of one class each, neighbours of different classes, that concatenate back to the ifname |
| Wlan.RunsCons | src/testbench/utils/wlan.py:137 | a maximal first run followed by the runs of the rest gives the runs of the whole |
| Wlan.NameKey | src/testbench/utils/wlan.py:134-138 | the key has one part per run: a digit run as its integer value, any other run as text |
| Wlan.KeyLessTotal | src/testbench/utils/wlan.py:183 | keys whose parts alternate in the same rhythm compare without raising |
| Wlan.KeyLessAtFirstDifference | src/testbench/utils/wlan.py:183 | list `<` on name keys: past the common prefix the first differing elements decide, an int against a str raising `TypeError`; when one key is a prefix of the other, the shorter is smaller |
| Wlan.KeyLessIrreflexive | src/testbench/utils/wlan.py:183 | no key is smaller than itself, and comparing a key with itself never raises |
| Wlan.RunClassByParity | src/testbench/utils/wlan.py:29 | the class of run `i` is fixed by the class of the first character and the parity of `i` |
| Wlan.NameKeysComparable | src/testbench/utils/wlan.py:183 | ifnames that start with the same class of character (letters, as in `wlan0`) always compare, so the sort cannot raise |
| Wlan.MixedKeysRaise | src/testbench/utils/wlan.py:132-136 | the keys of `9wlan` and `wlan9` do not compare: `<` raises `TypeError`, naming the left operand's type first |
| Wlan.NaturalOrderExample | src/testbench/utils/wlan.py:134-138 | `wlan9` sorts before `wlan10`, which plain string order would place first |
| Wlan.Clear | src/testbench/utils/wlan.py:155-173 | the filter builds one condition per exclusion pattern |
| Wlan.AllTrueAppend | src/testbench/utils/wlan.py:174 | `all` over concatenated conditions is the conjunction of `all` over each part |
| Wlan.ClearIff | src/testbench/utils/wlan.py:155-158 | a pattern list's conditions all hold exactly when no lower-cased pattern matches |
| Wlan.Conditions | src/testbench/utils/wlan.py:150-173 | the condition list holds the type test plus one entry per ifname, vendor and hardware-address pattern |
| Wlan.MatchesIff | src/testbench/utils/wlan.py:149-174 | an entry is kept exactly when it is a WiFi device and no pattern matches its name, its lower-cased vendor or its lower-cased hardware address |
| Wlan.Keep | src/testbench/utils/wlan.py:176-182 | every kept device comes from a matching entry, and every matching entry gives a kept device |
| Wlan.FirstMalformed | src/testbench/utils/wlan.py:176-182 | the index found is that of a matching entry that fails to read, and no entry before it is one; it is the length when there is none |
| Wlan.KeepRaisesAtFirstMalformed | src/testbench/utils/wlan.py:176-182 | reading the entries raises exactly when some matching entry fails to read, and then with the error of the first such entry, as the list comprehension evaluates entries in order |
| Wlan.Truncate | src/testbench/utils/wlan.py:187 | `devices[:n]` is a prefix of length `n` capped at the list's length, and negative `n` counts from the end |
| Wlan.Choose | src/testbench/utils/wlan.py:183-187 | the chosen devices are all kept devices, as many as `max_devices` or all of them when fewer are kept |
| Wlan.ByIfname | src/testbench/utils/wlan.py:189 | the map is keyed by exactly the devices' ifnames, each key mapping to a device with that ifname |
| Wlan.GetWirelessDevices | src/testbench/utils/wlan.py:141-189 | it raises exactly when some matching entry fails to read, with the first one's error; every returned device is keyed by its ifname and comes from a kept entry; with `max_devices` 0 every kept device is present; otherwise at most `max_devices` are returned |
| Wlan.ByIfnameFrom | src/testbench/utils/wlan.py:189 | keying devices by ifname keeps their provenance from kept entries |
| Wlan.RunCommand | src/testbench/utils/wlan.py:215-223 | the completed process carries the argv, the exit status and the stripped output |
| Wlan.ConnectArgs | src/testbench/utils/wlan.py:233-237 | the argv is `nmcli device wifi connect <ssid>`, then `password <p>` only for a non-empty passphrase, always ending with `ifname <ifname>` |
| Wlan.ConnectArgsRoundTrip | src/testbench/utils/wlan.py:226-237 | the SSID, the ifname and a non-empty passphrase can be read back from the argv; an empty or missing passphrase is left out |
| Wlan.LastLineOfStripped | src/testbench/utils/wlan.py:253 | output that is not blank has a non-empty last line once stripped |
| Wlan.PingFeedback | src/testbench/utils/wlan.py:252-253 | the feedback read from stripped output is a non-empty suffix of it, and the output is empty exactly when it was all whitespace |
| Wlan.PingHost | src/testbench/utils/wlan.py:251-254 | success means a zero exit status; the feedback is empty exactly when the output is blank, and otherwise is the last line of the stripped output; it holds no line break and ends the stripped output |
| Wlan.PingArgs | src/testbench/utils/wlan.py:252 | the command is `ping`, restricted to IPv4; read as options, `-c` is 4 and `-I` is the device's interface; the host is the last argument |
| JMeter.NewRunner | src/testbench/jmeter.py:94-102 | one user per interface; the working directory is the given one, or a fresh temporary one |
| JMeter.JoinPath | src/testbench/jmeter.py:150-155 | a joined path ends with the file name; joined to the empty path, it is the file name alone |
| JMeter.CsvPathsDiffer | src/testbench/jmeter.py:149-155 | the interface list and the results are written to different files |
| JMeter.IfnamesCsvRoundTrip | src/testbench/jmeter.py:106-107 | reading the CSV back line by line gives the header `ifname` and then the interfaces in order |
| JMeter.Defines | src/testbench/jmeter.py:120-128 | there is at most one definition per optional property |
| JMeter.StartArgs | src/testbench/jmeter.py:113-119 | the argv starts with `<jmeter> -n -t <jmx> -Jnb_users=<n>`, followed by at most five property definitions |
| JMeter.DefinePrefix | src/testbench/jmeter.py:128 | a definition for one key never reads as a definition for another key |
| JMeter.LookupDefines | src/testbench/jmeter.py:120-128 | each property's definition carries its value when the value is truthy, and is absent otherwise |
| JMeter.LookupAbsent | src/testbench/jmeter.py:120-126 | a key that is not among the properties has no definition |
| JMeter.StartDefinesProperties | src/testbench/jmeter.py:127-128 | JMeter sees each optional property's value exactly when the runner's value is truthy |
| JMeter.StartNbUsers | src/testbench/jmeter.py:118 | the user count JMeter reads back is the number of interfaces |
| JMeter.StartEnvironment | src/testbench/jmeter.py:110-111 | the caller's environment, with `JVM_ARGS` set to `-Xmx2g` and nothing else changed |
| JMeter.Start | src/testbench/jmeter.py:109-136 | the argv starts with the executable, `-n -t` and the plan; its user-count definition reads back as the runner's user count; JMeter reads each optional property as the runner's value when set and finds no definition otherwise; the process runs in the working directory, which holds the ifnames CSV; the environment is the caller's with `JVM_ARGS` set to a 2 GiB heap |
| JMeter.StartDefinesAll | src/testbench/jmeter.py:120-128 | JMeter reads every optional property as the runner's value when it is set, and finds no definition when it is not |
| JMeter.PerfRunnerDefines | src/testbench/cli/perf.py:67-73 | the performance command passes no fqdn, always passes `assume_online` as "true" or "false", and passes the content id only when it is non-empty |
| Perf.Record | src/testbench/cli/perf.py:118-125 | counting a sample raises exactly one of its key's two counters; a new key is appended at the end; other keys are unchanged; every entry counts at least one sample |
| Perf.RecordSum | src/testbench/cli/perf.py:120-121 | each counted sample adds one to the table's total |
| Perf.SumAppend | src/testbench/cli/perf.py:118-119 | a new entry with one sample adds one to the total |
| Perf.SumBump | src/testbench/cli/perf.py:124-125 | one more sample under an existing key adds one to the total |
| Perf.ThreadNumber | src/testbench/cli/perf.py:104 | the `num` group is the whole non-empty digit run after "Users 1-" |
| Perf.PyIndex | src/testbench/cli/perf.py:106 | `devices[i]` succeeds exactly for `-len <= i < len`, with negative indices counting from the end; an index outside the 64-bit `Py_ssize_t` range raises "cannot fit 'int' into an index-sized integer", any other bad index "list index out of range" |
| Perf.IfnameFromThreadName | src/testbench/cli/perf.py:103-107 | an unrecognised thread name raises, and an attributed row names one of the interfaces |
| Perf.ThreadNameOfUser | src/testbench/cli/perf.py:103-107 | thread "Users 1-N" maps to the N-th interface, counting from one; past the last interface the lookup raises "list index out of range", and for N above 2^63 "cannot fit 'int' into an index-sized integer" |
| Perf.ThreadNumberOfUser | src/testbench/cli/perf.py:104 | the number read from a user thread's name is that user's number |
| Perf.ParseIntOfNat | src/testbench/cli/perf.py:106 | `int(str(n)) == n` for a thread number |
| Perf.ThreadZeroIsLast | src/testbench/cli/perf.py:106 | thread number 0 wraps around to the last interface through negative indexing |
| Perf.TallyRows | src/testbench/cli/perf.py:109-125 | both tables list each key once, exactly the keys of their maps, and each entry counts at least one sample, so a success rate never divides by zero |
| Perf.TallySucceedsIffAttributable | src/testbench/cli/perf.py:116 | for complete rows, the tally succeeds exactly when every row's thread name can be attributed |
| Perf.TallyRaisesAtFirstStray | src/testbench/cli/perf.py:114-116 | a failed tally raises the error of the first row that cannot be attributed |
| Perf.TallyLabelCounts | src/testbench/cli/perf.py:117-121 | under each label, the successes and failures are exactly those of the rows carrying that label, where only "true" is a success |
| Perf.TallyIfnameCounts | src/testbench/cli/perf.py:116-125 | under each interface, the successes and failures are exactly those of the rows attributed to it |
| Perf.TallyTotals | src/testbench/cli/perf.py:112-125 | each table's totals add up to the number of rows, so every row is counted once under its label and once under its interface |
| Perf.LabelListed | src/testbench/cli/perf.py:118-119 | a label is listed exactly when some row carries it |
| Checks.FirstBad | src/testbench/integration.py:328-333 | the first declaration that fails validation, with every earlier one passing |
| Checks.IsInstanceByTypeName | src/testbench/integration.py:329 | `isinstance` passes a value exactly when its type prints as the declared type, or it is a `bool` checked against `int` |
| Checks.GetTestParams | src/testbench/integration.py:320-336 | succeeds exactly when every declared parameter is present with its type; otherwise raises the message of the first failing declaration; on success returns exactly the declared keys, with the bag's values, well typed |
| Checks.BoolIsInt | src/testbench/integration.py:329 | a boolean passes an `int` declaration |
| Checks.MissingParamRaises | src/testbench/integration.py:329-333 | a missing declared parameter reads as `None` and is refused with its message |
| Checks.DisplayNameExtendsName | src/testbench/integration.py:200-201 | a check's display name starts with its class name |
| Checks.Collection | src/testbench/integration.py:299-317 | ten checks: the connection check first, the external DNS check suited to connectivity eighth, the two HTTP checks last |
| Checks.CollectionSwap | src/testbench/integration.py:313-315 | connectivity swaps the eighth check and nothing else, and no check appears twice |
| Checks.CollectionPrefix | src/testbench/integration.py:300-308 | every collection opens with the five device-state checks, then the DNS checks of the fqdn and of the service domain |
| Checks.ConnectCheck | src/testbench/integration.py:112-121 | a failing refresh raises its error; otherwise success means a zero `nmcli` exit status, with empty feedback, and a failure's feedback is `<status>: ` followed by the stripped output |
| Checks.Link | src/testbench/utils/wlan.py:117-131 | after a refresh the device's link is what the refresh read, or, when it raised, the link discovery found |
| Checks.AddressCheck | src/testbench/integration.py:124-147 | a failing refresh raises its error; otherwise the check passes exactly when the refreshed link's address lies in the network, with empty feedback |
| Checks.ExactDnsCheck | src/testbench/integration.py:191-198 | raises "No IPv4 Link" without a link; otherwise the verdict of the verbatim DNS check from the device's address to its DNS server, with the expected answer as feedback |
| Checks.OnlineDnsCheck | src/testbench/integration.py:248-257 | raises without a link; otherwise it passes exactly when the answer from the device's DNS server (or 1.1.1.1) lies in the expected network; the feedback is the network |
| Checks.PageCheck | src/testbench/integration.py:269-278 | raises exactly when the HTTP exchange does, or when a 200 answer's body is not UTF-8; otherwise it passes exactly when the page answers 200 and contains the title; the feedback is the domain |
| Checks.StateCheck | src/testbench/integration.py:112-183 | the gateway, DNS-server and ping checks never raise; the connection and address checks raise exactly when refreshing the device does, with its error; the address check passes exactly when the refreshed link's address is in the network; the gateway and DNS-server checks pass when the link's gateway and DNS server equal the expected addresses; ping passes on a zero exit status with the last output line as feedback |
| Checks.ServiceCheck | src/testbench/integration.py:185-297 | the DNS checks raise "No IPv4 Link" without a link; each DNS and HTTP check queries the domain, expected answer, network, DNS server and page title of its own class and parameters |
| Checks.RunCheck | src/testbench/integration.py:83 | `run` is each class's own: a device-state kind runs the device-state check, any other the DNS or HTTP check |
| Checks.FqdnCheckPasses | src/testbench/integration.py:191-198 | a hotspot answering the fqdn with the TTL-0 record of the expected address passes the fqdn check |
| Checks.CommandLinkParams | src/testbench/cli/integration.py:37-40 | the bag holds the configured SSID, passphrase, DHCP timeout and address network |
| Checks.CommandRouteParams | src/testbench/cli/integration.py:41-43 | the bag holds the configured gateway, DNS and ping addresses |
| Checks.CommandDomainParams | src/testbench/cli/integration.py:44-52 | the fqdn and its service sub-domain both answer with the gateway address; the zim-manager domain is prefixed to the fqdn |
| Checks.CommandExternalParams | src/testbench/cli/integration.py:48-51 | the external domain is apple.com, captured to the configured address offline and inside 17.0.0.0/8 online |
| Checks.CommandParamsKeys | src/testbench/cli/integration.py:35-52 | the command's bag holds no stray parameter: its keys are exactly the names some check declares |
| Checks.DeclaredInCommand | src/testbench/cli/integration.py:35-52 | every parameter a check declares is in the command's bag |
| Checks.DeclaringCheck | src/testbench/cli/integration.py:35-52 | every name of the command's bag is declared by some check |
| Checks.CommandParamsSufficeLink | src/testbench/cli/integration.py:36-43 | the bag satisfies the connection, address, gateway, DNS-server and ping checks |
| Checks.CommandParamsSufficeNames | src/testbench/cli/integration.py:44-53 | the bag satisfies the DNS and HTTP checks |
| Checks.CommandParamsSuffice | src/testbench/cli/integration.py:33-54 | whatever the configuration, every check validates against the command's bag |
| Checks.CommandParamsValidate | src/testbench/cli/integration.py:36-53 | no device's worker aborts on a parameter error under the command's bag |
| PerDevice.RanResult | src/testbench/integration.py:360-372 | a check that returned reports its own verdict and feedback under its display name; one that raised reports a failure under its class name, with the exception's text as feedback |
| PerDevice.TurnOf | src/testbench/integration.py:347-348 | a check's turn fails exactly when its parameters fail, with their error; a skipped result never succeeds, nor does one that raised |
| PerDevice.Loop | src/testbench/integration.py:345-372 | the loop queues at most one result per check; it ends without error exactly when every parameter validates, and then queues one result per check |
| PerDevice.Turns | src/testbench/integration.py:346-348 | one turn per check of the collection, in order |
| PerDevice.RunForIfname | src/testbench/integration.py:339-372 | a worker queues at most one result per check; it ends without error exactly when every check's parameters validate, and then queues one result per check |
| PerDevice.LoopAllPassed | src/testbench/integration.py:345-372 | the loop reports a success for every check exactly when every turn validates, does not raise and succeeds |
| PerDevice.WorkerAllPassed | src/testbench/integration.py:339-372 | a device's worker reports success on every check exactly when every check validates, runs without raising and succeeds |
| PerDevice.ShiftExpected | src/testbench/integration.py:360-363 | the skip flag carries a raise forward to every later check |
| PerDevice.LoopShape | src/testbench/integration.py:345-372 | one result per check up to the first parameter error, each the check's own or the skipped one as the earlier raises decide; the loop ends with that error |
| PerDevice.RunForIfnameComplete | src/testbench/integration.py:345-372 | with valid parameters the worker completes with one result per check, in collection order |
| PerDevice.RunForIfnameAborts | src/testbench/integration.py:347 | a parameter error at check `c` leaves exactly the results of the checks before it, and ends the worker with that error |
| PerDevice.LoopResults | src/testbench/integration.py:349-370 | every result names the worker's device, and none succeeds once skipping |
| PerDevice.RunForIfnameAbout | src/testbench/integration.py:351-369 | a worker only reports on its own device |
| PerDevice.FailureDoesNotSkip | src/testbench/integration.py:360-363 | a check that fails without raising leaves the next check to run |
| PerDevice.SkippingIgnoresRuns | src/testbench/integration.py:349-359 | once skipping, the queued results do not depend on how the checks would have run |
| PerDevice.SkippedIgnoresWorld | src/testbench/integration.py:349-359 | after a raise, skipped checks are not run: any two worlds give the same remainder |
| PerDevice.TurnsValidate | src/testbench/integration.py:347 | with parameters that all validate, every turn validates |
| PerDevice.ClassNameTurn | src/testbench/integration.py:356 | skipped results carry the class name and "Skipped"; a raised check's result carries the class name |
| PerDevice.QuietTurn | src/testbench/integration.py:112-182 | the five device-state checks report under their class name; of them only the connection and address checks raise, and exactly when refreshing the device raises |
| PerDevice.NoLinkFqdnRaises | src/testbench/integration.py:193 | without an IPv4 link the fqdn DNS check raises "No IPv4 Link" |
| PerDevice.LoopFirstRaise | src/testbench/integration.py:349-370 | results up to the first raise are the checks' own; those after it are the skipped ones |
| PerDevice.LoopNoLink | src/testbench/integration.py:362-370 | with the sixth check the first to raise, for want of a link, it reports the missing link and the four after it are skipped |
| PerDevice.QuietPrefix | src/testbench/integration.py:300-305 | while refreshing the device succeeds, the device-state checks never raise and keep their class name in the results |
| PerDevice.RefreshFailureSkipsRest | src/testbench/integration.py:112-121 | when refreshing the device raises, the connection check reports the error as a failure under its class name and every later check is skipped |
| PerDevice.SkippedNames | src/testbench/integration.py:351-357 | every skipped result carries the class name |
| PerDevice.NoLinkTurns | src/testbench/integration.py:186-193 | when refreshing succeeds but finds no link, ten checks whose sixth is the fqdn DNS check report under class names: the sixth shows the missing link and the rest are skipped |
| PerDevice.NoLinkReportsClassNames | src/testbench/integration.py:185-224 | a device whose refreshes succeed without a link, under the command's parameters, reports the sixth and seventh results under the same name "DNS" |
| Integration.CountAll | src/testbench/integration.py:479 | the successes number as many as the results exactly when every result succeeded |
| Integration.MadeStep | src/testbench/integration.py:397-402 | one more queued result adds one to the produced total and its credit to the successes |
| Integration.RestTotals | src/testbench/integration.py:466-469 | what is left to queue, added to what was queued, is everything the workers produce |
| Integration.FullBound | src/testbench/integration.py:397 | all results together number at most devices × checks, and exactly that only when every worker produced one result per check |
| Integration.FullPassed | src/testbench/integration.py:479 | all results succeeded exactly when every worker's results did |
| Integration.FullExact | src/testbench/integration.py:395-397 | when every worker produced one result per check, they number devices × checks |
| Integration.New | src/testbench/integration.py:383-412 | a new runner is not running, has recorded nothing, and has an empty table for each device |
| Integration.WorkerOutputs | src/testbench/integration.py:422-431 | each device's worker queues exactly what `run_for_ifname` produces on that device |
| Integration.Start | src/testbench/integration.py:414-431 | raises "max_workers must be greater than 0" exactly when there are no devices; otherwise one running worker per device, with the invariant established |
| Integration.StartInv | src/testbench/integration.py:421-431 | starting establishes the invariant: each worker produces at most one result per check, all about its own device |
| Integration.Produce | src/testbench/integration.py:350-372 | a worker queuing its next result keeps the invariant and leaves the counters unchanged |
| Integration.QueueBound | src/testbench/integration.py:402 | the queue never holds more than `nb_tests` results, so a worker never blocks on it |
| Integration.Record | src/testbench/integration.py:459-464 | the result lands in its device's table under its name; exactly one of the two counters goes up |
| Integration.RecordOverwrites | src/testbench/integration.py:460 | two same-named results for one device leave only the later one in the table, while both are counted |
| Integration.Pop | src/testbench/integration.py:438-442 | the oldest queued result is recorded, and the queue keeps its order |
| Integration.Drain | src/testbench/integration.py:436-442 | draining records the whole queue, oldest first, and raises the counters by its successes and failures |
| Integration.DrainInv | src/testbench/integration.py:436-442 | draining keeps the invariant |
| Integration.Reap | src/testbench/integration.py:446-457 | finished workers that `wait` reported are dropped, and the runner stops running exactly when none is left |
| Integration.Tick | src/testbench/integration.py:433-457 | `tick` keeps the invariant, empties the queue into the record and counts every result it held; it drops exactly the finished workers `wait` reported, and the runner stays running only while some worker is left |
| Integration.Shutdown | src/testbench/integration.py:485-488 | raises before `start`, where no executor exists; otherwise every worker finishes, the queue is empty and the completed count equals the number of results produced |
| Integration.FinishInv | src/testbench/integration.py:466-469 | letting every worker finish keeps the invariant |
| Integration.AllSucceeded | src/testbench/integration.py:475-479 | raises "Runner still running" exactly while running; otherwise true exactly when the successes equal `nb_tests` |
| Integration.ShutdownRecordsAll | src/testbench/integration.py:466-473 | after shutdown every produced result is recorded, at most `nb_tests` of them, and the success counter counts their successes |
| Integration.LateResultGap | src/testbench/integration.py:436-457 | a result queued between the drain and the reap leaves the runner stopped with that result uncounted; only `shutdown` counts it |
| Integration.TickKeepsRunning | src/testbench/integration.py:454-456 | a tick while some worker still has results to produce leaves the runner running |
| Integration.WorkerIff | src/testbench/integration.py:475-479 | a device's worker queued a success for every check exactly when every one of its turns passed |
| Integration.WorkersIff | src/testbench/integration.py:397-402 | all workers together counted devices × checks successes exactly when every turn on every device passed |
| Integration.AllSucceededIff | src/testbench/integration.py:475-479 | after shutdown, all tests passed exactly when every check on every device validated, ran without raising and succeeded; a device aborted by a parameter error makes it false |

## Left out

- Threads, `ThreadPoolExecutor`, `Queue` locking and `wait` timing are replaced by explicit `Produce`/`Tick`/`Shutdown` steps. The model does not prove that some interleaving reaches every state.
- External effects are parameters, not models: `nmcli` and `subprocess`, dnspython's UDP query, urllib3's HTTP exchange, `shutil.which`, `os.environ`, `tempfile`, and the file writes.
- `retrieve_iplink`'s DHCP poll loop (`integration.py:124-135`) is not modelled step by step. Every `nmcli device show` of a device returns the world's fixed `show`, so the loop ends with what one refresh reads, or raises what that refresh raises. Its timing and sleeps are not modelled, nor is the `OverflowError` that `now() + timedelta(seconds=timeout)` raises when a huge `dhcp_timeout` (beyond about 2.5e11 seconds) pushes the deadline past the year 9999: `Checks.AddressCheck` raises only when the refresh does.
- The model takes one fixed world per device for all of its checks, whereas the device's state really changes as the checks run. The gateway, DNS-server and DNS checks read the refreshed link (`Checks.Link`). This matches the collection, whose first check refreshes the device.
- `Wlan.Refresh`: only the new `ip4` is returned. The other fields `refresh` updates are not read by any check.
- `fnmatch` glob semantics are an abstract `Glob` predicate.
- The name-key sort followed by `random.shuffle` is an abstract permutation `order`. Only the size bound and provenance are stated.
- Timestamps, `duration` and the floating-point success percentages are not modelled.
- `IP4Route.from_nmshow` (`utils/wlan.py:30-51`) and the `route` field are not modelled. Its pattern puts `?P<dst>` outside the group.
- CLI rendering, `hardware.py`, `database.py`, `entrypoint.py`, `cli/status.py` and `Context.db`/`setup_logger` are not part of this model.
- `get_some_wireless_devices`, `disconnect_device` and `reset_connections` are not modelled: they only run commands.
- `JMeterRunner.is_running`, `succeeded` and `duration` are not modelled: they poll the process and the clock.
- `Integration.Start`: a second `start` is not modelled. On a raise, the model also omits that the runner is left with `running` already set.
- `Integration.Shutdown`: only `wait=True` is modelled, which is how the command calls it. `cancel_futures` is not modelled.
- `Wlan.GetWirelessDevices`: with a non-zero `max_devices` only the size bound and provenance are stated, not which devices are chosen. A negative `max_devices` follows Python's slice but is not given its own ensures.
- `Wlan.GetWirelessDevices`: the name-key sort raises `TypeError` when it compares the keys of names that start with a digit and with a letter (`Wlan.MixedKeysRaise`); the model never raises there, because which pairs the sort compares is not modelled. Names that start alike always compare (`Wlan.NameKeysComparable`).
- `Wlan.DeviceFromNmshow`: a missing payload key reads like `None`, where Python would raise `KeyError`. `nmcli` returns every requested field.
- `Wlan.DeviceFromNmshow`: the connection path is kept as the field's text, not as a normalised `Path`.
- `JMeter.JoinPath`: `Path` normalisation (repeated `/`, `.` parts) is not modelled.
- `Http.GetAddrInfo`: a `bytes` host is taken as already decoded.
- `Strings.Lower`: only ASCII letters are lower-cased.
- `Decimal.ParseInt`: whitespace, underscores and non-ASCII digits, which `int()` also accepts, are rejected.
- `Wlan.NameKey`: the digit runs are runs of ASCII `0`-`9`; Python's `\d` and `int()` also take every other Unicode decimal digit (Arabic-Indic, fullwidth, ...). Interface names are ASCII, so the model leaves those out.
- `Perf.ThreadNumber`: the `num` group is read as ASCII digits only, where `\d+` and `int()` accept any Unicode decimal digit. JMeter names its threads with ASCII digits.
- `Dns.MatchAnswer`: the TTL group is ASCII digits only, where `\d+` matches any Unicode decimal digit. `dig` prints its TTLs in ASCII.
- `Perf.TallyRows`: every CSV row is taken as complete, with a `label`, a `threadName` and a `success` field. `csv.DictReader` gives `None` for missing trailing fields, so a short row makes `re.match` raise `TypeError`, and a header without one of these columns raises `KeyError`. JMeter writes all three columns on every row.
- `Perf.TallySucceedsIffAttributable`: stated for complete rows only, for the reason given under `Perf.TallyRows`; the `TypeError` and `KeyError` above are further ways the tally fails.
- `IPv4.Parse`: error texts quote with `'`, where Python's `repr` would use `"` for text that contains a quote.
- `Checks.RunCheck`: `StrParam`, `AddressParam` and `NetworkParam` are total, with a fallback that well-typed parameters never reach.

=== FILE: checks.dfy ===
/** The integration checks run against one wireless device: their kinds and
    display names, the typed parameters each one declares and how they are
    validated, the fixed collection, and what each check's `run` decides
    from the device's state and the outside world. */
module Checks {
  import opened Outcomes
  import opened Strings
  import opened Decimal
  import opened IPv4
  import opened Dns
  import opened Http
  import opened Wlan
  import opened Context

  datatype CheckKind =
    | WiFiConnection
    | ExpectedAddress
    | ExpectedGateway
    | ExpectedDns
    | CanPing
    | ResolvesFqdn
    | ResolvesServiceDomain
    | ResolvesExternalDomain
    | ResolvesExternalOnline
    | DashboardPage
    | ZimManagerPage

  /** The class attribute `name` of each check. */
  function Name(k: CheckKind): string
  {
    match k
    case WiFiConnection => "Can connect"
    case ExpectedAddress => "Valid IP"
    case ExpectedGateway => "Expected Gateway"
    case ExpectedDns => "Expected DNS"
    case CanPing => "Can Ping"
    case ResolvesFqdn => "DNS"
    case ResolvesServiceDomain => "DNS"
    case ResolvesExternalDomain => "DNS"
    case ResolvesExternalOnline => "DNS \U{1F310}"
    case DashboardPage => "HTTP Dashboard"
    case ZimManagerPage => "HTTP zim-manager"
  }

  // ---------------------------------------------------------------------
  // Parameters

  /** The values the parameter bag holds. */
  datatype Value =
    | StrValue(s: string)
    | IntValue(i: int)
    | BoolValue(b: bool)
    | AddressValue(a: Address)
    | NetworkValue(n: Network)
    | NoneValue

  /** The annotated types of check parameters. */
  datatype ParamType = StrType | IntType | AddressType | NetworkType

  type Params = map<string, Value>

  /** `isinstance(v, t)`; a `bool` is an `int`. */
  predicate IsInstance(v: Value, t: ParamType)
  {
    match t
    case StrType => v.StrValue?
    case IntType => v.IntValue? || v.BoolValue?
    case AddressType => v.AddressValue?
    case NetworkType => v.NetworkValue?
  }

  /** `isinstance` agrees with the printed types: a value passes a
      declaration exactly when its type prints as the declared one, or it
      is a `bool` checked against `int`, whose subclass it is. */
  lemma IsInstanceByTypeName(v: Value, t: ParamType)
    ensures IsInstance(v, t) <==> TypeOfText(v) == TypeText(t) || (v.BoolValue? && t == IntType)
  {
    var want, got := TypeText(t), TypeOfText(v);
    assert want[8] == if t == StrType then 's' else 'i';
    assert got[8] == match v
      case StrValue(_) => 's'
      case IntValue(_) => 'i'
      case BoolValue(_) => 'b'
      case NoneValue => 'N'
      case _ => 'i';
    assert |want| > 22 ==> want[22] == if t == AddressType then 'A' else 'N';
    assert |got| > 22 ==> got[22] == if v.AddressValue? then 'A' else 'N';
  }

  /** How a declared type prints. */
  function TypeText(t: ParamType): string
  {
    match t
    case StrType => "<class 'str'>"
    case IntType => "<class 'int'>"
    case AddressType => "<class 'ipaddress.IPv4Address'>"
    case NetworkType => "<class 'ipaddress.IPv4Network'>"
  }

  /** How the type of a value prints. */
  function TypeOfText(v: Value): string
  {
    match v
    case StrValue(_) => "<class 'str'>"
    case IntValue(_) => "<class 'int'>"
    case BoolValue(_) => "<class 'bool'>"
    case AddressValue(_) => "<class 'ipaddress.IPv4Address'>"
    case NetworkValue(_) => "<class 'ipaddress.IPv4Network'>"
    case NoneValue => "<class 'NoneType'>"
  }

  /** The parameters each check declares, in declaration order (the `name`
      attribute excluded). */
  function Declared(k: CheckKind): seq<(string, ParamType)>
  {
    match k
    case WiFiConnection => [("ssid", StrType), ("passphrase", StrType)]
    case ExpectedAddress => [("address_network", NetworkType), ("dhcp_timeout", IntType)]
    case ExpectedGateway => [("gateway_address", AddressType)]
    case ExpectedDns => [("dns_address", AddressType)]
    case CanPing => [("ping_address", AddressType)]
    case ResolvesFqdn => [("fqdn", StrType), ("fqdn_answer", StrType)]
    case ResolvesServiceDomain => [("svc_fqdn", StrType), ("svc_fqdn_answer", StrType)]
    case ResolvesExternalDomain => [("external_fqdn", StrType), ("external_fqdn_answer", StrType)]
    case ResolvesExternalOnline => [("external_fqdn", StrType), ("external_fqdn_answer_network", NetworkType)]
    case DashboardPage => [("fqdn", StrType), ("dns_address", AddressType)]
    case ZimManagerPage => [("zim_manager_fqdn", StrType), ("dns_address", AddressType)]
  }

  /** `all_params.get(key)` */
  function Lookup(all: Params, key: string): Value
  {
    if key in all then all[key] else NoneValue
  }

  /** The declared parameter `i` is present in `all` with its type. */
  predicate DeclaredOk(k: CheckKind, all: Params, i: nat)
    requires i < |Declared(k)|
  {
    IsInstance(Lookup(all, Declared(k)[i].0), Declared(k)[i].1)
  }

  /** The message `get_test_params` raises for declared parameter `i`. */
  function ParamError(k: CheckKind, all: Params, i: nat): string
    requires i < |Declared(k)|
  {
    var (key, t) := Declared(k)[i];
    Name(k) + " param `" + key + "` must be `" + TypeText(t) + "`, not `" + TypeOfText(Lookup(all, key)) + "`"
  }

  /** The names a check declares. */
  function DeclaredNames(k: CheckKind): set<string>
  {
    set i | 0 <= i < |Declared(k)| :: Declared(k)[i].0
  }

  /** Declaration `j` is the first one the bag fails. */
  predicate FirstFailing(k: CheckKind, all: Params, j: nat)
  {
    j < |Declared(k)| && !DeclaredOk(k, all, j) && forall l :: 0 <= l < j ==> DeclaredOk(k, all, l)
  }

  /** The first declaration from `i` on that the bag fails, or the number
      of declarations when none does. */
  function FirstBad(k: CheckKind, all: Params, i: nat): (j: nat)
    requires i <= |Declared(k)|
    ensures i <= j <= |Declared(k)|
    ensures forall l :: i <= l < j ==> DeclaredOk(k, all, l)
    ensures j < |Declared(k)| ==> !DeclaredOk(k, all, j)
    decreases |Declared(k)| - i
  {
    if i == |Declared(k)| || !DeclaredOk(k, all, i) then i else FirstBad(k, all, i + 1)
  }

  /** `get_test_params`: every declared parameter must be present with its
      type, else the first offending one raises; the result holds exactly
      the declared parameters, with the bag's values. */
  function GetTestParams(k: CheckKind, all: Params): (r: Raises<Params>)
    ensures r.Ok? <==> forall j :: 0 <= j < |Declared(k)| ==> DeclaredOk(k, all, j)
    ensures r.Raise? ==> exists j :: FirstFailing(k, all, j) && r.error == ParamError(k, all, j)
    ensures r.Ok? ==> r.value.Keys == DeclaredNames(k)
    ensures r.Ok? ==> forall key :: key in r.value ==> key in all && r.value[key] == all[key]
    ensures r.Ok? ==> WellTyped(k, r.value)
  {
    var j := FirstBad(k, all, 0);
    if j < |Declared(k)| then
      Raise(ParamError(k, all, j))
    else
      assert forall key :: key in DeclaredNames(k) ==> key in all by {
        forall key | key in DeclaredNames(k) ensures key in all {
          var l :| 0 <= l < |Declared(k)| && Declared(k)[l].0 == key;
          assert DeclaredOk(k, all, l);
        }
      }
      var p := map key | key in all && key in DeclaredNames(k) :: all[key];
      assert WellTyped(k, p) by {
        forall j | 0 <= j < |Declared(k)| ensures DeclaredOk(k, p, j) {
          assert DeclaredOk(k, all, j);
          assert Declared(k)[j].0 in DeclaredNames(k);
        }
      }
      Ok(p)
  }

  /** The parameters a check may run with: each declared one present with
      its type. */
  predicate WellTyped(k: CheckKind, p: Params)
  {
    forall j :: 0 <= j < |Declared(k)| ==> DeclaredOk(k, p, j)
  }

  /** A boolean passes an `int` declaration. */
  lemma BoolIsInt(k: CheckKind, all: Params, b: bool)
    requires k == ExpectedAddress
    requires all == map["address_network" := NetworkValue(Network(Address(192, 168, 2, 0), 24)), "dhcp_timeout" := BoolValue(b)]
    ensures GetTestParams(k, all).Ok?
  {
  }

  /** A missing declared parameter reads as `None` and is refused. */
  lemma MissingParamRaises(k: CheckKind, all: Params)
    requires |Declared(k)| > 0 && Declared(k)[0].0 !in all
    ensures GetTestParams(k, all) == Raise(ParamError(k, all, 0))
    ensures TypeOfText(Lookup(all, Declared(k)[0].0)) == "<class 'NoneType'>"
  {
  }

  /** The typed parameter read back; a check runs only with well-typed
      parameters, so the fallback after the match is never taken. */
  function StrParam(p: Params, key: string): string
  {
    match Lookup(p, key)
    case StrValue(s) => s
    case _ => ""
  }

  function AddressParam(p: Params, key: string): Address
  {
    match Lookup(p, key)
    case AddressValue(a) => a
    case _ => Address(0, 0, 0, 0)
  }

  function NetworkParam(p: Params, key: string): Network
  {
    match Lookup(p, key)
    case NetworkValue(n) => n
    case _ => Network(Address(0, 0, 0, 0), 0)
  }

  /** `str(test)`: the class name, or for the DNS checks the name followed
      by the domain they query. */
  function DisplayName(k: CheckKind, p: Params): string
    requires WellTyped(k, p)
  {
    assert DeclaredOk(k, p, 0);
    match k
    case ResolvesFqdn => "DNS " + StrParam(p, "fqdn")
    case ResolvesServiceDomain => "DNS " + StrParam(p, "svc_fqdn")
    case ResolvesExternalDomain => "DNS " + StrParam(p, "external_fqdn")
    case ResolvesExternalOnline => "DNS \U{1F310} " + StrParam(p, "external_fqdn")
    case _ => Name(k)
  }

  /** Display names start with the class name. */
  lemma DisplayNameExtendsName(k: CheckKind, p: Params)
    requires WellTyped(k, p)
    ensures Name(k) <= DisplayName(k, p)
  {
  }

  // ---------------------------------------------------------------------
  // The collection

  /** `get_tests_collection`: the base checks, the external DNS check that
      suits the connectivity, then the two HTTP checks. */
  function Collection(assumeOnline: bool): (c: seq<CheckKind>)
    ensures |c| == 10
    ensures c[0] == WiFiConnection && c[8] == DashboardPage && c[9] == ZimManagerPage
    ensures c[7] == (if assumeOnline then ResolvesExternalOnline else ResolvesExternalDomain)
  {
    var tests := [WiFiConnection, ExpectedAddress, ExpectedGateway, ExpectedDns, CanPing,
                  ResolvesFqdn, ResolvesServiceDomain];
    var httpTests := [DashboardPage, ZimManagerPage];
    tests + (if assumeOnline then [ResolvesExternalOnline] else [ResolvesExternalDomain]) + httpTests
  }

  /** The connectivity setting swaps the eighth check and nothing else; no
      check appears twice. */
  lemma CollectionSwap()
    ensures forall i :: 0 <= i < 10 && i != 7 ==> Collection(true)[i] == Collection(false)[i]
    ensures Collection(true)[7] != Collection(false)[7]
    ensures forall b: bool, i, j :: 0 <= i < j < 10 ==> Collection(b)[i] != Collection(b)[j]
  {
  }

  /** Every collection opens with the five checks that read the device's
      own state, then the DNS check of the fqdn and of its service domain. */
  lemma CollectionPrefix(assumeOnline: bool)
    ensures forall i :: 0 <= i < 5 ==>
      Collection(assumeOnline)[i] in {WiFiConnection, ExpectedAddress, ExpectedGateway, ExpectedDns, CanPing}
    ensures Collection(assumeOnline)[5] == ResolvesFqdn && Collection(assumeOnline)[6] == ResolvesServiceDomain
  {
  }

  // ---------------------------------------------------------------------
  // Running one check

  /** What a check's `run` produced: a verdict, or an exception's text. */
  datatype Outcome = Returned(succeeded: bool, feedback: string) | Raised(message: string)

  /** The outside world as one device sees it: the `nmcli` connection
      attempt, the device's IPv4 link as discovery found it, what every
      later `nmcli device show` of the device returns (the refreshes the
      connection and address checks make, DHCP waiting included), the
      `ping` run, the DNS replies and the HTTP exchanges (by DNS server and
      URL). */
  datatype World = World(
    connectStatus: int,
    connectOutput: string,
    discovered: Option<IP4Link>,
    show: Raises<Payload>,
    pingStatus: int,
    pingOutput: string,
    resolve: Resolver,
    fetch: (Address, string) -> Raises<Response>)

  /** The device's `ip4` once refreshed: what the refresh read, or, when the
      refresh raised (leaving `ip4` as it was), what discovery found. */
  function Link(w: World): (l: Option<IP4Link>)
    ensures Refresh(w.show).Ok? ==> l == Refresh(w.show).value
    ensures Refresh(w.show).Raise? ==> l == w.discovered
  {
    match Refresh(w.show)
    case Ok(l) => l
    case Raise(_) => w.discovered
  }

  /** The connection check: connect, then refresh the device, whose failure
      raises; success is a zero exit status; on failure the feedback is
      `<status>: <stripped output>`. */
  function ConnectCheck(ifname: string, ssid: string, passphrase: string, w: World): (o: Outcome)
    ensures o.Raised? <==> Refresh(w.show).Raise?
    ensures o.Raised? ==> o.message == Refresh(w.show).error
    ensures o.Returned? ==> (o.succeeded <==> w.connectStatus == 0)
    ensures o.Returned? && o.succeeded ==> o.feedback == ""
    ensures o.Returned? && !o.succeeded ==> o.feedback == FormatInt(w.connectStatus) + ": " + Strip(w.connectOutput)
  {
    var ps := RunCommand(ConnectArgs(ifname, ssid, Some(passphrase)), w.connectStatus, w.connectOutput);
    match Refresh(w.show)
    case Raise(e) => Raised(e)
    case Ok(_) => Returned(ps.Succeeded(), if ps.returncode == 0 then "" else FormatInt(ps.returncode) + ": " + ps.stdout)
  }

  /** The address check: wait for a link (each poll refreshes the device,
      whose failure raises), then test the link's address. */
  function AddressCheck(network: Network, w: World): (o: Outcome)
    ensures o.Raised? <==> Refresh(w.show).Raise?
    ensures o.Raised? ==> o.message == Refresh(w.show).error
    ensures o.Returned? ==> o.feedback == ""
    ensures o.Returned? ==> (o.succeeded <==> Link(w).Some? && InNetwork(Link(w).value.address, network))
  {
    match Refresh(w.show)
    case Raise(e) => Raised(e)
    case Ok(link) => Returned(link.Some? && InNetwork(link.value.address, network), "")
  }

  /** The DNS checks that expect an exact record: they need the device's
      IPv4 link, query its DNS server from its address, and report the
      expected answer as feedback. */
  function ExactDnsCheck(domain: string, answer: string, w: World): (o: Outcome)
    ensures Link(w).None? ==> o == Raised("No IPv4 Link")
    ensures Link(w).Some? ==>
      var reply := w.resolve(Format(Link(w).value.address), Str(OptionFormat(Link(w).value.dns)), domain);
      match VerifyDnsFor(reply, domain, answer)
      case Raise(e) => o == Raised(e)
      case Ok(v) => o == Returned(v, answer)
  {
    match Link(w)
    case None => Raised("No IPv4 Link")
    case Some(l) =>
      var reply := w.resolve(Format(l.address), Str(OptionFormat(l.dns)), domain);
      match VerifyDnsFor(reply, domain, answer)
      case Raise(e) => Raised(e)
      case Ok(v) => Returned(v, answer)
  }

  /** `str(x)` for an optional address. */
  function OptionFormat(x: Option<Address>): Option<string>
  {
    match x
    case None => None
    case Some(a) => Some(Format(a))
  }

  /** The online DNS check: the device's DNS server, or 1.1.1.1 without
      one, must place the domain inside the expected network. */
  function OnlineDnsCheck(domain: string, network: Network, w: World): (o: Outcome)
    ensures Link(w).None? ==> o == Raised("No IPv4 Link")
    ensures o.Returned? ==> o.feedback == FormatNetwork(network)
    ensures Link(w).Some? ==>
      var server := Link(w).value.dns.GetOr(Address(1, 1, 1, 1));
      var reply := w.resolve(Format(Link(w).value.address), Format(server), domain);
      match GetDnsAnswerFor(reply, domain)
      case Raise(e) => o == Raised(e)
      case Ok(answer) => o.Returned? && (o.succeeded <==> answer.Some? && InNetwork(answer.value, network))
  {
    match Link(w)
    case None => Raised("No IPv4 Link")
    case Some(l) =>
      var server := l.dns.GetOr(Address(1, 1, 1, 1));
      var reply := w.resolve(Format(l.address), Format(server), domain);
      match VerifyDnsWithinFor(reply, domain, None, Some(network))
      case Raise(e) => Raised(e)
      case Ok(v) => Returned(v, FormatNetwork(network))
  }

  /** The HTTP checks: the home page of `fqdn`, fetched through `dnsServer`,
      must carry `title`; the feedback is the domain. */
  function PageCheck(fqdn: string, dnsServer: Address, title: string, w: World): (o: Outcome)
    ensures o.Returned? ==> o.feedback == fqdn
    ensures var resp := w.fetch(dnsServer, "http://" + fqdn + "/");
      o.Raised? <==> resp.Raise? || (resp.value.status == 200 && resp.value.text.Raise?)
    ensures var resp := w.fetch(dnsServer, "http://" + fqdn + "/");
      o.Returned? ==> (o.succeeded <==> resp.Ok? && resp.value.status == 200 && Contains(resp.value.text.value, title))
  {
    match AssertUrlContains(w.fetch(dnsServer, "http://" + fqdn + "/"), title)
    case Raise(e) => Raised(e)
    case Ok(v) => Returned(v, fqdn)
  }

  const DashboardTitle: string := "<title>Kiwix Hotspot</title>"
  const ZimManagerTitle: string := "<title>File Manager</title>"

  /** The checks of the device's own state. */
  predicate IsStateKind(k: CheckKind)
  {
    k in {WiFiConnection, ExpectedAddress, ExpectedGateway, ExpectedDns, CanPing}
  }

  /** `test.run()` for the checks of the device's own state. */
  function StateCheck(k: CheckKind, p: Params, ifname: string, w: World): (o: Outcome)
    requires IsStateKind(k)
    ensures k in {ExpectedGateway, ExpectedDns, CanPing} ==> o.Returned?
    ensures k in {WiFiConnection, ExpectedAddress} ==>
      (o.Raised? <==> Refresh(w.show).Raise?) && (o.Raised? ==> o.message == Refresh(w.show).error)
    ensures k == WiFiConnection ==> o == ConnectCheck(ifname, StrParam(p, "ssid"), StrParam(p, "passphrase"), w)
    ensures k == ExpectedAddress && o.Returned? ==>
      (o.succeeded <==> Link(w).Some? && InNetwork(Link(w).value.address, NetworkParam(p, "address_network")))
    ensures k == ExpectedGateway ==>
      (o.succeeded <==> Link(w).Some? && Link(w).value.gateway == Some(AddressParam(p, "gateway_address")))
    ensures k == ExpectedDns ==>
      (o.succeeded <==> Link(w).Some? && Link(w).value.dns == Some(AddressParam(p, "dns_address")))
    ensures k in {ExpectedAddress, ExpectedGateway, ExpectedDns} && o.Returned? ==> o.feedback == ""
    ensures k == CanPing ==> (o.succeeded <==> w.pingStatus == 0)
    ensures k == CanPing ==>
      o.feedback == PingHost(ifname, Format(AddressParam(p, "ping_address")), w.pingStatus, w.pingOutput).1
  {
    match k
    case WiFiConnection =>
      ConnectCheck(ifname, StrParam(p, "ssid"), StrParam(p, "passphrase"), w)
    case ExpectedAddress =>
      AddressCheck(NetworkParam(p, "address_network"), w)
    case ExpectedGateway =>
      Returned(Link(w).Some? && Link(w).value.gateway == Some(AddressParam(p, "gateway_address")), "")
    case ExpectedDns =>
      Returned(Link(w).Some? && Link(w).value.dns == Some(AddressParam(p, "dns_address")), "")
    case CanPing =>
      var (success, output) := PingHost(ifname, Format(AddressParam(p, "ping_address")), w.pingStatus, w.pingOutput);
      Returned(success, output)
  }

  /** `test.run()` for the DNS and HTTP checks: each queries the domain,
      answer, network and DNS server its own parameters name. */
  function ServiceCheck(k: CheckKind, p: Params, w: World): (o: Outcome)
    requires !IsStateKind(k)
    ensures (k in {ResolvesFqdn, ResolvesServiceDomain, ResolvesExternalDomain, ResolvesExternalOnline}
             && Link(w).None?) ==> o == Raised("No IPv4 Link")
    ensures k == ResolvesFqdn ==> o == ExactDnsCheck(StrParam(p, "fqdn"), StrParam(p, "fqdn_answer"), w)
    ensures k == ResolvesServiceDomain ==> o == ExactDnsCheck(StrParam(p, "svc_fqdn"), StrParam(p, "svc_fqdn_answer"), w)
    ensures k == ResolvesExternalDomain ==>
      o == ExactDnsCheck(StrParam(p, "external_fqdn"), StrParam(p, "external_fqdn_answer"), w)
    ensures k == ResolvesExternalOnline ==>
      o == OnlineDnsCheck(StrParam(p, "external_fqdn"), NetworkParam(p, "external_fqdn_answer_network"), w)
    ensures k == DashboardPage ==> o == PageCheck(StrParam(p, "fqdn"), AddressParam(p, "dns_address"), DashboardTitle, w)
    ensures k == ZimManagerPage ==>
      o == PageCheck(StrParam(p, "zim_manager_fqdn"), AddressParam(p, "dns_address"), ZimManagerTitle, w)
  {
    match k
    case ResolvesFqdn =>
      ExactDnsCheck(StrParam(p, "fqdn"), StrParam(p, "fqdn_answer"), w)
    case ResolvesServiceDomain =>
      ExactDnsCheck(StrParam(p, "svc_fqdn"), StrParam(p, "svc_fqdn_answer"), w)
    case ResolvesExternalDomain =>
      ExactDnsCheck(StrParam(p, "external_fqdn"), StrParam(p, "external_fqdn_answer"), w)
    case ResolvesExternalOnline =>
      OnlineDnsCheck(StrParam(p, "external_fqdn"), NetworkParam(p, "external_fqdn_answer_network"), w)
    case DashboardPage =>
      PageCheck(StrParam(p, "fqdn"), AddressParam(p, "dns_address"), DashboardTitle, w)
    case ZimManagerPage =>
      PageCheck(StrParam(p, "zim_manager_fqdn"), AddressParam(p, "dns_address"), ZimManagerTitle, w)
  }

  /** `test.run()` for each kind of check: the checks of the device's own
      state and the DNS and HTTP checks, each its own class's `run`. */
  function RunCheck(k: CheckKind, p: Params, ifname: string, w: World): (o: Outcome)
    requires WellTyped(k, p)
    ensures IsStateKind(k) ==> o == StateCheck(k, p, ifname, w)
    ensures !IsStateKind(k) ==> o == ServiceCheck(k, p, w)
  {
    if IsStateKind(k) then StateCheck(k, p, ifname, w) else ServiceCheck(k, p, w)
  }

  /** A hotspot that answers the fqdn with the TTL-0 record of the expected
      address passes the fqdn check, whatever else the answer holds. */
  lemma FqdnCheckPasses(p: Params, ifname: string, w: World, l: IP4Link, more: seq<string>)
    requires WellTyped(ResolvesFqdn, p) && Link(w) == Some(l)
    requires var fqdn := StrParam(p, "fqdn");
      w.resolve(Format(l.address), Str(OptionFormat(l.dns)), fqdn)
        == Ok([RecordText(fqdn, "0", StrParam(p, "fqdn_answer"))] + more)
    ensures RunCheck(ResolvesFqdn, p, ifname, w) == Returned(true, StrParam(p, "fqdn_answer"))
  {
  }

  // ---------------------------------------------------------------------
  // The command's parameter bag

  /** The parameters the integration command passes, from the
      configuration. */
  function CommandParams(c: Config): Params
  {
    map[
      "ssid" := StrValue(c.ssid),
      "passphrase" := StrValue(c.passphrase),
      "dhcp_timeout" := IntValue(c.dhcpTimeout),
      "address_network" := NetworkValue(c.addressNetwork),
      "gateway_address" := AddressValue(c.gatewayAddress),
      "dns_address" := AddressValue(c.dnsAddress),
      "ping_address" := AddressValue(c.pingAddress),
      "fqdn" := StrValue(Fqdn(c)),
      "fqdn_answer" := StrValue(Format(c.gatewayAddress)),
      "svc_fqdn" := StrValue(Join([c.svcDomain, Fqdn(c)], '.')),
      "svc_fqdn_answer" := StrValue(Format(c.gatewayAddress)),
      "external_fqdn" := StrValue("apple.com"),
      "external_fqdn_answer" := StrValue(Format(c.dnsCapturedAddress)),
      "external_fqdn_answer_network" := NetworkValue(Network(Address(17, 0, 0, 0), 8)),
      "zim_manager_fqdn" := StrValue(Join([c.zimManagerDomain, Fqdn(c)], '.'))
    ]
  }

  /** What the bag holds for the connection and address checks. */
  lemma CommandLinkParams(c: Config)
    ensures var all := CommandParams(c);
      && Lookup(all, "ssid") == StrValue(c.ssid)
      && Lookup(all, "passphrase") == StrValue(c.passphrase)
      && Lookup(all, "dhcp_timeout") == IntValue(c.dhcpTimeout)
      && Lookup(all, "address_network") == NetworkValue(c.addressNetwork)
  {
  }

  /** What the bag holds for the gateway, DNS and ping checks. */
  lemma CommandRouteParams(c: Config)
    ensures var all := CommandParams(c);
      && Lookup(all, "gateway_address") == AddressValue(c.gatewayAddress)
      && Lookup(all, "dns_address") == AddressValue(c.dnsAddress)
      && Lookup(all, "ping_address") == AddressValue(c.pingAddress)
  {
  }

  /** What the bag holds for the hotspot's own domains: the fqdn and its
      service sub-domain both answer with the gateway. */
  lemma CommandDomainParams(c: Config)
    ensures var all := CommandParams(c);
      && Lookup(all, "fqdn") == StrValue(Fqdn(c))
      && Lookup(all, "fqdn_answer") == StrValue(Format(c.gatewayAddress))
      && Lookup(all, "svc_fqdn") == StrValue(Join([c.svcDomain, Fqdn(c)], '.'))
      && Lookup(all, "svc_fqdn_answer") == StrValue(Format(c.gatewayAddress))
      && Lookup(all, "zim_manager_fqdn") == StrValue(Join([c.zimManagerDomain, Fqdn(c)], '.'))
  {
  }

  /** What the bag holds for the external domain: apple.com, captured to
      the configured address offline, inside 17.0.0.0/8 online. */
  lemma CommandExternalParams(c: Config)
    ensures var all := CommandParams(c);
      && Lookup(all, "external_fqdn") == StrValue("apple.com")
      && Lookup(all, "external_fqdn_answer") == StrValue(Format(c.dnsCapturedAddress))
      && Lookup(all, "external_fqdn_answer_network") == NetworkValue(Network(Address(17, 0, 0, 0), 8))
  {
  }

  /** The command's bag holds no stray parameter: its keys are exactly the
      names some check declares. */
  lemma CommandParamsKeys(c: Config)
    ensures forall key :: key in CommandParams(c) <==> exists k :: key in DeclaredNames(k)
  {
    forall key | key in CommandParams(c) ensures exists k :: key in DeclaredNames(k) {
      CommandKeys(c);
      DeclaringCheck(key);
    }
    forall k ensures DeclaredNames(k) <= CommandParams(c).Keys {
      DeclaredInCommand(c, k);
    }
  }

  /** Every name a check declares is a key of the command's bag. */
  lemma DeclaredInCommand(c: Config, k: CheckKind)
    ensures DeclaredNames(k) <= CommandParams(c).Keys
  {
    forall key | key in DeclaredNames(k) ensures key in CommandParams(c) {
      var j :| 0 <= j < |Declared(k)| && Declared(k)[j].0 == key;
      assert j < 2;
    }
  }

  /** Each key of the command's bag is declared by some check. */
  lemma DeclaringCheck(key: string)
    requires key in CommandNames
    ensures exists k :: key in DeclaredNames(k)
  {
    if key == "ssid" { DeclaresName(WiFiConnection, 0, key); }
    else if key == "passphrase" { DeclaresName(WiFiConnection, 1, key); }
    else if key == "address_network" { DeclaresName(ExpectedAddress, 0, key); }
    else if key == "dhcp_timeout" { DeclaresName(ExpectedAddress, 1, key); }
    else if key == "gateway_address" { DeclaresName(ExpectedGateway, 0, key); }
    else if key == "dns_address" { DeclaresName(ExpectedDns, 0, key); }
    else if key == "ping_address" { DeclaresName(CanPing, 0, key); }
    else if key == "fqdn" { DeclaresName(ResolvesFqdn, 0, key); }
    else if key == "fqdn_answer" { DeclaresName(ResolvesFqdn, 1, key); }
    else if key == "svc_fqdn" { DeclaresName(ResolvesServiceDomain, 0, key); }
    else if key == "svc_fqdn_answer" { DeclaresName(ResolvesServiceDomain, 1, key); }
    else if key == "external_fqdn" { DeclaresName(ResolvesExternalDomain, 0, key); }
    else if key == "external_fqdn_answer" { DeclaresName(ResolvesExternalDomain, 1, key); }
    else if key == "external_fqdn_answer_network" { DeclaresName(ResolvesExternalOnline, 1, key); }
    else { DeclaresName(ZimManagerPage, 0, key); }
  }

  /** The fifteen names the command's bag holds. */
  lemma CommandKeys(c: Config)
    ensures CommandParams(c).Keys == CommandNames
  {
  }

  const CommandNames: set<string> := {
    "ssid", "passphrase", "dhcp_timeout", "address_network", "gateway_address",
    "dns_address", "ping_address", "fqdn", "fqdn_answer", "svc_fqdn", "svc_fqdn_answer",
    "external_fqdn", "external_fqdn_answer", "external_fqdn_answer_network", "zim_manager_fqdn"}

  /** A name at some position of a check's declarations is a declared name. */
  lemma DeclaresName(k: CheckKind, j: nat, key: string)
    requires j < |Declared(k)| && Declared(k)[j].0 == key
    ensures key in DeclaredNames(k)
  {
  }

  /** The bag satisfies the connection, address, route and ping checks. */
  lemma CommandParamsSufficeLink(c: Config, k: CheckKind)
    requires k in {WiFiConnection, ExpectedAddress, ExpectedGateway, ExpectedDns, CanPing}
    ensures WellTyped(k, CommandParams(c))
  {
    CommandLinkParams(c);
    CommandRouteParams(c);
    forall j | 0 <= j < |Declared(k)| ensures DeclaredOk(k, CommandParams(c), j) {
    }
  }

  /** The bag satisfies the DNS and HTTP checks. */
  lemma CommandParamsSufficeNames(c: Config, k: CheckKind)
    requires k !in {WiFiConnection, ExpectedAddress, ExpectedGateway, ExpectedDns, CanPing}
    ensures WellTyped(k, CommandParams(c))
  {
    CommandRouteParams(c);
    CommandDomainParams(c);
    CommandExternalParams(c);
    forall j | 0 <= j < |Declared(k)| ensures DeclaredOk(k, CommandParams(c), j) {
    }
  }

  /** Whatever the configuration, the command's bag satisfies every check of
      either collection, so no device aborts on a parameter error. */
  lemma CommandParamsSuffice(c: Config, k: CheckKind)
    ensures GetTestParams(k, CommandParams(c)).Ok?
  {
    if k in {WiFiConnection, ExpectedAddress, ExpectedGateway, ExpectedDns, CanPing} {
      CommandParamsSufficeLink(c, k);
    } else {
      CommandParamsSufficeNames(c, k);
    }
  }

  /** The command's bag satisfies every check. */
  lemma CommandParamsValidate(c: Config)
    ensures forall k :: GetTestParams(k, CommandParams(c)).Ok?
  {
    forall k ensures GetTestParams(k, CommandParams(c)).Ok? {
      CommandParamsSuffice(c, k);
    }
  }
}

=== FILE: context.dfy ===
/** The run configuration and its process-wide singleton: defaults, the
    Broadcom vendor exclusion applied after construction, the hotspot's fully
    qualified domain name, and the set-up-once / get-after-set-up lifecycle. */
module Context {
  import opened Outcomes
  import opened Strings
  import opened IPv4

  const BroadcomVendor: string := "Broadcom Corp."

  /** The configuration fields the test bench reads (database handle, logger
      and file paths are not modelled). */
  datatype Config = Config(
    debug: bool,
    command: string,
    dhcpTimeout: int,
    tld: string,
    fld: string,
    svcDomain: string,
    zimManagerDomain: string,
    ssid: string,
    passphrase: string,
    maxDevices: int,
    excludeBroadcom: bool,
    excludeIfnames: seq<string>,
    excludeVendors: seq<string>,
    excludeHwaddrs: seq<string>,
    addressNetwork: Network,
    pingAddress: Address,
    gatewayAddress: Address,
    dnsAddress: Address,
    dnsCapturedAddress: Address,
    assumeOnline: bool,
    contentId: string)

  /** The hotspot's own address, 192.168.2.1. */
  const HotspotAddress: Address := Address(192, 168, 2, 1)

  /** The configuration built from defaults, for a given sub-command. */
  function Defaults(command: string): Config
  {
    Config(
      debug := false,
      command := command,
      dhcpTimeout := 20,
      tld := "Hotspot",
      fld := "kiwix",
      svcDomain := "browse",
      zimManagerDomain := "zim-manager",
      ssid := "Kiwix Hotspot",
      passphrase := "",
      maxDevices := 0,
      excludeBroadcom := false,
      excludeIfnames := [],
      excludeVendors := [],
      excludeHwaddrs := [],
      addressNetwork := Network(Address(192, 168, 2, 0), 24),
      pingAddress := HotspotAddress,
      gatewayAddress := HotspotAddress,
      dnsAddress := HotspotAddress,
      dnsCapturedAddress := Address(198, 51, 100, 1),
      assumeOnline := false,
      contentId := "")
  }

  /** The default addresses agree with the default network: it is a strict
      network and the ping, gateway and DNS addresses all lie inside it. */
  lemma DefaultsConsistent(command: string)
    ensures Strict(Defaults(command).addressNetwork)
    ensures InNetwork(Defaults(command).pingAddress, Defaults(command).addressNetwork)
    ensures InNetwork(Defaults(command).gatewayAddress, Defaults(command).addressNetwork)
    ensures InNetwork(Defaults(command).dnsAddress, Defaults(command).addressNetwork)
    ensures !InNetwork(Defaults(command).dnsCapturedAddress, Defaults(command).addressNetwork)
  {
    assert HostSpan(24) == 256;
  }

  /** `__post_init__`: with `exclude_broadcom`, the Broadcom vendor is added to
      the vendor exclusions unless already there. */
  function PostInit(c: Config): (r: Config)
    ensures r.excludeBroadcom ==> BroadcomVendor in r.excludeVendors
    ensures !c.excludeBroadcom ==> r == c
    ensures r.excludeVendors == c.excludeVendors || r.excludeVendors == c.excludeVendors + [BroadcomVendor]
    ensures r == c.(excludeVendors := r.excludeVendors)
    ensures forall v :: v in r.excludeVendors <==> v in c.excludeVendors || (c.excludeBroadcom && v == BroadcomVendor)
  {
    if c.excludeBroadcom && BroadcomVendor !in c.excludeVendors then
      c.(excludeVendors := c.excludeVendors + [BroadcomVendor])
    else
      c
  }

  /** Running `__post_init__` again changes nothing. */
  lemma PostInitIdempotent(c: Config)
    ensures PostInit(PostInit(c)) == PostInit(c)
  {
  }

  /** With the default configuration the exclusion step changes nothing. */
  lemma DefaultsUnaffectedByPostInit(command: string)
    ensures PostInit(Defaults(command)) == Defaults(command)
  {
  }

  /** The `fqdn` property: second-level label, a dot, top-level label. */
  function Fqdn(c: Config): string
  {
    c.fld + "." + c.tld
  }

  /** The fqdn's dot-separated labels are those of `fld` followed by those of
      `tld`. */
  lemma FqdnLabels(c: Config)
    ensures Split(Fqdn(c), '.') == Split(c.fld, '.') + Split(c.tld, '.')
  {
    SplitAround(c.fld, '.', c.tld);
  }

  /** Dot-free labels make a two-label fqdn. */
  lemma FqdnTwoLabels(c: Config)
    requires '.' !in c.fld && '.' !in c.tld
    ensures Split(Fqdn(c), '.') == [c.fld, c.tld]
  {
    FqdnLabels(c);
  }

  /** With the defaults, the fqdn is `kiwix.Hotspot`. */
  lemma DefaultFqdn(command: string)
    ensures Fqdn(Defaults(command)) == "kiwix.Hotspot"
    ensures Split(Fqdn(Defaults(command)), '.') == ["kiwix", "Hotspot"]
  {
    var c := Defaults(command);
    assert '.' !in c.fld && '.' !in c.tld;
    FqdnTwoLabels(c);
  }

  /** The class-level singleton slot. */
  datatype Registry = Registry(instance: Option<Config>)

  const Uninitialized: Registry := Registry(None)

  /** `Context.setup(**kwargs)`: refuses a second set-up; otherwise stores the
      instance built from `fields` (whose construction runs `__post_init__`)
      and runs `__post_init__` on it once more. */
  function Setup(reg: Registry, fields: Config): (r: Raises<Registry>)
    ensures r.Raise? <==> reg.instance.Some?
    ensures r.Raise? ==> r.error == "Already inited Context"
    ensures r.Ok? ==> r.value.instance == Some(PostInit(fields))
  {
    if reg.instance.Some? then
      Raise("Already inited Context")
    else
      var built := PostInit(fields);
      PostInitIdempotent(fields);
      Ok(Registry(Some(PostInit(built))))
  }

  /** `Context.get()` */
  function Get(reg: Registry): (r: Raises<Config>)
    ensures r.Ok? <==> reg.instance.Some?
    ensures r.Ok? ==> r.value == reg.instance.value
  {
    if reg.instance.None? then Raise("Uninitialized context") else Ok(reg.instance.value)
  }

  /** Lifecycle: `get` fails before `setup`; the first `setup` succeeds and
      `get` then returns the configured instance, exclusions applied exactly
      once; any further `setup` raises and leaves that instance in place. */
  lemma Lifecycle(fields: Config, again: Config)
    ensures Get(Uninitialized).Raise?
    ensures Setup(Uninitialized, fields).Ok?
    ensures Get(Setup(Uninitialized, fields).value) == Ok(PostInit(fields))
    ensures Setup(Setup(Uninitialized, fields).value, again) == Raise("Already inited Context")
  {
    PostInitIdempotent(fields);
  }
}

=== FILE: decimal.dfy ===
/** Decimal text for integers: Python's `str(n)` and `int(s)` (base 10). */
module Decimal {
  import opened Outcomes

  predicate IsDigit(c: char)
  {
    '0' <= c <= '9'
  }

  predicate AllDigits(s: string)
  {
    forall i :: 0 <= i < |s| ==> IsDigit(s[i])
  }

  function DigitValue(c: char): nat
    requires IsDigit(c)
  {
    c as int - '0' as int
  }

  function DigitChar(d: nat): (c: char)
    requires d < 10
    ensures IsDigit(c) && DigitValue(c) == d
  {
    ('0' as int + d) as char
  }

  /** Length of the longest run of digits at the start of `s`. */
  function DigitSpan(s: string): (n: nat)
    ensures n <= |s| && AllDigits(s[..n])
    ensures n < |s| ==> !IsDigit(s[n])
  {
    if |s| > 0 && IsDigit(s[0]) then
      var n := 1 + DigitSpan(s[1..]);
      assert s[..n] == [s[0]] + s[1..][..n - 1];
      n
    else
      0
  }

  /** The digit run at the start of digits followed by a non-digit is
      exactly those digits. */
  lemma {:induction false} DigitSpanOfDigits(d: string, rest: string)
    requires AllDigits(d)
    requires rest == [] || !IsDigit(rest[0])
    ensures DigitSpan(d + rest) == |d|
    decreases |d|
  {
    if |d| > 0 {
      assert (d + rest)[1..] == d[1..] + rest;
      DigitSpanOfDigits(d[1..], rest);
    }
  }

  /** The number a string of decimal digits denotes (leading zeros allowed). */
  function Value(s: string): nat
    requires AllDigits(s)
  {
    if |s| == 0 then 0 else Value(s[..|s| - 1]) * 10 + DigitValue(s[|s| - 1])
  }

  /** Canonical decimal text: digits only, no leading zero except "0" itself. */
  predicate Canonical(s: string)
  {
    |s| >= 1 && AllDigits(s) && (|s| > 1 ==> s[0] != '0')
  }

  /** `str(n)` for a natural number. */
  function FormatNat(n: nat): (s: string)
    ensures Canonical(s)
    ensures Value(s) == n
  {
    if n < 10 then
      [DigitChar(n)]
    else
      var init := FormatNat(n / 10);
      var s := init + [DigitChar(n % 10)];
      assert s[..|s| - 1] == init;
      s
  }

  /** Numbers below 1000 print with at most three digits. */
  lemma FormatNatShort(n: nat)
    requires n < 1000
    ensures |FormatNat(n)| <= 3
  {
    if n >= 100 {
      assert |FormatNat(n / 10 / 10)| == 1;
      assert |FormatNat(n / 10)| == 2;
    } else if n >= 10 {
      assert |FormatNat(n / 10)| == 1;
    }
  }

  /** A canonical digit string with two or more digits denotes at least 10. */
  lemma {:induction false} CanonicalAtLeastTen(s: string)
    requires Canonical(s) && |s| >= 2
    ensures Value(s) >= 10
    decreases |s|
  {
    var init := s[..|s| - 1];
    if |init| >= 2 {
      CanonicalAtLeastTen(init);
    } else {
      assert init[0] == s[0];
    }
  }

  /** Canonical decimal text is exactly what `str` prints for its value. */
  lemma {:induction false} FormatValue(s: string)
    requires Canonical(s)
    ensures FormatNat(Value(s)) == s
    decreases |s|
  {
    if |s| >= 2 {
      var init := s[..|s| - 1];
      var last := s[|s| - 1];
      CanonicalAtLeastTen(s);
      assert Canonical(init) by {
        if |init| > 1 { assert init[0] == s[0]; }
      }
      assert Value(init) >= 1 by {
        if |init| >= 2 { CanonicalAtLeastTen(init); }
        else { assert init[0] == s[0]; }
      }
      FormatValue(init);
      assert Value(s) / 10 == Value(init);
      assert Value(s) % 10 == DigitValue(last);
      assert DigitChar(DigitValue(last)) == last;
      assert s == init + [last];
    }
  }

  /** `str(i)` for any integer: the digits of its magnitude, after a `-`
      exactly when it is negative. */
  function FormatInt(i: int): (s: string)
    ensures i >= 0 ==> Canonical(s) && Value(s) == i
    ensures i < 0 ==> |s| >= 2 && s[0] == '-' && Canonical(s[1..]) && Value(s[1..]) == -i
  {
    if i < 0 then "-" + FormatNat(-i) else FormatNat(i)
  }

  /** Text `int` accepts: an optional sign followed by one or more decimal
      digits. */
  predicate IntLiteral(s: string)
  {
    || (|s| > 0 && AllDigits(s))
    || (|s| > 1 && (s[0] == '-' || s[0] == '+') && AllDigits(s[1..]))
  }

  /** `int(s)`: an optional sign followed by one or more decimal digits. */
  function ParseInt(s: string): (r: Raises<int>)
  {
    var error := Raise("invalid literal for int() with base 10: '" + s + "'");
    if |s| > 0 && (s[0] == '-' || s[0] == '+') then
      var digits := s[1..];
      if |digits| > 0 && AllDigits(digits) then
        var n: int := Value(digits);
        var v := if s[0] == '-' then -n else n;
        Ok(v)
      else
        error
    else if |s| > 0 && AllDigits(s) then
      Ok(Value(s))
    else
      error
  }

  /** `int` accepts exactly an optional sign and one or more digits, reads
      them as a signed decimal number, and refuses anything else with
      Python's message. */
  lemma ParseIntAccepts(s: string)
    ensures ParseInt(s).Ok? <==> IntLiteral(s)
    ensures ParseInt(s).Raise? ==> ParseInt(s).error == "invalid literal for int() with base 10: '" + s + "'"
    ensures ParseInt(s).Ok? && AllDigits(s) ==> ParseInt(s).value == Value(s)
    ensures ParseInt(s).Ok? && s[0] == '+' ==> ParseInt(s).value == Value(s[1..])
    ensures ParseInt(s).Ok? && s[0] == '-' ==> ParseInt(s).value == -(Value(s[1..]) as int)
  {
  }

  /** `int(str(i)) == i` */
  lemma ParseIntFormatInt(i: int)
    ensures ParseInt(FormatInt(i)) == Ok(i)
  {
    if i < 0 {
      assert FormatInt(i)[1..] == FormatNat(-i);
    }
  }

  /** What `int` accepts without a sign or leading zero, `str` prints back. */
  lemma FormatIntParseInt(s: string)
    requires Canonical(s)
    ensures ParseInt(s).Ok? && FormatInt(ParseInt(s).value) == s
  {
    FormatValue(s);
  }
}

=== FILE: dns.dfy ===
/** The DNS verdicts of the test bench: one A query whose first answer RRset,
    printed as text, is either compared verbatim with the expected record or
    parsed with the answer pattern `^(.+)\. (\d+) IN A ([0-9.]+)`. The query
    itself is a parameter: the reply it produced. */
module Dns {
  import opened Outcomes
  import opened Strings
  import opened Decimal
  import opened IPv4

  /** The reply to one A query: the text of each answer RRset, or the
      exception the query raised (timeout, unreachable server). */
  type Reply = Raises<seq<string>>

  /** The network: the reply to an A query for `domain` sent from the
      address `source` to the server `server` (both given as text). */
  type Resolver = (string, string, string) -> Reply

  /** `resp.answer[0].to_text()`: an empty answer section raises. */
  function FirstAnswer(reply: Reply): (r: Raises<string>)
  {
    var answers :- reply;
    if |answers| == 0 then Raise("list index out of range") else Ok(answers[0])
  }

  const Marker: string := " IN A "

  /** What follows the domain in a record's text: `. <ttl> IN A <address>`. */
  function RecordTail(ttl: string, address: string): string
  {
    ". " + (ttl + (Marker + address))
  }

  /** The record text `<domain>. <ttl> IN A <address>`. */
  function RecordText(domain: string, ttl: string, address: string): string
  {
    domain + RecordTail(ttl, address)
  }

  predicate IsAddressChar(c: char)
  {
    IsDigit(c) || c == '.'
  }

  predicate AllAddressChars(s: string)
  {
    forall i :: 0 <= i < |s| ==> IsAddressChar(s[i])
  }

  /** Length of the longest run of `[0-9.]` at the start of `s`. */
  function AddressSpan(s: string): (n: nat)
    ensures n <= |s| && AllAddressChars(s[..n])
    ensures n < |s| ==> !IsAddressChar(s[n])
  {
    if |s| > 0 && IsAddressChar(s[0]) then
      var n := 1 + AddressSpan(s[1..]);
      assert s[..n] == [s[0]] + s[1..][..n - 1];
      n
    else
      0
  }

  /** The pattern after the domain group, `\. (\d+) IN A ([0-9.]+)`, anchored
      at the start of `t`. Both groups are greedy and nothing constrains
      what follows the address, so each takes its longest run. */
  function MatchTail(t: string): Option<(string, string)>
  {
    if |t| >= 2 && t[0] == '.' && t[1] == ' ' then MatchTtl(t[2..]) else None
  }

  /** `(\d+) IN A ([0-9.]+)` anchored at the start of `u`. */
  function MatchTtl(u: string): Option<(string, string)>
  {
    var n := DigitSpan(u);
    if n >= 1 && Marker <= u[n..] then MatchAddress(u[..n], u[n + |Marker|..]) else None
  }

  /** The address group `([0-9.]+)` at the start of `v`, after the TTL
      group `ttl`. */
  function MatchAddress(ttl: string, v: string): Option<(string, string)>
  {
    var m := AddressSpan(v);
    if m >= 1 then Some((ttl, v[..m])) else None
  }

  /** The address group is a non-empty run of `[0-9.]` at the start of `v`. */
  lemma MatchAddressSound(ttl: string, v: string)
    requires MatchAddress(ttl, v).Some?
    ensures var g := MatchAddress(ttl, v).value;
      g.0 == ttl && |g.1| >= 1 && AllAddressChars(g.1) && g.1 <= v
  {
  }

  /** The TTL group is a non-empty digit run, and the groups with the marker
      between them start `u`. */
  lemma MatchTtlSound(u: string)
    requires MatchTtl(u).Some?
    ensures var g := MatchTtl(u).value;
      && |g.0| >= 1 && AllDigits(g.0)
      && |g.1| >= 1 && AllAddressChars(g.1)
      && g.0 + (Marker + g.1) <= u
  {
    var n := DigitSpan(u);
    var v := u[n + |Marker|..];
    MatchAddressSound(u[..n], v);
    var g := MatchTtl(u).value;
    assert u[n..][|Marker|..] == v;
    PrefixAfter(u[n..], |Marker|, g.1);
    assert u[n..][..|Marker|] == Marker;
    PrefixAfter(u, n, Marker + g.1);
  }

  /** What the tail pattern matched: a digit run, an address run, and the
      tail text they make sits at the start of `t`. */
  lemma MatchTailSound(t: string)
    requires MatchTail(t).Some?
    ensures var g := MatchTail(t).value;
      && |g.0| >= 1 && AllDigits(g.0)
      && |g.1| >= 1 && AllAddressChars(g.1)
      && RecordTail(g.0, g.1) <= t
  {
    MatchTtlSound(t[2..]);
    var g := MatchTail(t).value;
    PrefixAfter(t, 2, g.0 + (Marker + g.1));
    assert t[..2] == ". ";
  }

  /** The largest `k` in `1..limit` that satisfies `p`. */
  function Greatest(p: nat -> bool, limit: nat): (r: Option<nat>)
    ensures r.Some? ==> 1 <= r.value <= limit && p(r.value)
    decreases limit
  {
    if limit == 0 then None
    else if p(limit) then Some(limit)
    else Greatest(p, limit - 1)
  }

  /** Nothing in `1..limit` that satisfies `p` lies past what `Greatest`
      picks. */
  lemma {:induction false} GreatestMaximal(p: nat -> bool, limit: nat, j: nat)
    requires 1 <= j <= limit && p(j)
    ensures Greatest(p, limit).Some? && j <= Greatest(p, limit).value
    decreases limit
  {
    if !p(limit) {
      GreatestMaximal(p, limit - 1, j);
    }
  }

  /** `Greatest` finds `k` when `p` holds there and nowhere after it. */
  lemma {:induction false} GreatestIs(p: nat -> bool, limit: nat, k: nat)
    requires 1 <= k <= limit && p(k)
    requires forall j :: k < j <= limit ==> !p(j)
    ensures Greatest(p, limit) == Some(k)
    decreases limit
  {
    if k < limit {
      assert !p(limit);
      GreatestIs(p, limit - 1, k);
    }
  }

  /** The positions of `s` after which the tail pattern matches. */
  function TailMatcher(s: string): nat -> bool
  {
    (j: nat) => j <= |s| && MatchTail(s[j..]).Some?
  }

  /** The greedy domain group `(.+)`: the largest `k` in `1..limit` after
      which the rest of the pattern matches. */
  function LongestDomain(s: string, limit: nat): (r: Option<nat>)
    requires limit <= |s|
    ensures r.Some? ==> 1 <= r.value <= limit && MatchTail(s[r.value..]).Some?
  {
    Greatest(TailMatcher(s), limit)
  }

  /** The answer pattern's three groups. */
  datatype Answer = Answer(domain: string, ttl: string, address: string)

  /** `RE_DNS_ANSWER.match(text)`: `.` does not match a newline, so the
      domain lies within the first line. */
  function MatchAnswer(s: string): (r: Option<Answer>)
    ensures r.Some? ==> |r.value.domain| >= 1 && '\n' !in r.value.domain
    ensures r.Some? ==> |r.value.ttl| >= 1 && AllDigits(r.value.ttl)
    ensures r.Some? ==> |r.value.address| >= 1 && AllAddressChars(r.value.address)
    ensures r.Some? ==> RecordText(r.value.domain, r.value.ttl, r.value.address) <= s
  {
    var line := BeforeFirst(s, '\n');
    match LongestDomain(s, |line|)
    case None => None
    case Some(k) =>
      var tail := MatchTail(s[k..]).value;
      MatchTailSound(s[k..]);
      var domain := s[..k];
      assert '\n' !in domain by {
        forall i | 0 <= i < k ensures domain[i] != '\n' {
          assert domain[i] == line[i];
        }
      }
      PrefixAfter(s, k, RecordTail(tail.0, tail.1));
      Some(Answer(domain, tail.0, tail.1))
  }

  /** A prefix of `s[k..]` placed after `s[..k]` is a prefix of `s`. */
  lemma PrefixAfter(s: string, k: nat, p: string)
    requires k <= |s| && p <= s[k..]
    ensures s[..k] + p <= s
  {
    var q := s[..k] + p;
    forall i | 0 <= i < |q| ensures q[i] == s[i] {
      if i >= k {
        assert q[i] == p[i - k] == s[k..][i - k];
      }
    }
  }

  /** Inside the record's tail `. <ttl> IN A <address>` no dot other than the
      first one is followed by a space. */
  lemma NoLaterDotSpace(ttl: string, address: string, o: nat)
    requires AllDigits(ttl) && AllAddressChars(address)
    requires 1 <= o && o + 1 < |RecordTail(ttl, address)|
    ensures !(RecordTail(ttl, address)[o] == '.' && RecordTail(ttl, address)[o + 1] == ' ')
  {
    var t := RecordTail(ttl, address);
    var a := 2 + |ttl| + |Marker|;
    if o + 1 >= a {
      assert t[o + 1] == address[o + 1 - a];
    } else if o >= 2 + |ttl| {
      assert t[o] == Marker[o - 2 - |ttl|];
    } else if o >= 2 {
      assert t[o] == ttl[o - 2];
    }
  }

  /** A well-formed record text holds no newline. */
  lemma RecordSingleLine(domain: string, ttl: string, address: string)
    requires '\n' !in domain && AllDigits(ttl) && AllAddressChars(address)
    ensures '\n' !in RecordText(domain, ttl, address)
  {
    var text := RecordText(domain, ttl, address);
    var t := RecordTail(ttl, address);
    assert text == domain + t;
    forall i | 0 <= i < |text| ensures text[i] != '\n' {
      if i < |domain| {
        assert text[i] == domain[i];
      } else {
        var o := i - |domain|;
        assert text[i] == t[o];
        if o >= 2 + |ttl| + |Marker| {
          assert t[o] == address[o - 2 - |ttl| - |Marker|];
        } else if o >= 2 + |ttl| {
          assert t[o] == Marker[o - 2 - |ttl|];
        } else if o >= 2 {
          assert t[o] == ttl[o - 2];
        }
      }
    }
  }

  /** The first line of a newline-free text followed by a line break (or
      nothing) is that text. */
  lemma FirstLine(text: string, rest: string)
    requires '\n' !in text
    requires rest == "" || rest[0] == '\n'
    ensures BeforeFirst(text + rest, '\n') == text
  {
    if rest == "" {
      assert text + rest == text;
    } else {
      IndexOfAfterFree(text, '\n', rest[1..]);
      assert text + rest == text + ['\n'] + rest[1..];
    }
  }

  /** The address group reads back an address run that a non-address
      character (or nothing) ends. */
  lemma MatchAddressOf(ttl: string, address: string, rest: string)
    requires |address| >= 1 && AllAddressChars(address)
    requires rest == "" || !IsAddressChar(rest[0])
    ensures MatchAddress(ttl, address + rest) == Some((ttl, address))
  {
    AddressSpanOfAddress(address, rest);
    assert (address + rest)[..|address|] == address;
  }

  /** The TTL-and-address part reads its two groups back. */
  lemma MatchTtlOf(ttl: string, address: string, rest: string)
    requires |ttl| >= 1 && AllDigits(ttl)
    requires |address| >= 1 && AllAddressChars(address)
    requires rest == "" || !IsAddressChar(rest[0])
    ensures MatchTtl(ttl + (Marker + (address + rest))) == Some((ttl, address))
  {
    var u := ttl + (Marker + (address + rest));
    DigitSpanOfDigits(ttl, Marker + (address + rest));
    assert u[..|ttl|] == ttl;
    assert u[|ttl|..] == Marker + (address + rest);
    assert u[|ttl|..][..|Marker|] == Marker;
    assert u[|ttl| + |Marker|..] == address + rest;
    MatchAddressOf(ttl, address, rest);
  }

  /** The tail pattern reads the TTL and the address back. */
  lemma MatchRecordTail(ttl: string, address: string, rest: string)
    requires |ttl| >= 1 && AllDigits(ttl)
    requires |address| >= 1 && AllAddressChars(address)
    requires rest == "" || rest[0] == '\n'
    ensures MatchTail(RecordTail(ttl, address) + rest) == Some((ttl, address))
  {
    var t := RecordTail(ttl, address) + rest;
    assert t[2..] == ttl + (Marker + (address + rest));
    MatchTtlOf(ttl, address, rest);
  }

  /** Past the domain, no position of the record's line starts the tail. */
  lemma NoLaterTail(domain: string, ttl: string, address: string, rest: string, j: nat)
    requires AllDigits(ttl) && AllAddressChars(address)
    requires rest == "" || rest[0] == '\n'
    requires |domain| < j <= |RecordText(domain, ttl, address)|
    ensures MatchTail((RecordText(domain, ttl, address) + rest)[j..]).None?
  {
    var s := RecordText(domain, ttl, address) + rest;
    NoLaterDotSpaceIn(domain, ttl, address, rest, j);
    assert j + 1 < |s| ==> s[j..][0] == s[j] && s[j..][1] == s[j + 1];
  }

  /** Past the domain, no dot of the record's line is followed by a space. */
  lemma NoLaterDotSpaceIn(domain: string, ttl: string, address: string, rest: string, j: nat)
    requires AllDigits(ttl) && AllAddressChars(address)
    requires rest == "" || rest[0] == '\n'
    requires |domain| < j <= |RecordText(domain, ttl, address)|
    ensures var s := RecordText(domain, ttl, address) + rest;
      !(j + 1 < |s| && s[j] == '.' && s[j + 1] == ' ')
  {
    var text := RecordText(domain, ttl, address);
    var s := text + rest;
    var t := RecordTail(ttl, address);
    var k := |domain|;
    assert text == domain + t;
    if j + 1 < |text| {
      NoLaterDotSpace(ttl, address, j - k);
      assert s[j] == t[j - k] && s[j + 1] == t[j + 1 - k];
    } else if j + 1 == |text| {
      assert j + 1 < |s| ==> s[j + 1] == '\n';
    } else {
      assert j < |s| ==> s[j] == '\n';
    }
  }

  /** The pattern reads back the groups of a well-formed record text that
      ends its line: `MatchAnswer` inverts `RecordText`. */
  lemma MatchRecord(domain: string, ttl: string, address: string, rest: string)
    requires |domain| >= 1 && '\n' !in domain
    requires |ttl| >= 1 && AllDigits(ttl)
    requires |address| >= 1 && AllAddressChars(address)
    requires rest == "" || rest[0] == '\n'
    ensures MatchAnswer(RecordText(domain, ttl, address) + rest) == Some(Answer(domain, ttl, address))
  {
    var s := RecordText(domain, ttl, address) + rest;
    var k := |domain|;
    RecordDomain(domain, ttl, address, rest);
    RecordTailAt(domain, ttl, address, rest);
    MatchAnswerAt(s, k, ttl, address);
  }

  /** In a record's text the tail pattern matches right after the domain. */
  lemma RecordTailAt(domain: string, ttl: string, address: string, rest: string)
    requires |ttl| >= 1 && AllDigits(ttl)
    requires |address| >= 1 && AllAddressChars(address)
    requires rest == "" || rest[0] == '\n'
    ensures (RecordText(domain, ttl, address) + rest)[..|domain|] == domain
    ensures MatchTail((RecordText(domain, ttl, address) + rest)[|domain|..]) == Some((ttl, address))
  {
    var s := RecordText(domain, ttl, address) + rest;
    assert s == domain + (RecordTail(ttl, address) + rest);
    assert s[|domain|..] == RecordTail(ttl, address) + rest;
    MatchRecordTail(ttl, address, rest);
  }

  /** In a record's text the domain group ends where the domain does. */
  lemma RecordDomain(domain: string, ttl: string, address: string, rest: string)
    requires |domain| >= 1 && '\n' !in domain
    requires |ttl| >= 1 && AllDigits(ttl)
    requires |address| >= 1 && AllAddressChars(address)
    requires rest == "" || rest[0] == '\n'
    ensures var s := RecordText(domain, ttl, address) + rest;
      LongestDomain(s, |BeforeFirst(s, '\n')|) == Some(|domain|)
  {
    var text := RecordText(domain, ttl, address);
    var s := text + rest;
    var k := |domain|;
    RecordSingleLine(domain, ttl, address);
    FirstLine(text, rest);
    RecordTailAt(domain, ttl, address, rest);
    forall j | k < j <= |text| ensures MatchTail(s[j..]).None? {
      NoLaterTail(domain, ttl, address, rest, j);
    }
    LongestDomainIs(s, |text|, k);
  }

  /** No position up to `limit` where the tail matches lies past the one
      `LongestDomain` picks: the group is greedy. */
  lemma LongestDomainMaximal(s: string, limit: nat, j: nat)
    requires limit <= |s| && 1 <= j <= limit && MatchTail(s[j..]).Some?
    ensures LongestDomain(s, limit).Some? && j <= LongestDomain(s, limit).value
  {
    GreatestMaximal(TailMatcher(s), limit, j);
  }

  /** `LongestDomain` finds `k` when the tail matches there and nowhere
      after it. */
  lemma LongestDomainIs(s: string, limit: nat, k: nat)
    requires 1 <= k <= limit <= |s|
    requires MatchTail(s[k..]).Some?
    requires forall j :: k < j <= limit ==> MatchTail(s[j..]).None?
    ensures LongestDomain(s, limit) == Some(k)
  {
    var p := TailMatcher(s);
    forall j | k < j <= limit ensures !p(j) {
      assert MatchTail(s[j..]).None?;
    }
    GreatestIs(p, limit, k);
  }

  /** `MatchAnswer` reports the groups found at the longest domain. */
  lemma MatchAnswerAt(s: string, k: nat, ttl: string, address: string)
    requires k <= |s| && LongestDomain(s, |BeforeFirst(s, '\n')|) == Some(k)
    requires MatchTail(s[k..]) == Some((ttl, address))
    ensures MatchAnswer(s) == Some(Answer(s[..k], ttl, address))
  {
  }

  lemma AddressSpanOfAddress(a: string, rest: string)
    requires AllAddressChars(a)
    requires rest == [] || !IsAddressChar(rest[0])
    ensures AddressSpan(a + rest) == |a|
    decreases |a|
  {
    if |a| > 0 {
      assert (a + rest)[1..] == a[1..] + rest;
      AddressSpanOfAddress(a[1..], rest);
    }
  }

  /** `verify_dns_for`: the first answer is, verbatim, the TTL-0 record of
      `domain` pointing at `dest`. */
  function VerifyDnsFor(reply: Reply, domain: string, dest: string): (r: Raises<bool>)
    ensures r.Raise? <==> reply.Raise? || |reply.value| == 0
    ensures r == Ok(true) <==> reply.Ok? && |reply.value| > 0 && reply.value[0] == RecordText(domain, "0", dest)
  {
    var text :- FirstAnswer(reply);
    Ok(text == domain + ". 0 IN A " + dest)
  }

  /** A record served with any TTL other than 0 fails the verbatim check. */
  lemma NonZeroTtlFails(domain: string, ttl: string, dest: string, more: seq<string>)
    requires ttl != "0"
    ensures VerifyDnsFor(Ok([RecordText(domain, ttl, dest)] + more), domain, dest) == Ok(false)
  {
    var a := RecordText(domain, ttl, dest);
    var b := RecordText(domain, "0", dest);
    if |ttl| != 1 {
      assert |a| != |b|;
    } else {
      assert ttl == [ttl[0]];
      assert a[|domain| + 2] == ttl[0] && b[|domain| + 2] == '0';
    }
  }

  /** `get_dns_answer_for`: the address of the first answer when the pattern
      matches it and its domain group is `domain`; `None` otherwise; the
      query's exception, an empty answer section or an address `IPv4Address`
      rejects all raise. */
  function GetDnsAnswerFor(reply: Reply, domain: string): (r: Raises<Option<Address>>)
    ensures reply.Raise? || |reply.value| == 0 ==> r.Raise?
    ensures r == Ok(None) <==>
      reply.Ok? && |reply.value| > 0 &&
      (MatchAnswer(reply.value[0]).None? || MatchAnswer(reply.value[0]).value.domain != domain)
  {
    var text :- FirstAnswer(reply);
    var m := MatchAnswer(text);
    if m.None? || m.value.domain != domain then
      Ok(None)
    else
      var a :- Parse(m.value.address);
      Ok(Some(a))
  }

  /** An answer whose first record is `domain`'s A record for `x`, with any
      TTL, yields `x`. */
  lemma AnswerOfRecord(domain: string, ttl: string, x: Address, more: seq<string>)
    requires |domain| >= 1 && '\n' !in domain
    requires |ttl| >= 1 && AllDigits(ttl)
    ensures GetDnsAnswerFor(Ok([RecordText(domain, ttl, Format(x))] + more), domain) == Ok(Some(x))
  {
    FormatAlphabet(x);
    assert |Format(x)| >= 1 by { ParseFormat(x); }
    MatchRecord(domain, ttl, Format(x), "");
    assert RecordText(domain, ttl, Format(x)) + "" == RecordText(domain, ttl, Format(x));
    ParseFormat(x);
  }

  /** Conversely, an address found for `domain` was read from a first answer
      that starts with `domain`'s A record for exactly that address. */
  lemma RecordOfAnswer(reply: Reply, domain: string)
    requires GetDnsAnswerFor(reply, domain).Ok? && GetDnsAnswerFor(reply, domain).value.Some?
    ensures reply.Ok? && |reply.value| > 0
    ensures exists ttl: string :: RecordText(domain, ttl, Format(GetDnsAnswerFor(reply, domain).value.value)) <= reply.value[0]
  {
    var m := MatchAnswer(reply.value[0]).value;
    FormatParse(m.address);
    assert RecordText(domain, m.ttl, Format(GetDnsAnswerFor(reply, domain).value.value)) <= reply.value[0];
  }

  /** A check passes that passes `verify_dns_for` for the printed address
      `Format(x)` also yields `x` through `get_dns_answer_for`. */
  lemma VerifiedAnswer(reply: Reply, domain: string, x: Address)
    requires |domain| >= 1 && '\n' !in domain
    requires VerifyDnsFor(reply, domain, Format(x)) == Ok(true)
    ensures GetDnsAnswerFor(reply, domain) == Ok(Some(x))
  {
    assert reply.value == [reply.value[0]] + reply.value[1..];
    assert AllDigits("0");
    AnswerOfRecord(domain, "0", x, reply.value[1..]);
  }

  /** `verify_dns_within_for`: refuses to run without an expected address or
      network (addresses and networks are always truthy); a missing answer
      is a failure; the expected address, when given, takes precedence over
      the network. */
  function VerifyDnsWithinFor(reply: Reply, domain: string, destAddress: Option<Address>, destNetwork: Option<Network>): (r: Raises<bool>)
    ensures destAddress.None? && destNetwork.None? ==> r == Raise("dest_address or dest_network must be set")
    ensures (destAddress.Some? || destNetwork.Some?) ==>
      match GetDnsAnswerFor(reply, domain)
      case Raise(e) => r == Raise(e)
      case Ok(None) => r == Ok(false)
      case Ok(Some(x)) =>
        r == Ok(if destAddress.Some? then x == destAddress.value else InNetwork(x, destNetwork.value))
  {
    if destAddress.None? && destNetwork.None? then
      Raise("dest_address or dest_network must be set")
    else
      var answer :- GetDnsAnswerFor(reply, domain);
      if answer.None? then Ok(false)
      else if destAddress.Some? then Ok(answer.value == destAddress.value)
      else Ok(InNetwork(answer.value, destNetwork.value))
  }

  /** End to end: for a reply whose first record is `domain`'s A record for
      `x`, the verdict is exactly "x is the expected address" or, without
      one, "x lies in the expected network". */
  lemma WithinForRecord(domain: string, ttl: string, x: Address, more: seq<string>, destAddress: Option<Address>, destNetwork: Option<Network>)
    requires |domain| >= 1 && '\n' !in domain
    requires |ttl| >= 1 && AllDigits(ttl)
    requires destAddress.Some? || destNetwork.Some?
    ensures VerifyDnsWithinFor(Ok([RecordText(domain, ttl, Format(x))] + more), domain, destAddress, destNetwork)
      == Ok(if destAddress.Some? then x == destAddress.value else InNetwork(x, destNetwork.value))
  {
    AnswerOfRecord(domain, ttl, x, more);
  }
}

=== FILE: http.dfy ===
/** HTTP through a device: the resolver that makes the HTTP client look host
    names up through the hotspot's DNS from the device's own address, and
    the "page contains this title" verdict. The HTTP exchange itself is a
    parameter: the response (or exception) it produced. */
module Http {
  import opened Outcomes
  import opened Strings
  import opened Decimal
  import opened IPv4
  import opened Dns
  import opened Wlan

  /** The address families `getaddrinfo` is asked for. */
  datatype Family = Unspecified | Inet | Inet6

  /** The three shapes a port argument takes: absent, a number or text. */
  datatype PortArg = NoPort | PortNumber(n: int) | PortText(text: string)

  /** One `(family, type, proto, canonname, (host, port))` entry. */
  datatype AddrInfo = AddrInfo(family: Family, kind: int, proto: int, canonName: string, host: string, port: int)

  const TcpProtocol: int := 6

  /** Where the lookup is sent from: the device's IPv4 address, or 1.1.1.1
      when it has no link. */
  function QuerySource(device: WirelessDevice): (a: Address)
    ensures device.ip4.Some? ==> a == device.ip4.value.address
    ensures device.ip4.None? ==> a == Address(1, 1, 1, 1)
  {
    if device.ip4.Some? then device.ip4.value.address else Address(1, 1, 1, 1)
  }

  /** The port as a number: absent is 0, text goes through `int()`. */
  function PortNumberOf(port: PortArg): (r: Raises<int>)
  {
    match port
    case NoPort => Ok(0)
    case PortNumber(n) => Ok(n)
    case PortText(text) => ParseInt(text)
  }

  /** `str(dest_address)`: the dotted quad, or "None" when the lookup found
      nothing. */
  function HostText(answer: Option<Address>): (s: string)
    ensures answer.Some? ==> Parse(s) == Ok(answer.value)
    ensures answer.None? ==> Parse(s).Raise?
  {
    match answer
    case Some(a) => ParseFormat(a); Format(a)
    case None =>
      assert Split("None", '.') == ["None"];
      "None"
  }

  /** `DeviceResolver.getaddrinfo`: a missing host is "localhost"; the port
      is checked before the family; the answer is a single TCP/IPv4 entry
      whose host is what `get_dns_answer_for` returned, printed. */
  function GetAddrInfo(device: WirelessDevice, dnsServer: Address, host: Option<string>,
                       port: PortArg, family: Family, kind: int, resolve: Resolver): (r: Raises<seq<AddrInfo>>)
    ensures PortNumberOf(port).Raise? ==> r == Raise(PortNumberOf(port).error)
    ensures PortNumberOf(port).Ok? && PortNumberOf(port).value < 0 ==>
      r == Raise("Servname not supported for ai_socktype")
    ensures PortNumberOf(port).Ok? && PortNumberOf(port).value >= 0 && family == Inet6 ==>
      r == Raise("Address family for hostname not supported")
    ensures r.Ok? ==> family != Inet6 && |r.value| == 1
    ensures r.Ok? ==> var e := r.value[0];
      && e.family == Inet && e.kind == kind && e.proto == TcpProtocol && e.canonName == ""
      && e.port == PortNumberOf(port).value && e.port >= 0
    ensures r.Ok? ==>
      var domain := host.GetOr("localhost");
      var answer := GetDnsAnswerFor(resolve(Format(QuerySource(device)), Format(dnsServer), domain), domain);
      answer.Ok? && r.value[0].host == HostText(answer.value)
    ensures PortNumberOf(port).Ok? && PortNumberOf(port).value >= 0 && family != Inet6 ==>
      var domain := host.GetOr("localhost");
      var answer := GetDnsAnswerFor(resolve(Format(QuerySource(device)), Format(dnsServer), domain), domain);
      (r.Ok? <==> answer.Ok?) && (answer.Raise? ==> r == Raise(answer.error))
  {
    var domain := host.GetOr("localhost");
    var p :- PortNumberOf(port);
    if p < 0 then
      Raise("Servname not supported for ai_socktype")
    else if family == Inet6 then
      Raise("Address family for hostname not supported")
    else
      var reply := resolve(Format(QuerySource(device)), Format(dnsServer), domain);
      var answer :- GetDnsAnswerFor(reply, domain);
      Ok([AddrInfo(Inet, kind, TcpProtocol, "", HostText(answer), p)])
  }

  /** A port given as the text `str(n)` resolves exactly as the number `n`. */
  lemma PortTextAsNumber(device: WirelessDevice, dnsServer: Address, host: Option<string>,
                         n: int, family: Family, kind: int, resolve: Resolver)
    ensures GetAddrInfo(device, dnsServer, host, PortText(FormatInt(n)), family, kind, resolve)
         == GetAddrInfo(device, dnsServer, host, PortNumber(n), family, kind, resolve)
  {
    ParseIntFormatInt(n);
    SamePortNumber(device, dnsServer, host, PortText(FormatInt(n)), PortNumber(n), family, kind, resolve);
  }

  /** The lookup sees the port only through its number. */
  lemma SamePortNumber(device: WirelessDevice, dnsServer: Address, host: Option<string>,
                       p: PortArg, q: PortArg, family: Family, kind: int, resolve: Resolver)
    requires PortNumberOf(p) == PortNumberOf(q)
    ensures GetAddrInfo(device, dnsServer, host, p, family, kind, resolve)
         == GetAddrInfo(device, dnsServer, host, q, family, kind, resolve)
  {
  }

  /** When the hotspot answers the lookup for `name` with the A record of
      `x`, the client connects to `x` on the requested port. */
  lemma ConnectsToAnsweredAddress(device: WirelessDevice, dnsServer: Address, name: string,
                                  port: nat, family: Family, kind: int, resolve: Resolver,
                                  ttl: string, x: Address, more: seq<string>)
    requires |name| >= 1 && '\n' !in name
    requires |ttl| >= 1 && AllDigits(ttl)
    requires family != Inet6
    requires resolve(Format(QuerySource(device)), Format(dnsServer), name) == Ok([RecordText(name, ttl, Format(x))] + more)
    ensures GetAddrInfo(device, dnsServer, Some(name), PortNumber(port), family, kind, resolve).Ok?
    ensures var e := GetAddrInfo(device, dnsServer, Some(name), PortNumber(port), family, kind, resolve).value[0];
      Parse(e.host) == Ok(x) && e.port == port
  {
    AnswerOfRecord(name, ttl, x, more);
  }

  /** What the HTTP exchange produced: a status code, and the body as
      `data.decode("utf-8")` gives it — the text, or the `UnicodeDecodeError`
      for a body that is not UTF-8. */
  datatype Response = Response(status: int, text: Raises<string>)

  /** `assert_url_contains`: the status is 200 (OK) and `title` occurs in the
      body. An exception from the exchange propagates; the body is decoded
      only for a 200 answer, and a failed decode propagates too. */
  function AssertUrlContains(response: Raises<Response>, title: string): (r: Raises<bool>)
    ensures response.Raise? ==> r == Raise(response.error)
    ensures response.Ok? && response.value.status != 200 ==> r == Ok(false)
    ensures response.Ok? && response.value.status == 200 && response.value.text.Raise? ==>
      r == Raise(response.value.text.error)
    ensures r.Raise? <==> response.Raise? || (response.value.status == 200 && response.value.text.Raise?)
    ensures r == Ok(true) <==> && response.Ok? && response.value.status == 200 && response.value.text.Ok?
                               && exists i: nat :: OccursAt(title, response.value.text.value, i)
  {
    var resp :- response;
    if resp.status != 200 then
      Ok(false)
    else
      var body :- resp.text;
      Ok(Contains(body, title))
  }

  /** A 200 page that embeds the title passes; any other status fails, even
      with the title present. */
  lemma PageWithTitle(status: int, before: string, title: string, after: string)
    ensures AssertUrlContains(Ok(Response(status, Ok(before + title + after))), title) == Ok(status == 200)
  {
    var body := before + title + after;
    assert body[|before|..|before| + |title|] == title;
    assert OccursAt(title, body, |before|);
  }
}

=== FILE: integration.dfy ===
/** The integration runner: one worker per device runs the collection and
    queues its results; `tick` drains the queue into the per-device table
    and the success/failure counters and reaps finished workers; `shutdown`
    waits for every worker and drains what is left. Thread scheduling is
    modelled by explicit steps: a worker queuing its next result
    (`Produce`), and `wait` reporting some set of finished workers. */
module Integration {
  import opened Outcomes
  import opened Checks
  import opened PerDevice

  // ---------------------------------------------------------------------
  // Counting results

  /** 1 for a success, 0 for a failure. */
  function Credit(res: Result): nat
  {
    if res.succeeded then 1 else 0
  }

  /** The number of successes among `xs`. */
  function Count(xs: seq<Result>): (n: nat)
    ensures n <= |xs|
  {
    if |xs| == 0 then 0 else Count(xs[..|xs| - 1]) + Credit(xs[|xs| - 1])
  }

  lemma {:induction false} CountAppend(a: seq<Result>, b: seq<Result>)
    ensures Count(a + b) == Count(a) + Count(b)
    decreases |b|
  {
    if |b| > 0 {
      assert (a + b)[..|a + b| - 1] == a + b[..|b| - 1];
      assert (a + b)[|a + b| - 1] == b[|b| - 1];
      CountAppend(a, b[..|b| - 1]);
    } else {
      assert a + b == a;
    }
  }

  lemma CountCons(xs: seq<Result>)
    requires |xs| > 0
    ensures Count(xs) == Credit(xs[0]) + Count(xs[1..])
  {
    assert xs == [xs[0]] + xs[1..];
    CountAppend([xs[0]], xs[1..]);
    assert [xs[0]][..0] == [];
  }

  /** Every result of `xs` succeeded exactly when all of them count. */
  lemma {:induction false} CountAll(xs: seq<Result>)
    ensures Count(xs) == |xs| <==> forall i :: 0 <= i < |xs| ==> xs[i].succeeded
    decreases |xs|
  {
    if |xs| > 0 {
      var init := xs[..|xs| - 1];
      CountAll(init);
      assert forall i :: 0 <= i < |init| ==> init[i] == xs[i];
    }
  }

  // ---------------------------------------------------------------------
  // What the workers have queued so far

  /** `prod[d]` results of worker `d` have been queued, out of `outs[d]`. */
  predicate Fits(outs: seq<seq<Result>>, prod: seq<nat>)
  {
    |outs| == |prod| && forall d :: 0 <= d < |outs| ==> prod[d] <= |outs[d]|
  }

  /** How many results the workers have queued. */
  function MadeLen(outs: seq<seq<Result>>, prod: seq<nat>): nat
    requires Fits(outs, prod)
  {
    if |outs| == 0 then 0 else prod[0] + MadeLen(outs[1..], prod[1..])
  }

  /** How many of them succeeded. */
  function MadePassed(outs: seq<seq<Result>>, prod: seq<nat>): nat
    requires Fits(outs, prod)
  {
    if |outs| == 0 then 0 else Count(outs[0][..prod[0]]) + MadePassed(outs[1..], prod[1..])
  }

  /** What the workers have still to queue, worker by worker. */
  function Rest(outs: seq<seq<Result>>, prod: seq<nat>): seq<Result>
    requires Fits(outs, prod)
  {
    if |outs| == 0 then [] else outs[0][prod[0]..] + Rest(outs[1..], prod[1..])
  }

  /** Every worker done. */
  function Full(outs: seq<seq<Result>>): (prod: seq<nat>)
    ensures Fits(outs, prod)
    ensures forall d :: 0 <= d < |outs| ==> prod[d] == |outs[d]|
  {
    seq(|outs|, d requires 0 <= d < |outs| => |outs[d]|)
  }

  /** One more result from worker `d` adds one to the total and its credit
      to the successes. */
  lemma {:induction false} MadeStep(outs: seq<seq<Result>>, prod: seq<nat>, d: nat)
    requires Fits(outs, prod) && d < |outs| && prod[d] < |outs[d]|
    ensures Fits(outs, prod[d := prod[d] + 1])
    ensures MadeLen(outs, prod[d := prod[d] + 1]) == MadeLen(outs, prod) + 1
    ensures MadePassed(outs, prod[d := prod[d] + 1]) == MadePassed(outs, prod) + Credit(outs[d][prod[d]])
    decreases d
  {
    var prod' := prod[d := prod[d] + 1];
    if d == 0 {
      assert prod'[1..] == prod[1..];
      var xs := outs[0];
      assert xs[..prod[0] + 1] == xs[..prod[0]] + [xs[prod[0]]];
      CountAppend(xs[..prod[0]], [xs[prod[0]]]);
      assert Count([xs[prod[0]]]) == Credit(xs[prod[0]]) by {
        assert [xs[prod[0]]][..0] == [];
      }
    } else {
      assert prod'[1..] == prod[1..][d - 1 := prod[d] + 1];
      MadeStep(outs[1..], prod[1..], d - 1);
    }
  }

  /** What is left, added to what was queued, is everything the workers
      produce. */
  lemma {:induction false} RestTotals(outs: seq<seq<Result>>, prod: seq<nat>)
    requires Fits(outs, prod)
    ensures |Rest(outs, prod)| + MadeLen(outs, prod) == MadeLen(outs, Full(outs))
    ensures Count(Rest(outs, prod)) + MadePassed(outs, prod) == MadePassed(outs, Full(outs))
    decreases |outs|
  {
    if |outs| > 0 {
      assert Full(outs)[1..] == Full(outs[1..]);
      RestTotals(outs[1..], prod[1..]);
      var xs := outs[0];
      assert xs[..prod[0]] + xs[prod[0]..] == xs;
      assert xs[..|xs|] == xs;
      CountAppend(xs[..prod[0]], xs[prod[0]..]);
      CountAppend(xs[prod[0]..], Rest(outs[1..], prod[1..]));
    }
  }

  /** With at most `n` results per worker, all of them number at most
      `n` per worker, and exactly that only if every worker produced `n`. */
  lemma {:induction false} FullBound(outs: seq<seq<Result>>, n: nat)
    requires forall d :: 0 <= d < |outs| ==> |outs[d]| <= n
    ensures MadeLen(outs, Full(outs)) <= |outs| * n
    ensures MadeLen(outs, Full(outs)) == |outs| * n ==> forall d :: 0 <= d < |outs| ==> |outs[d]| == n
    decreases |outs|
  {
    if |outs| > 0 {
      assert Full(outs)[1..] == Full(outs[1..]);
      FullBound(outs[1..], n);
      assert |outs| * n == n + (|outs| - 1) * n;
      forall d | 0 < d < |outs| ensures outs[1..][d - 1] == outs[d] {
      }
    }
  }

  /** All the results succeeded only if every worker's did. */
  lemma {:induction false} FullPassed(outs: seq<seq<Result>>)
    ensures MadePassed(outs, Full(outs)) <= MadeLen(outs, Full(outs))
    ensures MadePassed(outs, Full(outs)) == MadeLen(outs, Full(outs)) <==>
      forall d :: 0 <= d < |outs| ==> Count(outs[d]) == |outs[d]|
    decreases |outs|
  {
    if |outs| > 0 {
      assert Full(outs)[1..] == Full(outs[1..]);
      FullPassed(outs[1..]);
      assert outs[0][..|outs[0]|] == outs[0];
      forall d | 0 < d < |outs| ensures outs[1..][d - 1] == outs[d] {
      }
    }
  }

  // ---------------------------------------------------------------------
  // The runner

  datatype Runner = Runner(
    ifnames: seq<string>,
    collection: seq<CheckKind>,
    /** per device: the results its worker queues, in order ([] before start) */
    outputs: seq<seq<Result>>,
    /** per device: how many of them are queued so far */
    produced: seq<nat>,
    /** the workers not yet reaped */
    futures: set<nat>,
    /** results queued and not yet recorded */
    queue: seq<Result>,
    /** results recorded, in order */
    recorded: seq<Result>,
    table: map<string, map<string, Result>>,
    successful: nat,
    failed: nat,
    running: bool,
    started: bool)

  /** `nb_tests`: devices times checks per device, which is also the size
      bound of the result queue. */
  function NbTests(r: Runner): nat
  {
    |r.ifnames| * |r.collection|
  }

  /** `nb_completed_tests` */
  function NbCompleted(r: Runner): nat
  {
    r.successful + r.failed
  }

  /** The interface names as a set. */
  function IfnameSet(ifnames: seq<string>): set<string>
  {
    set i | 0 <= i < |ifnames| :: ifnames[i]
  }

  /** `IntegrationTestsRunner(devices, collection, params)`: not running, no
      results, an empty table per device. */
  function New(ifnames: seq<string>, collection: seq<CheckKind>): (r: Runner)
    ensures Inv(r) && !r.started && !r.running
    ensures r.table.Keys == IfnameSet(ifnames) && forall i :: i in r.table ==> r.table[i] == map[]
    ensures NbCompleted(r) == 0 && NbTests(r) == |ifnames| * |collection|
  {
    Runner(ifnames, collection, [], [], {}, [], [], map i | i in IfnameSet(ifnames) :: map[], 0, 0, false, false)
  }

  /** What each device's worker queues. */
  function WorkerOutputs(collection: seq<CheckKind>, ifnames: seq<string>, all: Params, worlds: seq<World>): (outs: seq<seq<Result>>)
    requires |worlds| == |ifnames|
    ensures |outs| == |ifnames|
    ensures forall d :: 0 <= d < |outs| ==> outs[d] == RunForIfname(collection, ifnames[d], all, worlds[d]).results
  {
    seq(|ifnames|, d requires 0 <= d < |ifnames| => RunForIfname(collection, ifnames[d], all, worlds[d]).results)
  }

  /** The indices below `n`. */
  function Upto(n: nat): (s: set<nat>)
    ensures forall d: int :: d in s <==> 0 <= d < n
  {
    if n == 0 then {} else Upto(n - 1) + {n - 1}
  }

  /** Two states that differ only in the queue, the table and the counters. */
  predicate SameWorkers(r: Runner, s: Runner)
  {
    && s.ifnames == r.ifnames && s.collection == r.collection
    && s.outputs == r.outputs && s.produced == r.produced && s.futures == r.futures
    && s.running == r.running && s.started == r.started
  }

  /** The workers' bookkeeping: each has queued part of what it produces,
      produces at most one result per check, all about its own device, and
      a reaped worker has finished; the runner runs while a worker is
      unreaped. */
  ghost predicate Shape(r: Runner)
  {
    && Fits(r.outputs, r.produced)
    && (r.started ==> |r.outputs| == |r.ifnames| > 0)
    && (!r.started ==> |r.outputs| == 0 && !r.running && r.futures == {})
    && (forall d :: 0 <= d < |r.outputs| ==> |r.outputs[d]| <= |r.collection|)
    && (forall d, i :: 0 <= d < |r.outputs| && 0 <= i < |r.outputs[d]| ==> r.outputs[d][i].ifname == r.ifnames[d])
    && (forall d :: d in r.futures ==> d < |r.outputs|)
    && (forall d :: 0 <= d < |r.outputs| && d !in r.futures ==> r.produced[d] == |r.outputs[d]|)
    && (r.started ==> (r.running <==> r.futures != {}))
  }

  /** The counters: every queued result is either still in the queue or
      recorded, and the counters count the recorded ones. */
  ghost predicate Tally(r: Runner)
    requires Fits(r.outputs, r.produced)
  {
    && |r.recorded| + |r.queue| == MadeLen(r.outputs, r.produced)
    && Count(r.recorded) + Count(r.queue) == MadePassed(r.outputs, r.produced)
    && r.successful == Count(r.recorded)
    && r.failed == |r.recorded| - Count(r.recorded)
  }

  /** The runner's invariant. */
  ghost predicate Inv(r: Runner)
  {
    && Shape(r)
    && Tally(r)
    && r.table.Keys == IfnameSet(r.ifnames)
    && (forall i :: 0 <= i < |r.queue| ==> r.queue[i].ifname in r.table)
  }

  /** `start`: one worker per device; without devices the thread pool
      refuses to start. */
  function Start(r: Runner, all: Params, worlds: seq<World>): (s: Raises<Runner>)
    requires Inv(r) && !r.started && |worlds| == |r.ifnames| && r.table.Keys == IfnameSet(r.ifnames)
    ensures |r.ifnames| == 0 <==> s.Raise?
    ensures s.Raise? ==> s.error == "max_workers must be greater than 0"
    ensures s.Ok? ==> Inv(s.value) && s.value.running && s.value.started && s.value.queue == []
    ensures s.Ok? ==> s.value.outputs == WorkerOutputs(r.collection, r.ifnames, all, worlds)
    ensures s.Ok? ==> s.value.table == r.table && NbCompleted(s.value) == NbCompleted(r)
  {
    if |r.ifnames| == 0 then Raise("max_workers must be greater than 0")
    else
      var outs := WorkerOutputs(r.collection, r.ifnames, all, worlds);
      var s := r.(outputs := outs, produced := seq(|outs|, _ => 0), futures := Upto(|outs|),
                  running := true, started := true);
      StartInv(r, s, all, worlds);
      Ok(s)
  }

  lemma StartInv(r: Runner, s: Runner, all: Params, worlds: seq<World>)
    requires Inv(r) && !r.started && |worlds| == |r.ifnames| > 0 && r.table.Keys == IfnameSet(r.ifnames)
    requires var outs := WorkerOutputs(r.collection, r.ifnames, all, worlds);
      s == r.(outputs := outs, produced := seq(|outs|, _ => 0), futures := Upto(|outs|),
              running := true, started := true)
    ensures Inv(s)
  {
    var outs: seq<seq<Result>> := s.outputs;
    forall d | 0 <= d < |outs| ensures |outs[d]| <= |r.collection|
      && forall i :: 0 <= i < |outs[d]| ==> outs[d][i].ifname == r.ifnames[d] {
      RunForIfnameAbout(r.collection, r.ifnames[d], all, worlds[d]);
      forall i | 0 <= i < |outs[d]| ensures outs[d][i].ifname == r.ifnames[d] {
        assert outs[d][i] in outs[d];
      }
    }
    assert 0 in s.futures;
    ZeroMade(outs, s.produced);
  }

  lemma {:induction false} ZeroMade(outs: seq<seq<Result>>, prod: seq<nat>)
    requires |prod| == |outs| && forall d :: 0 <= d < |prod| ==> prod[d] == 0
    ensures Fits(outs, prod) && MadeLen(outs, prod) == 0 && MadePassed(outs, prod) == 0
    decreases |outs|
  {
    if |outs| > 0 {
      ZeroMade(outs[1..], prod[1..]);
      assert outs[0][..0] == [];
    }
  }

  /** Worker `d` queues its next result. */
  function Produce(r: Runner, d: nat): (s: Runner)
    requires Inv(r) && d < |r.outputs| && r.produced[d] < |r.outputs[d]|
    ensures Inv(s)
    ensures s.queue == r.queue + [r.outputs[d][r.produced[d]]]
    ensures s.table == r.table && s.running == r.running && NbCompleted(s) == NbCompleted(r)
  {
    var s := r.(queue := r.queue + [r.outputs[d][r.produced[d]]], produced := r.produced[d := r.produced[d] + 1]);
    ProduceShape(r, d, s);
    ProduceTally(r, d, s);
    s
  }

  lemma ProduceShape(r: Runner, d: nat, s: Runner)
    requires Inv(r) && d < |r.outputs| && r.produced[d] < |r.outputs[d]|
    requires s == r.(queue := r.queue + [r.outputs[d][r.produced[d]]], produced := r.produced[d := r.produced[d] + 1])
    ensures Shape(s)
    ensures forall i :: 0 <= i < |s.queue| ==> s.queue[i].ifname in s.table
  {
    MadeStep(r.outputs, r.produced, d);
    assert r.outputs[d][r.produced[d]].ifname == r.ifnames[d];
    assert d in r.futures;
  }

  lemma ProduceTally(r: Runner, d: nat, s: Runner)
    requires Inv(r) && d < |r.outputs| && r.produced[d] < |r.outputs[d]|
    requires s == r.(queue := r.queue + [r.outputs[d][r.produced[d]]], produced := r.produced[d := r.produced[d] + 1])
    ensures Fits(s.outputs, s.produced) && Tally(s)
  {
    var x := r.outputs[d][r.produced[d]];
    MadeStep(r.outputs, r.produced, d);
    CountAppend(r.queue, [x]);
    assert Count([x]) == Credit(x) by {
      assert [x][..0] == [];
    }
  }

  /** The queue never holds more than `nb_tests` results, so a worker never
      blocks on it. */
  lemma QueueBound(r: Runner)
    requires Inv(r)
    ensures |r.queue| <= NbTests(r)
  {
    RestTotals(r.outputs, r.produced);
    FullBound(r.outputs, |r.collection|);
    if r.started {
      assert |r.outputs| == |r.ifnames|;
    }
  }

  /** `record_result`: the result lands in its device's table under its
      name, and one counter goes up. */
  function Record(r: Runner, res: Result): (s: Runner)
    requires res.ifname in r.table
    ensures s.table.Keys == r.table.Keys
    ensures s.table[res.ifname] == r.table[res.ifname][res.name := res]
    ensures forall i :: i in r.table && i != res.ifname ==> s.table[i] == r.table[i]
    ensures s.successful == r.successful + Credit(res) && s.failed + Credit(res) == r.failed + 1
    ensures s.recorded == r.recorded + [res]
  {
    r.(table := r.table[res.ifname := r.table[res.ifname][res.name := res]],
       successful := if res.succeeded then r.successful + 1 else r.successful,
       failed := if res.succeeded then r.failed else r.failed + 1,
       recorded := r.recorded + [res])
  }

  /** The oldest queued result is recorded. */
  function Pop(r: Runner): (s: Runner)
    requires |r.queue| > 0
    requires forall i :: 0 <= i < |r.queue| ==> r.queue[i].ifname in r.table
    ensures s.queue == r.queue[1..] && s.recorded + s.queue == r.recorded + r.queue
    ensures forall i :: 0 <= i < |s.queue| ==> s.queue[i].ifname in s.table
    ensures s.successful == r.successful + Credit(r.queue[0])
    ensures s.failed + Credit(r.queue[0]) == r.failed + 1
    ensures s.table.Keys == r.table.Keys && SameWorkers(r, s)
  {
    var s := Record(r.(queue := r.queue[1..]), r.queue[0]);
    ShiftFront(r.recorded, r.queue);
    s
  }

  /** Moving the front of `q` to the back of `a` keeps their concatenation. */
  lemma ShiftFront(a: seq<Result>, q: seq<Result>)
    requires |q| > 0
    ensures (a + [q[0]]) + q[1..] == a + q
  {
    assert q == [q[0]] + q[1..];
  }

  /** The queue is drained into the table, oldest result first. */
  function Drain(r: Runner): (s: Runner)
    requires forall i :: 0 <= i < |r.queue| ==> r.queue[i].ifname in r.table
    ensures s.queue == [] && s.recorded == r.recorded + r.queue
    ensures s.successful == r.successful + Count(r.queue)
    ensures s.failed + Count(r.queue) == r.failed + |r.queue|
    ensures s.table.Keys == r.table.Keys && SameWorkers(r, s)
    decreases |r.queue|
  {
    if |r.queue| == 0 then r
    else
      CountCons(r.queue);
      Drain(Pop(r))
  }

  /** Draining keeps the invariant: every queued result moves to the
      record, and the counters follow. */
  lemma DrainInv(r: Runner)
    requires Inv(r)
    ensures Inv(Drain(r))
  {
    CountAppend(r.recorded, r.queue);
  }

  /** Two results for one device under the same name (as the three DNS
      checks report when skipped): the table keeps only the later one while
      both are counted. */
  lemma RecordOverwrites(r: Runner, a: Result, b: Result)
    requires a.ifname in r.table && b.ifname == a.ifname && b.name == a.name
    ensures var s := Record(Record(r, a), b);
      && s.table[a.ifname] == r.table[a.ifname][a.name := b]
      && a.name in s.table[a.ifname] && s.table[a.ifname][a.name] == b
      && NbCompleted(s) == NbCompleted(r) + 2
      && |s.recorded| == |r.recorded| + 2
  {
  }

  /** The workers `wait` reported done that have indeed finished. */
  function Finished(r: Runner, done: set<nat>): set<nat>
    requires Inv(r)
  {
    set d | d in r.futures && d in done && r.produced[d] == |r.outputs[d]|
  }

  /** The second half of `tick`: the finished workers `wait` reported are
      dropped; once none is left the runner stops running. */
  function Reap(r: Runner, done: set<nat>): (s: Runner)
    requires Inv(r)
    ensures Inv(s)
    ensures s.futures == r.futures - Finished(r, done)
    ensures s.running <==> r.running && s.futures != {}
    ensures s.queue == r.queue && s.recorded == r.recorded && s.table == r.table && NbCompleted(s) == NbCompleted(r)
    ensures s.outputs == r.outputs && s.produced == r.produced && s.started == r.started
  {
    var futures := r.futures - Finished(r, done);
    r.(futures := futures, running := if futures == {} then false else r.running)
  }

  /** `tick`: drain the queue, then reap. */
  function Tick(r: Runner, done: set<nat>): (s: Runner)
    requires Inv(r)
    ensures Inv(s)
    ensures s.queue == [] && s.recorded == r.recorded + r.queue
    ensures NbCompleted(s) == NbCompleted(r) + |r.queue|
    ensures s.futures == r.futures - Finished(r, done)
    ensures s.running <==> r.running && s.futures != {}
    ensures s.outputs == r.outputs && s.produced == r.produced && s.started == r.started
  {
    DrainInv(r);
    Reap(Drain(r), done)
  }

  /** `shutdown(wait=True)`: every worker runs to its end, then the queue is
      drained; before `start` there is no thread pool to shut down. */
  function Shutdown(r: Runner): (s: Raises<Runner>)
    requires Inv(r)
    ensures s.Raise? <==> !r.started
    ensures s.Raise? ==> s.error == "'IntegrationTestsRunner' object has no attribute 'executor'"
    ensures s.Ok? ==> Inv(s.value) && s.value.queue == [] && s.value.produced == Full(r.outputs)
    ensures s.Ok? ==> s.value.running == r.running && s.value.futures == r.futures && s.value.outputs == r.outputs
    ensures s.Ok? ==> NbCompleted(s.value) == MadeLen(r.outputs, Full(r.outputs))
  {
    if !r.started then Raise("'IntegrationTestsRunner' object has no attribute 'executor'")
    else
      var w := r.(queue := r.queue + Rest(r.outputs, r.produced), produced := Full(r.outputs));
      FinishInv(r, w);
      DrainInv(w);
      Ok(Drain(w))
  }

  lemma FinishInv(r: Runner, w: Runner)
    requires Inv(r) && r.started
    requires w == r.(queue := r.queue + Rest(r.outputs, r.produced), produced := Full(r.outputs))
    ensures Inv(w)
  {
    RestTotals(r.outputs, r.produced);
    CountAppend(r.queue, Rest(r.outputs, r.produced));
    assert MadeLen(r.outputs, Full(r.outputs)) == MadeLen(w.outputs, w.produced);
    RestOwned(r.outputs, r.produced, r.ifnames);
    forall i | 0 <= i < |w.queue| ensures w.queue[i].ifname in w.table {
      if i >= |r.queue| {
        var x := w.queue[i];
        assert x == Rest(r.outputs, r.produced)[i - |r.queue|];
        var d :| 0 <= d < |r.ifnames| && x.ifname == r.ifnames[d];
        assert r.ifnames[d] in IfnameSet(r.ifnames);
      }
    }
  }

  /** What is left to queue is about the workers' own devices. */
  lemma {:induction false} RestOwned(outs: seq<seq<Result>>, prod: seq<nat>, ifnames: seq<string>)
    requires Fits(outs, prod) && |ifnames| == |outs|
    requires forall d, i :: 0 <= d < |outs| && 0 <= i < |outs[d]| ==> outs[d][i].ifname == ifnames[d]
    ensures forall x :: x in Rest(outs, prod) ==> exists d :: 0 <= d < |ifnames| && x.ifname == ifnames[d]
    decreases |outs|
  {
    if |outs| > 0 {
      RestOwned(outs[1..], prod[1..], ifnames[1..]);
      forall x | x in Rest(outs, prod) ensures exists d :: 0 <= d < |ifnames| && x.ifname == ifnames[d] {
        if x in outs[0][prod[0]..] {
          var i :| prod[0] <= i < |outs[0]| && outs[0][i] == x;
          assert x.ifname == ifnames[0];
        } else {
          assert x in Rest(outs[1..], prod[1..]);
          var d :| 0 <= d < |ifnames[1..]| && x.ifname == ifnames[1..][d];
          assert x.ifname == ifnames[d + 1];
        }
      }
    }
  }

  /** `all_succeeded`: refused while running; otherwise every test counted
      a success. */
  function AllSucceeded(r: Runner): (b: Raises<bool>)
    ensures r.running <==> b.Raise?
    ensures b.Raise? ==> b.error == "Runner still running"
    ensures b.Ok? ==> (b.value <==> r.successful == NbTests(r))
  {
    if r.running then Raise("Runner still running") else Ok(r.successful == NbTests(r))
  }

  /** After `shutdown` every result every worker produced is recorded. */
  lemma ShutdownRecordsAll(r: Runner)
    requires Inv(r) && r.started
    ensures var s := Shutdown(r).value;
      && NbCompleted(s) == |s.recorded| == MadeLen(r.outputs, Full(r.outputs)) <= NbTests(r)
      && s.successful == MadePassed(r.outputs, Full(r.outputs))
  {
    FullBound(r.outputs, |r.collection|);
  }

  /** The late-result gap: right after a `tick` drained the queue, the last
      worker queues its last result before the reap; the runner stops
      running with that result still queued, uncounted until `shutdown`. */
  lemma LateResultGap(r: Runner, d: nat)
    requires Inv(r) && r.started && r.queue == [] && r.futures == {d}
    requires d < |r.outputs| && r.produced[d] + 1 == |r.outputs[d]|
    ensures var late := Reap(Produce(r, d), {d});
      && !late.running && |late.queue| == 1
      && NbCompleted(late) == NbCompleted(r)
      && Shutdown(late).Ok?
      && NbCompleted(Shutdown(late).value) == NbCompleted(late) + 1
  {
    var p := Produce(r, d);
    assert d in Finished(p, {d});
    var late := Reap(p, {d});
    assert late.produced == Full(late.outputs) by {
      forall e | 0 <= e < |late.outputs| ensures late.produced[e] == |late.outputs[e]| {
        assert e !in late.futures;
      }
    }
  }

  /** A `tick` right after `start`, when a device's worker produced nothing
      yet, leaves the runner running. */
  lemma TickKeepsRunning(r: Runner, done: set<nat>, d: nat)
    requires Inv(r) && r.started && d in r.futures && r.produced[d] < |r.outputs[d]|
    ensures Tick(r, done).running
  {
    DrainInv(r);
    assert d !in Finished(Drain(r), done);
  }

  /** Device `d`'s worker queued a success for every check exactly when
      every one of its turns passed. */
  lemma WorkerIff(collection: seq<CheckKind>, ifnames: seq<string>, all: Params, worlds: seq<World>, d: nat)
    requires |worlds| == |ifnames| && d < |ifnames|
    ensures var xs := WorkerOutputs(collection, ifnames, all, worlds)[d];
      (|xs| == |collection| && Count(xs) == |xs|)
      <==> forall j :: 0 <= j < |collection| ==> Passes(TurnOf(collection[j], all, ifnames[d], worlds[d]))
  {
    var xs := WorkerOutputs(collection, ifnames, all, worlds)[d];
    WorkerAllPassed(collection, ifnames[d], all, worlds[d]);
    CountAll(xs);
    assert (forall x: Result :: x in xs ==> x.succeeded) <==> forall i :: 0 <= i < |xs| ==> xs[i].succeeded;
  }

  /** All workers together: every result present and a success exactly
      when every turn on every device passed. */
  lemma WorkersIff(collection: seq<CheckKind>, ifnames: seq<string>, all: Params, worlds: seq<World>)
    requires |worlds| == |ifnames|
    requires forall d :: 0 <= d < |ifnames| ==> |WorkerOutputs(collection, ifnames, all, worlds)[d]| <= |collection|
    ensures var outs := WorkerOutputs(collection, ifnames, all, worlds);
      MadePassed(outs, Full(outs)) == |outs| * |collection|
      <==> forall d, j :: 0 <= d < |ifnames| && 0 <= j < |collection| ==>
             Passes(TurnOf(collection[j], all, ifnames[d], worlds[d]))
  {
    var outs := WorkerOutputs(collection, ifnames, all, worlds);
    var n := |collection|;
    FullBound(outs, n);
    FullPassed(outs);
    forall d | 0 <= d < |outs|
      ensures (|outs[d]| == n && Count(outs[d]) == |outs[d]|)
          <==> forall j :: 0 <= j < n ==> Passes(TurnOf(collection[j], all, ifnames[d], worlds[d]))
    {
      WorkerIff(collection, ifnames, all, worlds, d);
    }
    if forall d, j :: 0 <= d < |ifnames| && 0 <= j < n ==> Passes(TurnOf(collection[j], all, ifnames[d], worlds[d])) {
      FullExact(outs, n);
    }
  }

  /** Once every worker is reaped and the runner shut down, all tests passed
      exactly when every check on every device validated its parameters,
      ran without raising and succeeded. */
  lemma AllSucceededIff(r: Runner, all: Params, worlds: seq<World>)
    requires Inv(r) && r.started && !r.running && |worlds| == |r.ifnames|
    requires r.outputs == WorkerOutputs(r.collection, r.ifnames, all, worlds)
    ensures Shutdown(r).Ok?
    ensures AllSucceeded(Shutdown(r).value) == Ok(forall d, j :: 0 <= d < |r.ifnames| && 0 <= j < |r.collection| ==>
      Passes(TurnOf(r.collection[j], all, r.ifnames[d], worlds[d])))
  {
    var s := Shutdown(r).value;
    ShutdownRecordsAll(r);
    WorkersIff(r.collection, r.ifnames, all, worlds);
    assert s.ifnames == r.ifnames && s.collection == r.collection && |r.outputs| == |r.ifnames|;
    assert s.successful == MadePassed(r.outputs, Full(r.outputs));
  }

  /** When every worker produced `n` results, they number `n` per worker. */
  lemma {:induction false} FullExact(outs: seq<seq<Result>>, n: nat)
    requires forall d :: 0 <= d < |outs| ==> |outs[d]| == n
    ensures MadeLen(outs, Full(outs)) == |outs| * n
    decreases |outs|
  {
    if |outs| > 0 {
      assert Full(outs)[1..] == Full(outs[1..]);
      FullExact(outs[1..], n);
      assert |outs| * n == n + (|outs| - 1) * n;
      forall d | 0 < d < |outs| ensures outs[1..][d - 1] == outs[d] {
      }
    }
  }
}

=== FILE: ipv4.dfy ===
/** IPv4 addresses and networks as the standard `ipaddress` module treats
    them: dotted-quad text (strict: four decimal octets, no leading zeros)
    and prefix-based network membership as in section 3.1 of RFC 4632. */
module IPv4 {
  import opened Outcomes
  import opened Strings
  import opened Decimal

  type Octet = x: nat | x < 256

  type Prefix = p: nat | p <= 32

  datatype Address = Address(a: Octet, b: Octet, c: Octet, d: Octet)

  /** `IPv4Network`: a base address and a prefix length. */
  datatype Network = Network(base: Address, prefix: Prefix)

  /** The 32-bit integer of an address (`int(IPv4Address(...))`). */
  function ToNat(x: Address): (n: nat)
    ensures n < 0x1_0000_0000
  {
    ((x.a * 256 + x.b) * 256 + x.c) * 256 + x.d
  }

  /** Distinct addresses have distinct integers. */
  lemma ToNatInjective(x: Address, y: Address)
    requires ToNat(x) == ToNat(y)
    ensures x == y
  {
    var abc := (x.a * 256 + x.b) * 256 + x.c;
    var abc' := (y.a * 256 + y.b) * 256 + y.c;
    assert x.d == ToNat(x) % 256 && abc == ToNat(x) / 256;
    assert y.d == ToNat(y) % 256 && abc' == ToNat(y) / 256;
    assert x.c == abc % 256 && y.c == abc' % 256;
    assert x.a * 256 + x.b == abc / 256 && y.a * 256 + y.b == abc' / 256;
  }

  function Pow2(n: nat): (p: nat)
    ensures p >= 1
  {
    if n == 0 then 1 else 2 * Pow2(n - 1)
  }

  /** Size of the host part of a network with this prefix. */
  function HostSpan(prefix: Prefix): nat
  {
    Pow2(32 - prefix)
  }

  /** A strict network (the default for `IPv4Network(...)`): no host bits set. */
  predicate Strict(n: Network)
  {
    ToNat(n.base) % HostSpan(n.prefix) == 0
  }

  /** `x in n`: the address masked to the prefix is the network address. */
  predicate InNetwork(x: Address, n: Network)
  {
    (ToNat(x) / HostSpan(n.prefix)) * HostSpan(n.prefix) == ToNat(n.base)
  }

  /** A strict network contains its own base address. */
  lemma BaseInNetwork(n: Network)
    requires Strict(n)
    ensures InNetwork(n.base, n)
  {
    ExactDivision(ToNat(n.base), HostSpan(n.prefix));
  }

  lemma ExactDivision(m: nat, h: nat)
    requires h > 0 && m % h == 0
    ensures (m / h) * h == m
  {
    assert m == (m / h) * h + m % h;
  }

  /** In a strict network, membership is the address range of section 3.1
      of RFC 4632: from the network address up to, not including, the next
      block of the same size. */
  lemma InNetworkRange(x: Address, n: Network)
    requires Strict(n)
    ensures InNetwork(x, n) <==> ToNat(n.base) <= ToNat(x) < ToNat(n.base) + HostSpan(n.prefix)
  {
    BlockOfMultiple(ToNat(x), ToNat(n.base), HostSpan(n.prefix));
  }

  /** Rounding `v` down to a multiple of `h` gives the multiple `b` exactly
      when `v` lies in the block of `h` numbers starting at `b`. */
  lemma BlockOfMultiple(v: nat, b: nat, h: nat)
    requires h > 0 && b % h == 0
    ensures (v / h) * h == b <==> b <= v < b + h
  {
    ExactDivision(b, h);
    var q := v / h;
    assert v == q * h + v % h;
    assert q * h <= v < q * h + h;
    if b <= v < b + h {
      QuotientBetween(v, h, b / h);
    }
  }

  /** A number between two consecutive multiples of `h` has the lower
      one's quotient. */
  lemma QuotientBetween(v: nat, h: nat, k: nat)
    requires h > 0 && k * h <= v < k * h + h
    ensures v / h == k
  {
    var d := v / h - k;
    assert v == (v / h) * h + v % h;
    assert d * h == v - k * h - v % h;
    MultipleAtLeast(d, h);
    MultipleAtLeast(-d, h);
  }

  /** A positive multiple of `h` is at least `h`. */
  lemma MultipleAtLeast(d: int, h: nat)
    ensures d >= 1 ==> d * h >= h
  {
  }

  /** A /32 network holds exactly its base address. */
  lemma HostNetwork(x: Address, base: Address)
    ensures InNetwork(x, Network(base, 32)) <==> x == base
  {
    assert HostSpan(32) == 1;
    if InNetwork(x, Network(base, 32)) {
      ToNatInjective(x, base);
    }
  }

  /** `str(IPv4Address)`: four decimal octets joined by dots. */
  function Format(x: Address): string
  {
    Join([FormatNat(x.a), FormatNat(x.b), FormatNat(x.c), FormatNat(x.d)], '.')
  }

  /** `str(IPv4Network)`: `<base>/<prefix>`. */
  function FormatNetwork(n: Network): string
  {
    Format(n.base) + "/" + FormatNat(n.prefix)
  }

  /** What `ipaddress` objects to in one octet's text, checked in its
      order; `None` when the text is a valid octet. */
  function OctetError(s: string): (e: Option<string>)
    ensures e.None? ==> Canonical(s) && |s| <= 3 && Value(s) < 256
  {
    if |s| == 0 then
      Some("Empty octet not permitted")
    else if !AllDigits(s) then
      Some("Only decimal digits permitted in '" + s + "'")
    else if |s| > 3 then
      Some("At most 3 characters permitted in '" + s + "'")
    else if s != "0" && s[0] == '0' then
      Some("Leading zeros are not permitted in '" + s + "'")
    else if Value(s) > 255 then
      Some("Octet " + FormatNat(Value(s)) + " (> 255) not permitted")
    else
      None
  }

  /** One octet as `ipaddress` parses it, with its error message. */
  function ParseOctet(s: string): (r: Raises<Octet>)
    ensures r.Ok? ==> Canonical(s) && |s| <= 3 && Value(s) == r.value
  {
    match OctetError(s)
    case Some(e) => Raise(e)
    case None => Ok(Value(s))
  }

  /** `IPv4Address(s)` for text `s` without `/`. */
  function Parse(s: string): (r: Raises<Address>)
  {
    if |s| == 0 then
      Raise("Address cannot be empty")
    else
      var parts := Split(s, '.');
      if |parts| != 4 then
        Raise("Expected 4 octets in '" + s + "'")
      else
        var a := ParseOctet(parts[0]);
        var b := ParseOctet(parts[1]);
        var c := ParseOctet(parts[2]);
        var d := ParseOctet(parts[3]);
        if a.Raise? then Raise(a.error + " in '" + s + "'")
        else if b.Raise? then Raise(b.error + " in '" + s + "'")
        else if c.Raise? then Raise(c.error + " in '" + s + "'")
        else if d.Raise? then Raise(d.error + " in '" + s + "'")
        else Ok(Address(a.value, b.value, c.value, d.value))
  }

  /** `str(x)` is the four octets, each printed canonically, with a dot
      between each two. */
  lemma FormatOctets(x: Address)
    ensures Split(Format(x), '.') == [FormatNat(x.a), FormatNat(x.b), FormatNat(x.c), FormatNat(x.d)]
    ensures forall k :: 0 <= k < 4 ==> Canonical(Split(Format(x), '.')[k])
  {
    var parts := [FormatNat(x.a), FormatNat(x.b), FormatNat(x.c), FormatNat(x.d)];
    SplitJoin(parts, '.');
  }

  /** What `IPv4Address` refuses, in the order it checks: empty text, a
      count of dot-separated parts other than four, then the first octet
      that is refused, its message followed by the whole text. */
  lemma ParseErrors(s: string)
    ensures |s| == 0 ==> Parse(s) == Raise("Address cannot be empty")
    ensures |s| > 0 && |Split(s, '.')| != 4 ==> Parse(s) == Raise("Expected 4 octets in '" + s + "'")
    ensures |s| > 0 && |Split(s, '.')| == 4 ==>
      var p := Split(s, '.');
      && (Parse(s).Ok? <==> ParseOctet(p[0]).Ok? && ParseOctet(p[1]).Ok? && ParseOctet(p[2]).Ok? && ParseOctet(p[3]).Ok?)
      && (forall k :: 0 <= k < 4 && ParseOctet(p[k]).Raise? && (forall j :: 0 <= j < k ==> ParseOctet(p[j]).Ok?) ==>
            Parse(s) == Raise(ParseOctet(p[k]).error + " in '" + s + "'"))
  {
  }

  /** Printed octets parse back. */
  lemma ParseFormatOctet(o: Octet)
    ensures ParseOctet(FormatNat(o)) == Ok(o)
  {
    FormatNatShort(o);
  }

  /** `IPv4Address(str(x)) == x` */
  lemma ParseFormat(x: Address)
    ensures Parse(Format(x)) == Ok(x)
  {
    var parts := [FormatNat(x.a), FormatNat(x.b), FormatNat(x.c), FormatNat(x.d)];
    SplitJoin(parts, '.');
    assert |Format(x)| > 0 by {
      assert |Format(x)| >= |FormatNat(x.a)|;
    }
    ParseFormatOctet(x.a);
    ParseFormatOctet(x.b);
    ParseFormatOctet(x.c);
    ParseFormatOctet(x.d);
  }

  /** Whatever parses prints back as the same text: the accepted syntax is
      exactly the canonical dotted quad. */
  lemma FormatParse(s: string)
    requires Parse(s).Ok?
    ensures Format(Parse(s).value) == s
  {
    var parts := Split(s, '.');
    var x := Parse(s).value;
    ParsedParts(s);
    OctetText(parts[0], x.a);
    OctetText(parts[1], x.b);
    OctetText(parts[2], x.c);
    OctetText(parts[3], x.d);
    assert [FormatNat(x.a), FormatNat(x.b), FormatNat(x.c), FormatNat(x.d)] == parts;
    JoinSplit(s, '.');
  }

  /** A parsed address comes from four dot-separated octets. */
  lemma ParsedParts(s: string)
    requires Parse(s).Ok?
    ensures var parts := Split(s, '.'); var x := Parse(s).value;
      && |parts| == 4
      && ParseOctet(parts[0]) == Ok(x.a) && ParseOctet(parts[1]) == Ok(x.b)
      && ParseOctet(parts[2]) == Ok(x.c) && ParseOctet(parts[3]) == Ok(x.d)
  {
  }

  /** An octet's text is the printed octet. */
  lemma OctetText(t: string, o: Octet)
    requires ParseOctet(t) == Ok(o)
    ensures FormatNat(o) == t
  {
    FormatValue(t);
  }

  /** A formatted address contains only digits and dots. */
  lemma FormatAlphabet(x: Address)
    ensures forall i :: 0 <= i < |Format(x)| ==> IsDigit(Format(x)[i]) || Format(x)[i] == '.'
  {
    var s := Format(x);
    var p1 := FormatNat(x.a);
    var p2 := FormatNat(x.b);
    var p3 := FormatNat(x.c);
    var p4 := FormatNat(x.d);
    var l := [p1, p2, p3, p4];
    assert l[1..] == [p2, p3, p4] && l[1..][1..] == [p3, p4] && [p3, p4][1..] == [p4];
    assert Join([p3, p4], '.') == p3 + ['.'] + p4;
    assert Join([p2, p3, p4], '.') == p2 + ['.'] + Join([p3, p4], '.');
    assert s == p1 + ['.'] + (p2 + ['.'] + (p3 + ['.'] + p4));
  }
}

=== FILE: jmeter.dfy ===
/** The JMeter load-test launcher: the runner's settings, the interface-name
    CSV it writes, the command line and environment it launches JMeter with,
    and where the results land. The process, the file system and the
    temporary-directory name are parameters. */
module JMeter {
  import opened Outcomes
  import opened Strings
  import opened Decimal

  datatype Runner = Runner(
    jmx: string,
    ifnames: seq<string>,
    nbUsers: nat,
    fqdn: Option<string>,
    kiwixDomain: Option<string>,
    dnsServer: Option<string>,
    assumeOnline: Option<string>,
    contentId: Option<string>,
    workdir: string)

  /** `JMeterRunner(...)`: one user per interface; without a working
      directory a fresh temporary one (`tempDir`) is used. */
  function NewRunner(jmx: string, ifnames: seq<string>, fqdn: Option<string>, kiwixDomain: Option<string>,
                     dnsServer: Option<string>, assumeOnline: Option<string>, contentId: Option<string>,
                     workdir: Option<string>, tempDir: string): (r: Runner)
    ensures r.nbUsers == |ifnames| && r.ifnames == ifnames
    ensures r.workdir == (if workdir.Some? then workdir.value else tempDir)
  {
    Runner(jmx, ifnames, |ifnames|, fqdn, kiwixDomain, dnsServer, assumeOnline, contentId, workdir.GetOr(tempDir))
  }

  /** `directory.joinpath(name)` for a plain file name; the empty path
      stands for the current directory. */
  function JoinPath(directory: string, name: string): (p: string)
    ensures IsSuffix(name, p)
    ensures directory == "" ==> p == name
  {
    if directory == "" then name
    else if directory[|directory| - 1] == '/' then directory + name
    else directory + "/" + name
  }

  function IfnamesCsvPath(r: Runner): string
  {
    JoinPath(r.workdir, "ifnames.csv")
  }

  function ResultsCsvPath(r: Runner): string
  {
    JoinPath(r.workdir, "results.csv")
  }

  /** The interface list and the results are different files. */
  lemma CsvPathsDiffer(r: Runner)
    ensures IfnamesCsvPath(r) != ResultsCsvPath(r)
  {
    var a := IfnamesCsvPath(r);
    var b := ResultsCsvPath(r);
    if a == b {
      assert a[|a| - 11..] == "ifnames.csv";
      assert b[|b| - 11..] == "results.csv";
    }
  }

  /** `write_ifnames`: a header line `ifname`, then one interface per line,
      with no trailing newline. */
  function IfnamesCsv(ifnames: seq<string>): string
  {
    Join(["ifname"] + ifnames, '\n')
  }

  /** Reading the CSV back line by line yields the header and the
      interfaces, in order. */
  lemma IfnamesCsvRoundTrip(ifnames: seq<string>)
    requires forall i :: 0 <= i < |ifnames| ==> '\n' !in ifnames[i]
    ensures Split(IfnamesCsv(ifnames), '\n') == ["ifname"] + ifnames
  {
    var lines := ["ifname"] + ifnames;
    forall i | 0 <= i < |lines| ensures '\n' !in lines[i] {
      if i > 0 {
        assert lines[i] == ifnames[i - 1];
      }
    }
    SplitJoin(lines, '\n');
  }

  /** The optional properties, in the order they are passed. */
  const PropertyKeys: seq<string> := ["fqdn", "kiwix_domain", "dns_server", "assume_online", "content_id"]

  function PropertyValues(r: Runner): seq<Option<string>>
  {
    [r.fqdn, r.kiwixDomain, r.dnsServer, r.assumeOnline, r.contentId]
  }

  /** A property is passed when it is truthy: present and non-empty. */
  predicate IsSet(v: Option<string>)
  {
    v.Some? && v.value != ""
  }

  function Define(key: string, value: string): string
  {
    "-J" + key + "=" + value
  }

  /** One `-J<key>=<value>` per set property, in key order. */
  function Defines(keys: seq<string>, values: seq<Option<string>>): (defs: seq<string>)
    requires |keys| == |values|
    ensures |defs| <= |keys|
  {
    if |keys| == 0 then []
    else
      (if IsSet(values[0]) then [Define(keys[0], values[0].value)] else [])
      + Defines(keys[1..], values[1..])
  }

  /** `shutil.which("jmeter") or "/usr/bin/jmeter"` */
  function Executable(which: Option<string>): string
  {
    if IsSet(which) then which.value else "/usr/bin/jmeter"
  }

  /** The argv `start` launches. */
  function StartArgs(r: Runner, which: Option<string>): (args: seq<string>)
    ensures |args| >= 5
    ensures args[..5] == [Executable(which), "-n", "-t", r.jmx, Define("nb_users", FormatNat(r.nbUsers))]
    ensures |args| <= 10
  {
    [Executable(which), "-n", "-t", r.jmx, Define("nb_users", FormatNat(r.nbUsers))]
      + Defines(PropertyKeys, PropertyValues(r))
  }

  /** JMeter's reading of `-J` definitions: the value of the first one for
      `key`. */
  function Lookup(defs: seq<string>, key: string): (v: Option<string>)
  {
    if |defs| == 0 then None
    else if "-J" + key + "=" <= defs[0] then Some(defs[0][|key| + 3..])
    else Lookup(defs[1..], key)
  }

  /** A definition for one key never reads as a definition for another,
      provided keys hold no `=`. */
  lemma DefinePrefix(key: string, other: string, value: string)
    requires '=' !in key && '=' !in other
    ensures "-J" + key + "=" <= Define(other, value) <==> key == other
  {
    var p := "-J" + key + "=";
    var d := Define(other, value);
    if |key| < |other| {
      assert p[|key| + 2] != d[|key| + 2] by {
        assert d[|key| + 2] == other[|key|];
      }
    } else if |key| > |other| {
      assert p[|other| + 2] != d[|other| + 2] by {
        assert p[|other| + 2] == key[|other|];
      }
    } else if key != other {
      var i :| 0 <= i < |key| && key[i] != other[i];
      assert p[i + 2] != d[i + 2];
    } else {
      assert d == p + value;
    }
  }

  /** Each key's definition carries its value when set and is absent
      otherwise. */
  lemma {:induction false} LookupDefines(keys: seq<string>, values: seq<Option<string>>, k: nat)
    requires |keys| == |values| && k < |keys|
    requires forall i :: 0 <= i < |keys| ==> '=' !in keys[i]
    requires forall i, j :: 0 <= i < j < |keys| ==> keys[i] != keys[j]
    ensures Lookup(Defines(keys, values), keys[k]) == (if IsSet(values[k]) then Some(values[k].value) else None)
    decreases |keys|
  {
    var key := keys[k];
    var defs := Defines(keys, values);
    var tail := Defines(keys[1..], values[1..]);
    if IsSet(values[0]) {
      assert defs == [Define(keys[0], values[0].value)] + tail;
      DefinePrefix(key, keys[0], values[0].value);
      if k == 0 {
        assert Define(key, values[0].value)[|key| + 3..] == values[0].value;
      } else {
        assert defs[1..] == tail;
        LookupDefines(keys[1..], values[1..], k - 1);
      }
    } else {
      assert defs == tail;
      if k == 0 {
        LookupAbsent(keys[1..], values[1..], key);
      } else {
        LookupDefines(keys[1..], values[1..], k - 1);
      }
    }
  }

  /** A key outside the list has no definition. */
  lemma {:induction false} LookupAbsent(keys: seq<string>, values: seq<Option<string>>, key: string)
    requires |keys| == |values|
    requires '=' !in key && forall i :: 0 <= i < |keys| ==> '=' !in keys[i]
    requires forall i :: 0 <= i < |keys| ==> keys[i] != key
    ensures Lookup(Defines(keys, values), key) == None
    decreases |keys|
  {
    if |keys| > 0 {
      var defs := Defines(keys, values);
      var tail := Defines(keys[1..], values[1..]);
      LookupAbsent(keys[1..], values[1..], key);
      if IsSet(values[0]) {
        DefinePrefix(key, keys[0], values[0].value);
        assert defs[1..] == tail;
      } else {
        assert defs == tail;
      }
    }
  }

  /** JMeter sees, for each optional property, the runner's value when it is
      set and no definition otherwise. */
  lemma StartDefinesProperties(r: Runner, which: Option<string>, k: nat)
    requires k < |PropertyKeys|
    ensures Lookup(StartArgs(r, which)[5..], PropertyKeys[k])
         == (if IsSet(PropertyValues(r)[k]) then Some(PropertyValues(r)[k].value) else None)
  {
    var keys := PropertyKeys;
    assert '=' !in keys[0] && '=' !in keys[1] && '=' !in keys[2] && '=' !in keys[3] && '=' !in keys[4];
    assert StartArgs(r, which)[5..] == Defines(keys, PropertyValues(r));
    LookupDefines(keys, PropertyValues(r), k);
  }

  /** The user count JMeter reads is the number of interfaces. */
  lemma StartNbUsers(r: Runner, which: Option<string>)
    ensures "-Jnb_users=" <= StartArgs(r, which)[4]
    ensures ParseInt(StartArgs(r, which)[4][|"-Jnb_users="|..]) == Ok(r.nbUsers)
  {
    var d := StartArgs(r, which)[4];
    assert d == Define("nb_users", FormatNat(r.nbUsers));
    assert d[|"-Jnb_users="|..] == FormatNat(r.nbUsers);
    FormatIntParseInt(FormatNat(r.nbUsers));
  }

  /** `start`'s environment: the caller's, with `JVM_ARGS` set to give the
      JVM a 2 GiB heap. */
  function StartEnvironment(environ: map<string, string>): (env: map<string, string>)
    ensures env.Keys == environ.Keys + {"JVM_ARGS"}
    ensures env["JVM_ARGS"] == "-Xmx2g"
    ensures forall k :: k in environ && k != "JVM_ARGS" ==> env[k] == environ[k]
  {
    environ["JVM_ARGS" := "-Xmx2g"]
  }

  /** What `start` hands to the process: argv, working directory and
      environment. */
  datatype Launch = Launch(args: seq<string>, cwd: string, env: map<string, string>)

  /** `start`: JMeter in non-GUI mode on the plan with the runner's user
      count, then each set property, run from the working directory (where the
      interface CSV lies) with a 2 GiB heap on top of the caller's
      environment. */
  function Start(r: Runner, which: Option<string>, environ: map<string, string>): (l: Launch)
    ensures |l.args| >= 5
    ensures l.args[0] == Executable(which) && l.args[1] == "-n" && l.args[2] == "-t" && l.args[3] == r.jmx
    ensures "-Jnb_users=" <= l.args[4] && ParseInt(l.args[4][|"-Jnb_users="|..]) == Ok(r.nbUsers)
    ensures forall k :: 0 <= k < |PropertyKeys| ==>
      Lookup(l.args[5..], PropertyKeys[k]) == (if IsSet(PropertyValues(r)[k]) then Some(PropertyValues(r)[k].value) else None)
    ensures l.cwd == r.workdir
    ensures IfnamesCsvPath(r) == JoinPath(l.cwd, "ifnames.csv")
    ensures l.env.Keys == environ.Keys + {"JVM_ARGS"} && l.env["JVM_ARGS"] == "-Xmx2g"
    ensures forall k :: k in environ && k != "JVM_ARGS" ==> l.env[k] == environ[k]
  {
    var args := StartArgs(r, which);
    assert args[..5][0] == args[0] && args[..5][3] == args[3];
    StartNbUsers(r, which);
    StartDefinesAll(r, which);
    Launch(args, r.workdir, StartEnvironment(environ))
  }

  /** `StartDefinesProperties` for every optional property at once. */
  lemma StartDefinesAll(r: Runner, which: Option<string>)
    ensures forall k :: 0 <= k < |PropertyKeys| ==>
      Lookup(StartArgs(r, which)[5..], PropertyKeys[k])
        == (if IsSet(PropertyValues(r)[k]) then Some(PropertyValues(r)[k].value) else None)
  {
    forall k | 0 <= k < |PropertyKeys| {
      StartDefinesProperties(r, which, k);
    }
  }

  /** The performance command's runner: no domain settings, `assume_online`
      always passed as "true" or "false", the content id only when set. */
  lemma PerfRunnerDefines(jmx: string, ifnames: seq<string>, online: bool, contentId: string,
                          tempDir: string, which: Option<string>)
    ensures var r := NewRunner(jmx, ifnames, None, None, None, Some(if online then "true" else "false"),
                               Some(contentId), None, tempDir);
      && Lookup(StartArgs(r, which)[5..], "fqdn") == None
      && Lookup(StartArgs(r, which)[5..], "assume_online") == Some(if online then "true" else "false")
      && Lookup(StartArgs(r, which)[5..], "content_id") == (if contentId != "" then Some(contentId) else None)
      && r.workdir == tempDir
  {
    var r := NewRunner(jmx, ifnames, None, None, None, Some(if online then "true" else "false"),
                       Some(contentId), None, tempDir);
    StartDefinesProperties(r, which, 0);
    StartDefinesProperties(r, which, 3);
    StartDefinesProperties(r, which, 4);
  }
}

=== FILE: outcomes.dfy ===
/** Optional values and Python-style "returns or raises" outcomes, shared by
    every module of the model. */
module Outcomes {

  /** A Python value that may be `None`. */
  datatype Option<+T> = None | Some(value: T) {

    /** Python's `x or default` for a value whose only falsy form is `None`. */
    function GetOr(default: T): T {
      match this
      case Some(v) => v
      case None => default
    }
  }

  /** The outcome of a Python call: it returns a value or raises an exception
      whose `str()` is `error`. */
  datatype Raises<+T> = Ok(value: T) | Raise(error: string) {

    predicate IsFailure() {
      Raise?
    }

    function PropagateFailure<U>(): Raises<U>
      requires Raise?
    {
      Raise(error)
    }

    function Extract(): T
      requires Ok?
    {
      value
    }
  }
}

=== FILE: perdevice.dfy ===
/** One device's worker: it runs the collection in order and queues one
    result per check; once a check raises, every later check is reported
    as skipped; a parameter that fails validation ends the worker. */
module PerDevice {
  import opened Outcomes
  import opened Checks
  import Wlan

  /** One queued result (its timestamp left out). */
  datatype Result = Result(name: string, ifname: string, params: Params, succeeded: bool, feedback: string)

  /** What a worker leaves behind: the results it queued, in order, and the
      exception that ended it early, if any. */
  datatype WorkerRun = WorkerRun(results: seq<Result>, aborted: Option<string>)

  /** The result of a check that ran: its own verdict under its display
      name, or, when it raised, a failure under the class name carrying the
      exception's text. */
  function RanResult(k: CheckKind, p: Params, ifname: string, w: World): (r: Result)
    requires WellTyped(k, p)
    ensures r.ifname == ifname && r.params == p
    ensures RunCheck(k, p, ifname, w).Raised? ==> r.name == Name(k) && !r.succeeded
    ensures RunCheck(k, p, ifname, w).Returned? ==>
      r.name == DisplayName(k, p) && r.succeeded == RunCheck(k, p, ifname, w).succeeded
    ensures RunCheck(k, p, ifname, w).Raised? ==> r.feedback == RunCheck(k, p, ifname, w).message
    ensures RunCheck(k, p, ifname, w).Returned? ==> r.feedback == RunCheck(k, p, ifname, w).feedback
  {
    match RunCheck(k, p, ifname, w)
    case Returned(succeeded, feedback) => Result(DisplayName(k, p), ifname, p, succeeded, feedback)
    case Raised(message) => Result(Name(k), ifname, p, false, message)
  }

  /** The result of a check after an earlier one raised. */
  function SkippedResult(k: CheckKind, p: Params, ifname: string): Result
  {
    Result(Name(k), ifname, p, false, "Skipped")
  }

  /** One check's turn once its parameters validate: the result it reports
      when it runs, the one it reports when skipped, and whether running it
      raised. */
  datatype Turn = Turn(ran: Result, skipped: Result, raised: bool)

  /** The turn of check `k` on a device, or the parameter error. */
  function TurnOf(k: CheckKind, all: Params, ifname: string, w: World): (t: Raises<Turn>)
    ensures t.Raise? <==> GetTestParams(k, all).Raise?
    ensures t.Raise? ==> t.error == GetTestParams(k, all).error
    ensures t.Ok? ==> t.value.ran.ifname == ifname && t.value.skipped.ifname == ifname
    ensures t.Ok? ==> !t.value.skipped.succeeded && (t.value.raised ==> !t.value.ran.succeeded)
  {
    var p :- GetTestParams(k, all);
    Ok(Turn(RanResult(k, p, ifname, w), SkippedResult(k, p, ifname), RunCheck(k, p, ifname, w).Raised?))
  }

  /** The loop over the turns from some check on, with the skip flag as it
      stands: a parameter error stops it; otherwise the check's result is
      queued (the skipped one when the flag is up) and a raise raises the
      flag. */
  function Loop(turns: seq<Raises<Turn>>, skip: bool): (run: WorkerRun)
    ensures |run.results| <= |turns|
    ensures run.aborted.None? <==> forall j :: 0 <= j < |turns| ==> turns[j].Ok?
    ensures run.aborted.None? ==> |run.results| == |turns|
    ensures run.aborted.Some? ==> |run.results| < |turns|
  {
    if |turns| == 0 then WorkerRun([], None)
    else if turns[0].Raise? then WorkerRun([], Some(turns[0].error))
    else
      var t := turns[0].value;
      var rest := Loop(turns[1..], skip || t.raised);
      WorkerRun([if skip then t.skipped else t.ran] + rest.results, rest.aborted)
  }

  /** The turns of a collection on one device. */
  function Turns(kinds: seq<CheckKind>, ifname: string, all: Params, w: World): (turns: seq<Raises<Turn>>)
    ensures |turns| == |kinds|
    ensures forall i :: 0 <= i < |kinds| ==> turns[i] == TurnOf(kinds[i], all, ifname, w)
  {
    seq(|kinds|, i requires 0 <= i < |kinds| => TurnOf(kinds[i], all, ifname, w))
  }

  /** `run_for_ifname`: at most one result per check; the worker ends
      without error exactly when every check's parameters validate, and
      then holds one result per check. */
  function RunForIfname(kinds: seq<CheckKind>, ifname: string, all: Params, w: World): (run: WorkerRun)
    ensures |run.results| <= |kinds|
    ensures run.aborted.None? <==> forall j :: 0 <= j < |kinds| ==> GetTestParams(kinds[j], all).Ok?
    ensures run.aborted.None? ==> |run.results| == |kinds|
  {
    Loop(Turns(kinds, ifname, all, w), false)
  }

  /** A turn that validates, does not raise and succeeds. */
  predicate Passes(t: Raises<Turn>)
  {
    t.Ok? && !t.value.raised && t.value.ran.succeeded
  }

  /** Turns as checks make them: skipping fails, and so does raising. */
  predicate Sound(turns: seq<Raises<Turn>>)
  {
    forall j :: 0 <= j < |turns| && turns[j].Ok? ==>
      !turns[j].value.skipped.succeeded && (turns[j].value.raised ==> !turns[j].value.ran.succeeded)
  }

  /** The loop reports a success for every check exactly when every turn
      passes. */
  lemma {:induction false} LoopAllPassed(turns: seq<Raises<Turn>>)
    requires Sound(turns)
    ensures var run := Loop(turns, false);
      (|run.results| == |turns| && forall x :: x in run.results ==> x.succeeded)
      <==> forall j :: 0 <= j < |turns| ==> Passes(turns[j])
    decreases |turns|
  {
    if |turns| > 0 && turns[0].Ok? {
      var t := turns[0].value;
      var tail := turns[1..];
      assert forall j :: 0 <= j < |tail| ==> tail[j] == turns[j + 1];
      var run := Loop(turns, false);
      var rest := Loop(tail, t.raised);
      assert run.results == [t.ran] + rest.results;
      if !t.raised {
        LoopAllPassed(tail);
        if forall j :: 0 <= j < |turns| ==> Passes(turns[j]) {
          assert forall j :: 0 <= j < |tail| ==> Passes(tail[j]);
        }
        if forall j :: 0 <= j < |tail| ==> Passes(tail[j]) {
          if t.ran.succeeded {
            assert forall j :: 0 < j < |turns| ==> Passes(turns[j]) by {
              forall j | 0 < j < |turns| ensures Passes(turns[j]) {
                assert turns[j] == tail[j - 1];
              }
            }
          }
        }
        if |run.results| == |turns| && forall x :: x in run.results ==> x.succeeded {
          assert forall x :: x in rest.results ==> x in run.results;
        }
      } else {
        assert run.results[0] == t.ran;
      }
    }
  }

  /** A device's worker reports success for every check exactly when every
      check validates, runs without raising and succeeds. */
  lemma WorkerAllPassed(kinds: seq<CheckKind>, ifname: string, all: Params, w: World)
    ensures var run := RunForIfname(kinds, ifname, all, w);
      (|run.results| == |kinds| && forall x :: x in run.results ==> x.succeeded)
      <==> forall j :: 0 <= j < |kinds| ==> Passes(TurnOf(kinds[j], all, ifname, w))
  {
    LoopAllPassed(Turns(kinds, ifname, all, w));
  }

  /** Some turn before `j` raised. */
  predicate RaisedBefore(turns: seq<Raises<Turn>>, j: nat)
    requires j <= |turns|
  {
    exists i :: 0 <= i < j && turns[i].Ok? && turns[i].value.raised
  }

  /** What result `j` is: skipped when the flag was up or an earlier check
      raised, the check's own result otherwise. */
  function Expected(turns: seq<Raises<Turn>>, skip: bool, j: nat): Result
    requires j < |turns| && turns[j].Ok?
  {
    if skip || RaisedBefore(turns, j) then turns[j].value.skipped else turns[j].value.ran
  }

  /** Dropping the first turn moves its "raised" into the skip flag. */
  lemma ShiftExpected(turns: seq<Raises<Turn>>, skip: bool, j: nat)
    requires 0 < j < |turns| && turns[0].Ok? && turns[j].Ok?
    ensures Expected(turns[1..], skip || turns[0].value.raised, j - 1) == Expected(turns, skip, j)
  {
    var tail := turns[1..];
    if RaisedBefore(tail, j - 1) {
      var i :| 0 <= i < j - 1 && tail[i].Ok? && tail[i].value.raised;
      assert turns[i + 1] == tail[i];
    }
    if RaisedBefore(turns, j) && !turns[0].value.raised {
      var i :| 0 <= i < j && turns[i].Ok? && turns[i].value.raised;
      assert tail[i - 1] == turns[i];
    }
  }

  /** The loop queues one result per turn up to the first parameter error
      `c` (or the end), each as `Expected` describes, and ends with that
      error when there is one. */
  lemma {:induction false} LoopShape(turns: seq<Raises<Turn>>, skip: bool, c: nat)
    requires c <= |turns|
    requires forall j :: 0 <= j < c ==> turns[j].Ok?
    requires c < |turns| ==> turns[c].Raise?
    ensures var run := Loop(turns, skip);
      && |run.results| == c
      && (c < |turns| ==> run.aborted == Some(turns[c].error))
      && (c == |turns| ==> run.aborted == None)
      && forall j :: 0 <= j < c ==> run.results[j] == Expected(turns, skip, j)
    decreases |turns|
  {
    if |turns| > 0 && c > 0 {
      var run := Loop(turns, skip);
      var skip' := skip || turns[0].value.raised;
      var tail := turns[1..];
      assert forall j :: 0 <= j < c - 1 ==> tail[j] == turns[j + 1];
      LoopShape(tail, skip', c - 1);
      var rest := Loop(tail, skip');
      assert run.results == [run.results[0]] + rest.results;
      forall j | 0 <= j < c ensures run.results[j] == Expected(turns, skip, j) {
        if j > 0 {
          assert run.results[j] == rest.results[j - 1];
          ShiftExpected(turns, skip, j);
        }
      }
    }
  }

  /** With every parameter valid, the worker completes: one result per
      check, the check's own verdict until one raises, "Skipped" after. */
  lemma RunForIfnameComplete(kinds: seq<CheckKind>, ifname: string, all: Params, w: World)
    requires forall j :: 0 <= j < |kinds| ==> GetTestParams(kinds[j], all).Ok?
    ensures var turns := Turns(kinds, ifname, all, w);
      var run := RunForIfname(kinds, ifname, all, w);
      && run.aborted.None? && |run.results| == |kinds|
      && forall j :: 0 <= j < |kinds| ==> turns[j].Ok? && run.results[j] == Expected(turns, false, j)
  {
    LoopShape(Turns(kinds, ifname, all, w), false, |kinds|);
  }

  /** A parameter error at check `c` ends the worker there: the checks before
      it are reported, none after, and the worker ends with the error. */
  lemma RunForIfnameAborts(kinds: seq<CheckKind>, ifname: string, all: Params, w: World, c: nat)
    requires c < |kinds|
    requires forall j :: 0 <= j < c ==> GetTestParams(kinds[j], all).Ok?
    requires GetTestParams(kinds[c], all).Raise?
    ensures var run := RunForIfname(kinds, ifname, all, w);
      && |run.results| == c && run.aborted == Some(GetTestParams(kinds[c], all).error)
  {
    LoopShape(Turns(kinds, ifname, all, w), false, c);
  }

  /** Every result names the worker's device; none succeeds once the skip
      flag is up. */
  lemma {:induction false} LoopResults(turns: seq<Raises<Turn>>, skip: bool, ifname: string)
    requires forall i :: 0 <= i < |turns| && turns[i].Ok? ==>
      turns[i].value.ran.ifname == ifname && turns[i].value.skipped.ifname == ifname && !turns[i].value.skipped.succeeded
    ensures forall r :: r in Loop(turns, skip).results ==> r.ifname == ifname
    ensures skip ==> forall r :: r in Loop(turns, skip).results ==> !r.succeeded
    decreases |turns|
  {
    if |turns| > 0 && turns[0].Ok? {
      assert forall i :: 0 <= i < |turns| - 1 ==> turns[1..][i] == turns[i + 1];
      LoopResults(turns[1..], skip || turns[0].value.raised, ifname);
    }
  }

  /** A worker only reports on its own device. */
  lemma RunForIfnameAbout(kinds: seq<CheckKind>, ifname: string, all: Params, w: World)
    ensures forall r :: r in RunForIfname(kinds, ifname, all, w).results ==> r.ifname == ifname
  {
    LoopResults(Turns(kinds, ifname, all, w), false, ifname);
  }

  /** A check that fails without raising does not stop the next one from
      running. */
  lemma FailureDoesNotSkip(kinds: seq<CheckKind>, ifname: string, all: Params, w: World)
    requires |kinds| >= 2
    requires forall j :: 0 <= j < |kinds| ==> GetTestParams(kinds[j], all).Ok?
    requires TurnOf(kinds[0], all, ifname, w).Ok? && !TurnOf(kinds[0], all, ifname, w).value.raised
    ensures var run := RunForIfname(kinds, ifname, all, w);
      && TurnOf(kinds[1], all, ifname, w).Ok? && |run.results| >= 2
      && run.results[1] == TurnOf(kinds[1], all, ifname, w).value.ran
  {
    var turns := Turns(kinds, ifname, all, w);
    RunForIfnameComplete(kinds, ifname, all, w);
    assert !RaisedBefore(turns, 1);
  }

  /** Once the skip flag is up, what the loop queues no longer depends on
      how the checks would have run. */
  lemma {:induction false} SkippingIgnoresRuns(turns: seq<Raises<Turn>>, turns': seq<Raises<Turn>>)
    requires |turns| == |turns'|
    requires forall i :: 0 <= i < |turns| ==> turns[i].Raise? == turns'[i].Raise?
    requires forall i :: 0 <= i < |turns| && turns[i].Raise? ==> turns[i].error == turns'[i].error
    requires forall i :: 0 <= i < |turns| && turns[i].Ok? ==> turns[i].value.skipped == turns'[i].value.skipped
    ensures Loop(turns, true) == Loop(turns', true)
    decreases |turns|
  {
    if |turns| > 0 && turns[0].Ok? {
      assert forall i :: 0 <= i < |turns| - 1 ==> turns[1..][i] == turns[i + 1] && turns'[1..][i] == turns'[i + 1];
      SkippingIgnoresRuns(turns[1..], turns'[1..]);
    }
  }

  /** After a raise the remaining checks are skipped whatever the device's
      world: two worlds give the same remainder. */
  lemma SkippedIgnoresWorld(kinds: seq<CheckKind>, ifname: string, all: Params, w: World, w': World)
    ensures Loop(Turns(kinds, ifname, all, w), true) == Loop(Turns(kinds, ifname, all, w'), true)
  {
    SkippingIgnoresRuns(Turns(kinds, ifname, all, w), Turns(kinds, ifname, all, w'));
  }

  /** With parameters that all validate, every turn validates. */
  lemma TurnsValidate(kinds: seq<CheckKind>, all: Params, ifname: string, w: World)
    requires forall k :: GetTestParams(k, all).Ok?
    ensures forall j :: 0 <= j < |kinds| ==> Turns(kinds, ifname, all, w)[j].Ok?
  {
  }

  /** Skipped results carry the class name and the feedback "Skipped"; so
      does a raised one carry the class name. */
  lemma ClassNameTurn(k: CheckKind, all: Params, ifname: string, w: World)
    requires TurnOf(k, all, ifname, w).Ok?
    ensures var t := TurnOf(k, all, ifname, w).value;
      && t.skipped.name == Name(k) && t.skipped.feedback == "Skipped"
      && (t.raised ==> t.ran.name == Name(k))
  {
  }

  /** The connection, address, gateway, DNS-server and ping checks report
      under the class name; of them only the connection and address checks
      raise, and only when refreshing the device does. */
  lemma QuietTurn(k: CheckKind, all: Params, ifname: string, w: World)
    requires k in {WiFiConnection, ExpectedAddress, ExpectedGateway, ExpectedDns, CanPing}
    requires TurnOf(k, all, ifname, w).Ok?
    ensures TurnOf(k, all, ifname, w).value.raised <==>
      k in {WiFiConnection, ExpectedAddress} && Wlan.Refresh(w.show).Raise?
    ensures TurnOf(k, all, ifname, w).value.ran.name == Name(k)
  {
  }

  /** Without an IPv4 link the DNS check of the fqdn raises. */
  lemma NoLinkFqdnRaises(all: Params, ifname: string, w: World)
    requires Link(w).None? && TurnOf(ResolvesFqdn, all, ifname, w).Ok?
    ensures TurnOf(ResolvesFqdn, all, ifname, w).value.raised
    ensures TurnOf(ResolvesFqdn, all, ifname, w).value.ran.feedback == "No IPv4 Link"
  {
  }

  /** The loop over turns that all validate, the first raise at `r`: the
      results up to `r` are the checks' own, those after it the skipped
      ones. */
  lemma LoopFirstRaise(turns: seq<Raises<Turn>>, r: nat)
    requires r < |turns|
    requires forall j :: 0 <= j < |turns| ==> turns[j].Ok?
    requires turns[r].value.raised && forall i :: 0 <= i < r ==> !turns[i].value.raised
    ensures var run := Loop(turns, false);
      && |run.results| == |turns| && run.aborted.None?
      && (forall j :: 0 <= j <= r ==> run.results[j] == turns[j].value.ran)
      && (forall j :: r < j < |turns| ==> run.results[j] == turns[j].value.skipped)
  {
    LoopShape(turns, false, |turns|);
    forall j | r < j < |turns| ensures RaisedBefore(turns, j) {
      assert turns[r].Ok? && turns[r].value.raised;
    }
  }

  /** The loop over ten validated turns whose first raise is the sixth,
      which fails for want of a link: the names are the turns' own, the
      sixth reports the missing link and the rest are skipped. */
  lemma LoopNoLink(turns: seq<Raises<Turn>>, names: seq<string>)
    requires |turns| == 10 == |names|
    requires forall j :: 0 <= j < 10 ==> turns[j].Ok?
    requires forall j :: 0 <= j < 10 ==> turns[j].value.skipped.name == names[j] && turns[j].value.skipped.feedback == "Skipped"
    requires forall j :: 0 <= j < 5 ==> !turns[j].value.raised && turns[j].value.ran.name == names[j]
    requires turns[5].value.raised && turns[5].value.ran.name == names[5] && turns[5].value.ran.feedback == "No IPv4 Link"
    ensures var run := Loop(turns, false);
      && |run.results| == 10 && run.aborted.None?
      && (forall j :: 0 <= j < 10 ==> run.results[j].name == names[j])
      && run.results[5].feedback == "No IPv4 Link"
      && (forall j :: 6 <= j < 10 ==> run.results[j].feedback == "Skipped")
  {
    LoopFirstRaise(turns, 5);
  }

  /** While refreshing the device succeeds, the connection, address,
      gateway, DNS-server and ping checks never raise and keep their class
      name in the results. */
  lemma QuietPrefix(kinds: seq<CheckKind>, all: Params, ifname: string, w: World, n: nat)
    requires Wlan.Refresh(w.show).Ok?
    requires n <= |kinds|
    requires forall k :: GetTestParams(k, all).Ok?
    requires forall i :: 0 <= i < n ==> kinds[i] in {WiFiConnection, ExpectedAddress, ExpectedGateway, ExpectedDns, CanPing}
    ensures var turns := Turns(kinds, ifname, all, w);
      forall i :: 0 <= i < n ==> turns[i].Ok? && !turns[i].value.raised && turns[i].value.ran.name == Name(kinds[i])
  {
    forall i | 0 <= i < n ensures TurnOf(kinds[i], all, ifname, w).Ok? && !TurnOf(kinds[i], all, ifname, w).value.raised
                             && TurnOf(kinds[i], all, ifname, w).value.ran.name == Name(kinds[i]) {
      QuietTurn(kinds[i], all, ifname, w);
    }
  }

  /** Every skipped result carries the class name. */
  lemma SkippedNames(kinds: seq<CheckKind>, all: Params, ifname: string, w: World)
    requires forall k :: GetTestParams(k, all).Ok?
    ensures var turns := Turns(kinds, ifname, all, w);
      forall j :: 0 <= j < |kinds| ==>
        turns[j].Ok? && turns[j].value.skipped.name == Name(kinds[j]) && turns[j].value.skipped.feedback == "Skipped"
  {
    forall j | 0 <= j < |kinds| ensures TurnOf(kinds[j], all, ifname, w).Ok?
                              && TurnOf(kinds[j], all, ifname, w).value.skipped.name == Name(kinds[j])
                              && TurnOf(kinds[j], all, ifname, w).value.skipped.feedback == "Skipped" {
      ClassNameTurn(kinds[j], all, ifname, w);
    }
  }

  /** When refreshing the device raises, a run whose first check is the
      connection check reports the error there and skips every later
      check. */
  lemma RefreshFailureSkipsRest(kinds: seq<CheckKind>, all: Params, ifname: string, w: World)
    requires Wlan.Refresh(w.show).Raise?
    requires forall k :: GetTestParams(k, all).Ok?
    requires |kinds| > 0 && kinds[0] == WiFiConnection
    ensures var run := RunForIfname(kinds, ifname, all, w);
      && |run.results| == |kinds| && run.aborted.None?
      && run.results[0].name == Name(WiFiConnection) && !run.results[0].succeeded
      && run.results[0].feedback == Wlan.Refresh(w.show).error
      && (forall j :: 1 <= j < |kinds| ==> run.results[j].name == Name(kinds[j]) && run.results[j].feedback == "Skipped")
  {
    var turns := Turns(kinds, ifname, all, w);
    SkippedNames(kinds, all, ifname, w);
    assert turns[0].value.raised && turns[0].value.ran.feedback == Wlan.Refresh(w.show).error;
    ClassNameTurn(kinds[0], all, ifname, w);
    LoopFirstRaise(turns, 0);
  }

  /** Refreshing the device succeeds but leaves no IPv4 link: with
      parameters that all validate, a run of ten checks whose first five
      are the device-state checks and whose sixth is the DNS check of the
      fqdn raises there; from there on every result carries the class
      name. */
  lemma NoLinkTurns(kinds: seq<CheckKind>, all: Params, ifname: string, w: World)
    requires Wlan.Refresh(w.show) == Ok(None)
    requires forall k :: GetTestParams(k, all).Ok?
    requires |kinds| == 10 && kinds[5] == ResolvesFqdn
    requires forall i :: 0 <= i < 5 ==> kinds[i] in {WiFiConnection, ExpectedAddress, ExpectedGateway, ExpectedDns, CanPing}
    ensures var run := RunForIfname(kinds, ifname, all, w);
      && |run.results| == 10 && run.aborted.None?
      && (forall j :: 0 <= j < 10 ==> run.results[j].name == Name(kinds[j]))
      && run.results[5].feedback == "No IPv4 Link"
      && (forall j :: 6 <= j < 10 ==> run.results[j].feedback == "Skipped")
  {
    var turns := Turns(kinds, ifname, all, w);
    var names := seq(10, j requires 0 <= j < 10 => Name(kinds[j]));
    QuietPrefix(kinds, all, ifname, w, 5);
    SkippedNames(kinds, all, ifname, w);
    NoLinkFqdnRaises(all, ifname, w);
    ClassNameTurn(kinds[5], all, ifname, w);
    LoopNoLink(turns, names);
  }

  /** A device that never gets an IPv4 link, its refreshes succeeding,
      under the command's parameters: the three exact-DNS results share the
      name "DNS". */
  lemma NoLinkReportsClassNames(c: Context.Config, online: bool, ifname: string, w: World)
    requires Wlan.Refresh(w.show) == Ok(None)
    ensures var run := RunForIfname(Collection(online), ifname, CommandParams(c), w);
      && |run.results| == 10 && run.aborted.None?
      && (forall j :: 0 <= j < 10 ==> run.results[j].name == Name(Collection(online)[j]))
      && run.results[5].feedback == "No IPv4 Link"
      && (forall j :: 6 <= j < 10 ==> run.results[j].feedback == "Skipped")
      && run.results[5].name == run.results[6].name
  {
    CommandParamsValidate(c);
    CollectionPrefix(online);
    NoLinkTurns(Collection(online), CommandParams(c), ifname, w);
  }
}

=== FILE: perf.dfy ===
/** The performance command's read-out of JMeter's results: each result row
    is attributed to an interface through its thread name, and counted as a
    success or a failure twice, once under its test label and once under
    its interface, in insertion-ordered tables. */
module Perf {
  import opened Outcomes
  import opened Strings
  import opened Decimal

  /** `Result`: how many samples succeeded and failed. */
  datatype Tally = Tally(success: nat, failed: nat)
  {
    /** The `nb_total` property. */
    function Total(): nat
    {
      success + failed
    }

    function Add(succeeded: bool): Tally
    {
      if succeeded then Tally(success + 1, failed) else Tally(success, failed + 1)
    }
  }

  /** A `dict[str, Result]`: its keys in insertion order, and the tallies. */
  datatype Table = Table(keys: seq<string>, counts: map<string, Tally>)

  predicate Distinct(keys: seq<string>)
  {
    forall i, j :: 0 <= i < j < |keys| ==> keys[i] != keys[j]
  }

  /** Keys are listed once each, exactly the keys of the map, and every entry
      counts at least one sample (entries are only created to be counted). */
  ghost predicate Valid(t: Table)
  {
    && Distinct(t.keys)
    && (forall k :: k in t.counts <==> k in t.keys)
    && (forall k :: k in t.counts ==> t.counts[k].Total() >= 1)
  }

  const Empty: Table := Table([], map[])

  /** The tally under `key`, zero when there is none. */
  function Get(t: Table, key: string): Tally
  {
    if key in t.counts then t.counts[key] else Tally(0, 0)
  }

  /** Counting one sample under `key`: a missing key is first added with a
      zero tally, at the end. */
  function Record(t: Table, key: string, succeeded: bool): (r: Table)
    requires Valid(t)
    ensures Valid(r)
    ensures r.keys == (if key in t.counts then t.keys else t.keys + [key])
    ensures r.counts == t.counts[key := Get(t, key).Add(succeeded)]
    ensures Get(r, key) == Get(t, key).Add(succeeded)
    ensures forall k :: k != key ==> Get(r, k) == Get(t, k)
  {
    var counts := t.counts[key := Get(t, key).Add(succeeded)];
    if key in t.counts then
      Table(t.keys, counts)
    else
      var r := Table(t.keys + [key], counts);
      assert forall k :: k in r.keys <==> k in t.keys || k == key;
      r
  }

  /** The sum of the totals, over the keys. */
  function Sum(keys: seq<string>, counts: map<string, Tally>): nat
    requires forall k :: k in keys ==> k in counts
  {
    if |keys| == 0 then 0
    else Sum(keys[..|keys| - 1], counts) + counts[keys[|keys| - 1]].Total()
  }

  /** Maps with the same totals on `keys` have the same sum. */
  lemma {:induction false} SumAgree(keys: seq<string>, m1: map<string, Tally>, m2: map<string, Tally>)
    requires forall k :: k in keys ==> k in m1 && k in m2 && m1[k].Total() == m2[k].Total()
    ensures Sum(keys, m1) == Sum(keys, m2)
    decreases |keys|
  {
    if |keys| > 0 {
      SumAgree(keys[..|keys| - 1], m1, m2);
    }
  }

  /** One more sample under a key listed exactly once raises the sum by one. */
  lemma {:induction false} SumBump(keys: seq<string>, m1: map<string, Tally>, m2: map<string, Tally>, key: string)
    requires Distinct(keys) && key in keys
    requires forall k :: k in keys ==> k in m1 && k in m2
    requires m2[key].Total() == m1[key].Total() + 1
    requires forall k :: k in keys && k != key ==> m1[k].Total() == m2[k].Total()
    ensures Sum(keys, m2) == Sum(keys, m1) + 1
    decreases |keys|
  {
    var init := keys[..|keys| - 1];
    var last := keys[|keys| - 1];
    if last == key {
      SumAgree(init, m1, m2);
    } else {
      assert Distinct(init);
      SumBump(init, m1, m2, key);
    }
  }

  /** Each recorded sample adds one to the table's sum. */
  lemma RecordSum(t: Table, key: string, succeeded: bool)
    requires Valid(t)
    ensures Sum(Record(t, key, succeeded).keys, Record(t, key, succeeded).counts) == Sum(t.keys, t.counts) + 1
  {
    var r := Record(t, key, succeeded);
    if key in t.counts {
      assert r.keys == t.keys;
      SumBump(t.keys, t.counts, r.counts, key);
    } else {
      SumAppend(t.keys, t.counts, key, Tally(0, 0).Add(succeeded));
    }
  }

  /** A new key with a one-sample tally adds one to the sum. */
  lemma SumAppend(keys: seq<string>, counts: map<string, Tally>, key: string, tally: Tally)
    requires forall k :: k in keys ==> k in counts
    requires key !in keys && tally.Total() == 1
    ensures Sum(keys + [key], counts[key := tally]) == Sum(keys, counts) + 1
  {
    var m := counts[key := tally];
    assert (keys + [key])[..|keys|] == keys;
    SumAgree(keys, counts, m);
  }

  /** A complete result row: its test label, its JMeter thread name, its
      success field. */
  datatype Row = Row(testLabel: string, threadName: string, success: string)

  /** Only the exact text "true" is a success. */
  predicate Succeeded(row: Row)
  {
    row.success == "true"
  }

  const ThreadPrefix: string := "Users 1-"

  /** The `num` group of `Users 1-(\d+){1,2}` matched at the start of the
      name: the whole digit run after the prefix (a second repetition would
      need a digit the first one left). */
  function ThreadNumber(name: string): (r: Option<string>)
    ensures r.Some? ==> |r.value| >= 1 && AllDigits(r.value)
    ensures r.Some? ==> ThreadPrefix + r.value <= name
  {
    if ThreadPrefix <= name then
      var rest := name[|ThreadPrefix|..];
      var n := DigitSpan(rest);
      if n >= 1 then
        assert name[..|ThreadPrefix| + n] == ThreadPrefix + rest[..n];
        Some(rest[..n])
      else
        None
    else
      None
  }

  /** CPython indexes a list with a C `Py_ssize_t`: 64 bits, signed. */
  predicate FitsIndex(i: int)
  {
    -0x8000_0000_0000_0000 <= i < 0x8000_0000_0000_0000
  }

  /** `devices[i]` with Python's negative indexing. An index too wide for
      `Py_ssize_t` is refused before the range is looked at. */
  function PyIndex<T>(s: seq<T>, i: int): (r: Raises<T>)
    ensures r.Ok? <==> FitsIndex(i) && -|s| <= i < |s|
    ensures r.Ok? ==> r.value == s[if i < 0 then |s| + i else i]
    ensures r.Raise? && FitsIndex(i) ==> r.error == "list index out of range"
    ensures !FitsIndex(i) ==> r == Raise("cannot fit 'int' into an index-sized integer")
  {
    if !FitsIndex(i) then Raise("cannot fit 'int' into an index-sized integer")
    else if 0 <= i < |s| then Ok(s[i])
    else if -|s| <= i < 0 then Ok(s[|s| + i])
    else Raise("list index out of range")
  }

  /** `get_ifname_from_threadname`: thread `n` of the first thread group
      ran on the `n`-th interface. */
  function IfnameFromThreadName(name: string, ifnames: seq<string>): (r: Raises<string>)
    ensures ThreadNumber(name).None? ==> r == Raise("Inrecognized thread name: " + name)
    ensures r.Ok? ==> r.value in ifnames
  {
    match ThreadNumber(name)
    case None => Raise("Inrecognized thread name: " + name)
    case Some(num) =>
      ParseIntAccepts(num);
      PyIndex(ifnames, ParseInt(num).value - 1)
  }

  /** Thread `n` (written in decimal, any text after it not starting with a
      digit) maps to interface `n`, counting from one; past the last
      interface the lookup raises, and a number too wide for a C index
      raises before the range is looked at. */
  lemma ThreadNameOfUser(ifnames: seq<string>, n: nat, rest: string)
    requires rest == "" || !IsDigit(rest[0])
    ensures 1 <= n <= |ifnames| && n <= 0x8000_0000_0000_0000 ==>
      IfnameFromThreadName(ThreadPrefix + FormatNat(n) + rest, ifnames) == Ok(ifnames[n - 1])
    ensures |ifnames| < n <= 0x8000_0000_0000_0000 ==>
      IfnameFromThreadName(ThreadPrefix + FormatNat(n) + rest, ifnames) == Raise("list index out of range")
    ensures n > 0x8000_0000_0000_0000 ==>
      IfnameFromThreadName(ThreadPrefix + FormatNat(n) + rest, ifnames)
      == Raise("cannot fit 'int' into an index-sized integer")
  {
    ThreadNumberOfUser(n, rest);
    ParseIntOfNat(n);
  }

  /** The thread number read from a user thread's name is its number. */
  lemma ThreadNumberOfUser(n: nat, rest: string)
    requires rest == "" || !IsDigit(rest[0])
    ensures ThreadNumber(ThreadPrefix + FormatNat(n) + rest) == Some(FormatNat(n))
  {
    var name := ThreadPrefix + FormatNat(n) + rest;
    assert name[..|ThreadPrefix|] == ThreadPrefix;
    assert name[|ThreadPrefix|..] == FormatNat(n) + rest;
    DigitSpanOfDigits(FormatNat(n), rest);
    assert (FormatNat(n) + rest)[..|FormatNat(n)|] == FormatNat(n);
  }

  /** `int(str(n))` for a natural number. */
  lemma ParseIntOfNat(n: nat)
    ensures ParseInt(FormatNat(n)) == Ok(n)
  {
    FormatIntParseInt(FormatNat(n));
    assert FormatInt(n) == FormatNat(n);
    ParseIntFormatInt(n);
  }

  /** Thread number 0 wraps around to the last interface. */
  lemma ThreadZeroIsLast(ifnames: seq<string>)
    requires |ifnames| >= 1
    ensures IfnameFromThreadName("Users 1-0", ifnames) == Ok(ifnames[|ifnames| - 1])
  {
    var name := "Users 1-0";
    assert name[..|ThreadPrefix|] == ThreadPrefix;
    assert name[|ThreadPrefix|..] == "0";
    assert "0"[..1] == "0";
    assert DigitSpan("0") == 1;
    assert ThreadNumber(name) == Some("0");
    assert ParseInt("0") == Ok(0);
  }

  /** Rows with this test label and this outcome. */
  function CountLabel(rows: seq<Row>, testLabel: string, succeeded: bool): nat
  {
    if |rows| == 0 then 0
    else
      var row := rows[|rows| - 1];
      CountLabel(rows[..|rows| - 1], testLabel, succeeded)
        + (if row.testLabel == testLabel && Succeeded(row) == succeeded then 1 else 0)
  }

  /** Rows attributed to this interface with this outcome. */
  function CountIfname(rows: seq<Row>, ifnames: seq<string>, ifname: string, succeeded: bool): nat
  {
    if |rows| == 0 then 0
    else
      var row := rows[|rows| - 1];
      CountIfname(rows[..|rows| - 1], ifnames, ifname, succeeded)
        + (if IfnameFromThreadName(row.threadName, ifnames) == Ok(ifname) && Succeeded(row) == succeeded then 1 else 0)
  }

  /** The tally loop over the result rows: the per-test table and the
      per-interface table. The first row whose thread name cannot be
      attributed raises, and nothing is returned. */
  function TallyRows(rows: seq<Row>, ifnames: seq<string>): (r: Raises<(Table, Table)>)
    ensures r.Ok? ==> Valid(r.value.0) && Valid(r.value.1)
    decreases |rows|
  {
    if |rows| == 0 then
      Ok((Empty, Empty))
    else
      var init := rows[..|rows| - 1];
      var row := rows[|rows| - 1];
      var before := TallyRows(init, ifnames);
      assert forall i :: 0 <= i < |init| ==> init[i] == rows[i];
      if before.Raise? then
        Raise(before.error)
      else
        var ifname := IfnameFromThreadName(row.threadName, ifnames);
        if ifname.Raise? then
          Raise(ifname.error)
        else
          var tests := before.value.0;
          var byIfname := before.value.1;
          Ok((Record(tests, row.testLabel, Succeeded(row)), Record(byIfname, ifname.value, Succeeded(row))))
  }

  /** Every row's thread name maps to an interface. */
  predicate Attributable(rows: seq<Row>, ifnames: seq<string>)
  {
    forall i :: 0 <= i < |rows| ==> IfnameFromThreadName(rows[i].threadName, ifnames).Ok?
  }

  /** The tally succeeds exactly when every row can be attributed. */
  lemma {:induction false} TallySucceedsIffAttributable(rows: seq<Row>, ifnames: seq<string>)
    ensures TallyRows(rows, ifnames).Ok? <==> Attributable(rows, ifnames)
    decreases |rows|
  {
    if |rows| > 0 {
      var init := rows[..|rows| - 1];
      var lastOk := IfnameFromThreadName(rows[|rows| - 1].threadName, ifnames).Ok?;
      TallySucceedsIffAttributable(init, ifnames);
      assert TallyRows(rows, ifnames).Ok? <==> TallyRows(init, ifnames).Ok? && lastOk;
      AttributableSnoc(rows, ifnames);
    }
  }

  lemma AttributableSnoc(rows: seq<Row>, ifnames: seq<string>)
    requires |rows| > 0
    ensures Attributable(rows, ifnames) <==>
      Attributable(rows[..|rows| - 1], ifnames) && IfnameFromThreadName(rows[|rows| - 1].threadName, ifnames).Ok?
  {
    var init := rows[..|rows| - 1];
    assert forall i :: 0 <= i < |init| ==> init[i] == rows[i];
  }

  /** Row `i` is the first one whose thread name cannot be attributed. */
  predicate FirstStray(rows: seq<Row>, ifnames: seq<string>, i: nat)
  {
    && i < |rows|
    && Attributable(rows[..i], ifnames)
    && IfnameFromThreadName(rows[i].threadName, ifnames).Raise?
  }

  /** A failed tally raises the error of the first row that cannot be
      attributed. */
  lemma {:induction false} TallyRaisesAtFirstStray(rows: seq<Row>, ifnames: seq<string>)
    requires TallyRows(rows, ifnames).Raise?
    ensures exists i: nat :: (FirstStray(rows, ifnames, i)
      && TallyRows(rows, ifnames) == Raise(IfnameFromThreadName(rows[i].threadName, ifnames).error))
    decreases |rows|
  {
    var init := rows[..|rows| - 1];
    var last := |rows| - 1;
    if TallyRows(init, ifnames).Raise? {
      TallyRaisesAtFirstStray(init, ifnames);
      var i: nat :| FirstStray(init, ifnames, i)
        && TallyRows(init, ifnames) == Raise(IfnameFromThreadName(init[i].threadName, ifnames).error);
      StrayInPrefix(rows, ifnames, i);
    } else {
      TallySucceedsIffAttributable(init, ifnames);
      assert rows[..last] == init;
      assert FirstStray(rows, ifnames, last);
    }
  }

  /** The first stray row of the rows but the last is the first stray row
      of them all. */
  lemma StrayInPrefix(rows: seq<Row>, ifnames: seq<string>, i: nat)
    requires |rows| > 0 && FirstStray(rows[..|rows| - 1], ifnames, i)
    ensures FirstStray(rows, ifnames, i)
  {
    var init := rows[..|rows| - 1];
    assert init[..i] == rows[..i] && init[i] == rows[i];
  }

  /** Under each test label, the table holds exactly the successes and
      failures of the rows with that label. */
  lemma {:induction false} TallyLabelCounts(rows: seq<Row>, ifnames: seq<string>, testLabel: string)
    requires TallyRows(rows, ifnames).Ok?
    ensures Get(TallyRows(rows, ifnames).value.0, testLabel)
         == Tally(CountLabel(rows, testLabel, true), CountLabel(rows, testLabel, false))
    decreases |rows|
  {
    if |rows| > 0 {
      var init := rows[..|rows| - 1];
      TallyLabelCounts(init, ifnames, testLabel);
    }
  }

  /** Under each interface, the table holds exactly the successes and
      failures of the rows attributed to it. */
  lemma {:induction false} TallyIfnameCounts(rows: seq<Row>, ifnames: seq<string>, ifname: string)
    requires TallyRows(rows, ifnames).Ok?
    ensures Get(TallyRows(rows, ifnames).value.1, ifname)
         == Tally(CountIfname(rows, ifnames, ifname, true), CountIfname(rows, ifnames, ifname, false))
    decreases |rows|
  {
    if |rows| > 0 {
      var init := rows[..|rows| - 1];
      TallyIfnameCounts(init, ifnames, ifname);
    }
  }

  /** Every row is counted exactly once in each table: both tables' totals
      add up to the number of rows. */
  lemma {:induction false} TallyTotals(rows: seq<Row>, ifnames: seq<string>)
    requires TallyRows(rows, ifnames).Ok?
    ensures var r := TallyRows(rows, ifnames).value;
      Sum(r.0.keys, r.0.counts) == |rows| && Sum(r.1.keys, r.1.counts) == |rows|
    decreases |rows|
  {
    if |rows| > 0 {
      var init := rows[..|rows| - 1];
      var row := rows[|rows| - 1];
      TallyTotals(init, ifnames);
      var before := TallyRows(init, ifnames).value;
      var ifname := IfnameFromThreadName(row.threadName, ifnames).value;
      RecordSum(before.0, row.testLabel, Succeeded(row));
      RecordSum(before.1, ifname, Succeeded(row));
    }
  }

  /** A test label is listed exactly when some row carries it. */
  lemma LabelListed(rows: seq<Row>, ifnames: seq<string>, testLabel: string)
    requires TallyRows(rows, ifnames).Ok?
    ensures testLabel in TallyRows(rows, ifnames).value.0.keys <==>
      CountLabel(rows, testLabel, true) + CountLabel(rows, testLabel, false) >= 1
  {
    TallyLabelCounts(rows, ifnames, testLabel);
  }
}

=== FILE: strings.dfy ===
/** The handful of Python `str` operations the test bench relies on:
    `join`/`split` on a one-character separator, `strip`, `splitlines()[-1]`,
    `lower`, substring search and `split(c, 1)[0]`. */
module Strings {

  /** Index of the first occurrence of `c` in `s`. */
  function IndexOf(s: string, c: char): (k: nat)
    requires c in s
    ensures k < |s| && s[k] == c
    ensures c !in s[..k]
  {
    if s[0] == c then 0 else 1 + IndexOf(s[1..], c)
  }

  /** `sep.join(parts)` */
  function Join(parts: seq<string>, sep: char): string
  {
    if |parts| == 0 then ""
    else if |parts| == 1 then parts[0]
    else parts[0] + [sep] + Join(parts[1..], sep)
  }

  /** `s.split(sep)`: the maximal separator-free pieces, empty pieces kept. */
  function Split(s: string, sep: char): (parts: seq<string>)
    ensures |parts| >= 1
    ensures forall i :: 0 <= i < |parts| ==> sep !in parts[i]
    ensures sep !in s ==> parts == [s]
    decreases |s|
  {
    if sep in s then
      var k := IndexOf(s, sep);
      [s[..k]] + Split(s[k + 1..], sep)
    else
      [s]
  }

  /** Splitting what was joined gives the pieces back, provided no piece
      contains the separator. */
  lemma {:induction false} SplitJoin(parts: seq<string>, sep: char)
    requires |parts| >= 1
    requires forall i :: 0 <= i < |parts| ==> sep !in parts[i]
    ensures Split(Join(parts, sep), sep) == parts
    decreases |parts|
  {
    if |parts| == 1 {
      assert Join(parts, sep) == parts[0];
    } else {
      SplitAfterFree(parts[0], sep, Join(parts[1..], sep));
      SplitJoin(parts[1..], sep);
      assert parts == [parts[0]] + parts[1..];
    }
  }

  /** A separator-free piece followed by the separator splits off first. */
  lemma SplitAfterFree(a: string, sep: char, b: string)
    requires sep !in a
    ensures Split(a + [sep] + b, sep) == [a] + Split(b, sep)
  {
    SplitAround(a, sep, b);
  }

  /** Joining what was split gives the string back. */
  lemma {:induction false} JoinSplit(s: string, sep: char)
    ensures Join(Split(s, sep), sep) == s
    decreases |s|
  {
    if sep in s {
      var k := IndexOf(s, sep);
      var tail := Split(s[k + 1..], sep);
      JoinSplit(s[k + 1..], sep);
      assert Split(s, sep) == [s[..k]] + tail;
      assert Join([s[..k]] + tail, sep) == s[..k] + [sep] + Join(tail, sep) by {
        assert ([s[..k]] + tail)[1..] == tail;
      }
      assert s == s[..k] + [sep] + s[k + 1..];
    }
  }

  /** The first separator of `a + [sep] + b` is the one after `a`. */
  lemma {:induction false} IndexOfAfterFree(a: string, sep: char, b: string)
    requires sep !in a
    ensures sep in a + [sep] + b
    ensures IndexOf(a + [sep] + b, sep) == |a|
    decreases |a|
  {
    var s := a + [sep] + b;
    assert s[|a|] == sep;
    if |a| > 0 {
      assert s[1..] == a[1..] + [sep] + b;
      IndexOfAfterFree(a[1..], sep, b);
    }
  }

  /** The first separator of `a + b` lies in `a` when `a` has one. */
  lemma {:induction false} IndexOfPrefix(a: string, b: string, c: char)
    requires c in a
    ensures IndexOf(a + b, c) == IndexOf(a, c)
    decreases |a|
  {
    if a[0] != c {
      assert (a + b)[1..] == a[1..] + b;
      IndexOfPrefix(a[1..], b, c);
    }
  }

  /** Splitting at a separator placed between `a` and `b` splits each side on
      its own. */
  lemma {:induction false} SplitAround(a: string, sep: char, b: string)
    ensures Split(a + [sep] + b, sep) == Split(a, sep) + Split(b, sep)
    decreases |a|
  {
    var s := a + [sep] + b;
    if sep in a {
      var k := IndexOf(a, sep);
      IndexOfPrefix(a, [sep] + b, sep);
      assert s == a + ([sep] + b);
      assert s[..k] == a[..k];
      assert s[k + 1..] == a[k + 1..] + [sep] + b;
      SplitAround(a[k + 1..], sep, b);
    } else {
      IndexOfAfterFree(a, sep, b);
      assert s[..|a|] == a;
      assert s[|a| + 1..] == b;
    }
  }

  /** `s.split(sep, 1)[0]`: everything before the first separator. */
  function BeforeFirst(s: string, sep: char): (r: string)
    ensures r <= s && sep !in r
    ensures sep in s ==> |r| < |s| && s[|r|] == sep
    ensures sep !in s ==> r == s
  {
    if sep in s then s[..IndexOf(s, sep)] else s
  }

  /** `BeforeFirst` is the first piece `split` produces. */
  lemma BeforeFirstIsFirstPiece(s: string, sep: char)
    ensures BeforeFirst(s, sep) == Split(s, sep)[0]
  {
  }

  /** Python's `str.isspace()` for one character. */
  predicate IsSpace(c: char)
  {
    || c == ' ' || c == '\t' || c == '\n' || c == '\r'
    || c == '\U{B}' || c == '\U{C}'
    || ('\U{1C}' <= c <= '\U{1F}')
    || c == '\U{85}' || c == '\U{A0}' || c == '\U{1680}'
    || ('\U{2000}' <= c <= '\U{200A}')
    || c == '\U{2028}' || c == '\U{2029}' || c == '\U{202F}'
    || c == '\U{205F}' || c == '\U{3000}'
  }

  /** The line boundaries of Python's `str.splitlines()`. */
  predicate IsLineBreak(c: char)
  {
    || c == '\n' || c == '\r' || c == '\U{B}' || c == '\U{C}'
    || ('\U{1C}' <= c <= '\U{1E}')
    || c == '\U{85}' || c == '\U{2028}' || c == '\U{2029}'
  }

  /** Every line boundary is whitespace, so `strip()` removes trailing ones. */
  lemma LineBreakIsSpace(c: char)
    ensures IsLineBreak(c) ==> IsSpace(c)
  {
  }

  predicate AllSpace(s: string)
  {
    forall i :: 0 <= i < |s| ==> IsSpace(s[i])
  }

  function StripLeft(s: string): (r: string)
    ensures |r| <= |s| && r == s[|s| - |r|..]
    ensures AllSpace(s[..|s| - |r|])
    ensures |r| > 0 ==> !IsSpace(r[0])
  {
    if |s| > 0 && IsSpace(s[0]) then StripLeft(s[1..]) else s
  }

  function StripRight(s: string): (r: string)
    ensures |r| <= |s| && r == s[..|r|]
    ensures AllSpace(s[|r|..])
    ensures |r| > 0 ==> !IsSpace(r[|r| - 1])
  {
    if |s| > 0 && IsSpace(s[|s| - 1]) then StripRight(s[..|s| - 1]) else s
  }

  /** `r` sits at `i` in `s` with only whitespace before and after it. */
  predicate Trimmed(r: string, s: string, i: nat)
  {
    OccursAt(r, s, i) && AllSpace(s[..i]) && AllSpace(s[i + |r|..])
  }

  /** Whitespace followed by whitespace is whitespace. */
  lemma AllSpaceConcat(a: string, b: string)
    requires AllSpace(a) && AllSpace(b)
    ensures AllSpace(a + b)
  {
    forall i | 0 <= i < |a + b| ensures IsSpace((a + b)[i]) {
      if i >= |a| {
        assert (a + b)[i] == b[i - |a|];
      }
    }
  }

  /** Stripping the left, then the right, leaves the middle of `s`. */
  lemma StripBothSides(s: string)
    ensures Trimmed(StripRight(StripLeft(s)), s, |s| - |StripLeft(s)|)
  {
    var l := StripLeft(s);
    var r := StripRight(l);
    var k := |s| - |l|;
    assert AllSpace(s[..k]);
    assert r == s[k..k + |r|];
    assert OccursAt(r, s, k);
    assert s[k + |r|..] == l[|r|..];
    assert AllSpace(s[k + |r|..]);
  }

  /** Nothing is left exactly when `s` is all whitespace. */
  lemma StripBothSidesEmpty(s: string)
    ensures StripRight(StripLeft(s)) == "" <==> AllSpace(s)
  {
    var l := StripLeft(s);
    var r := StripRight(l);
    var k := |s| - |l|;
    if r == "" {
      assert AllSpace(l[|r|..]);
      assert l[|r|..] == l;
      assert s == s[..k] + l;
      AllSpaceConcat(s[..k], l);
    } else {
      assert r[0] == l[0] == s[k];
    }
  }

  /** `s.strip()`: `s` without its leading and trailing whitespace. */
  function Strip(s: string): (r: string)
    ensures |r| > 0 ==> !IsSpace(r[0]) && !IsSpace(r[|r| - 1])
    ensures exists i: nat :: Trimmed(r, s, i)
    ensures r == "" <==> AllSpace(s)
  {
    StripBothSides(s);
    StripBothSidesEmpty(s);
    StripRight(StripLeft(s))
  }

  /** Stripping twice is stripping once. */
  lemma StripIdempotent(s: string)
    ensures Strip(Strip(s)) == Strip(s)
  {
    var t := Strip(s);
    if |t| > 0 {
      assert StripLeft(t) == t;
      assert StripRight(t) == t;
    }
  }

  /** `s.splitlines()[-1]` for a non-empty `s` that does not end with a line
      boundary: the text after the last line boundary. */
  function LastLine(s: string): (r: string)
    ensures |r| <= |s| && r == s[|s| - |r|..]
    ensures forall i :: 0 <= i < |r| ==> !IsLineBreak(r[i])
    ensures |r| < |s| ==> IsLineBreak(s[|s| - |r| - 1])
  {
    if |s| == 0 || IsLineBreak(s[|s| - 1]) then ""
    else
      var init := s[..|s| - 1];
      var r' := LastLine(init);
      assert s[|s| - |r'| - 1..] == init[|init| - |r'|..] + [s[|s| - 1]];
      r' + [s[|s| - 1]]
  }

  /** ASCII `c.lower()` */
  function LowerChar(c: char): char
  {
    if 'A' <= c <= 'Z' then (c as int + 32) as char else c
  }

  /** `s.lower()`, on ASCII letters. */
  function Lower(s: string): (r: string)
    ensures |r| == |s|
    ensures forall i :: 0 <= i < |s| ==> r[i] == LowerChar(s[i])
  {
    if |s| == 0 then "" else [LowerChar(s[0])] + Lower(s[1..])
  }

  /** Lower-casing is idempotent: `s.lower().lower() == s.lower()`. */
  lemma LowerIdempotent(s: string)
    ensures Lower(Lower(s)) == Lower(s)
  {
  }

  /** `a` is a suffix of `b`. */
  predicate IsSuffix(a: string, b: string)
  {
    |a| <= |b| && a == b[|b| - |a|..]
  }

  /** `needle` occurs in `hay` starting at index `i`. */
  predicate OccursAt(needle: string, hay: string, i: nat)
  {
    i + |needle| <= |hay| && hay[i..i + |needle|] == needle
  }

  /** Python's `needle in hay`, found by scanning `hay` from the left. */
  function Contains(hay: string, needle: string): (b: bool)
    ensures b <==> exists i: nat :: OccursAt(needle, hay, i)
    decreases |hay|
  {
    if needle <= hay then
      assert OccursAt(needle, hay, 0);
      true
    else if |hay| == 0 then
      false
    else
      var b := Contains(hay[1..], needle);
      if b then
        var i: nat :| OccursAt(needle, hay[1..], i);
        assert hay[1..][i..i + |needle|] == hay[i + 1..i + 1 + |needle|];
        assert OccursAt(needle, hay, i + 1);
        true
      else
        assert forall i: nat :: !OccursAt(needle, hay, i) by {
          forall i: nat | OccursAt(needle, hay, i) ensures false {
            if i > 0 {
              assert hay[1..][i - 1..i - 1 + |needle|] == hay[i..i + |needle|];
              assert OccursAt(needle, hay[1..], i - 1);
            }
          }
        }
        false
  }
}

=== FILE: wlan.dfy ===
/** Wireless devices as NetworkManager reports them: building a device from an
    `nmcli device show` field map, the natural-order name key, the exclusion
    filter and device selection, and the `nmcli` / `ping` command lines with
    the way their output is read back. */
module Wlan {
  import opened Outcomes
  import opened Strings
  import opened Decimal
  import opened IPv4

  /** The field map `nmcli device show` yields; `None` is a field without a
      value. */
  type Payload = map<string, Option<string>>

  /** `payload.get(key)` */
  function Field(p: Payload, key: string): Option<string>
  {
    if key in p then p[key] else None
  }

  /** `if payload.get(key):` — the field is present and non-empty. */
  predicate Truthy(p: Payload, key: string)
  {
    Field(p, key).Some? && Field(p, key).value != ""
  }

  /** Python's `str(x)` for an optional string: `None` prints as "None". */
  function Str(v: Option<string>): string
  {
    match v
    case Some(s) => s
    case None => "None"
  }

  datatype IP4Link = IP4Link(address: Address, gateway: Option<Address>, dns: Option<Address>)

  datatype WirelessDevice = WirelessDevice(
    ifname: string,
    hwaddr: string,
    mtu: int,
    state: string,
    connection: Option<string>,
    conpath: Option<string>,
    ip4: Option<IP4Link>,
    vendor: string)

  /** `IPv4Address(text.split("/", 1)[0])`: the address before the prefix. */
  function AddressField(text: string): Raises<Address>
  {
    Parse(BeforeFirst(text, '/'))
  }

  /** An optional address field: `None` when absent or empty, else parsed. */
  function OptionalAddress(p: Payload, key: string): (r: Raises<Option<Address>>)
    ensures r.Raise? <==> Truthy(p, key) && AddressField(Str(Field(p, key))).Raise?
    ensures r.Raise? ==> r.error == AddressField(Str(Field(p, key))).error
    ensures r.Ok? ==> (r.value.None? <==> !Truthy(p, key))
    ensures r.Ok? && r.value.Some? ==> Format(r.value.value) == BeforeFirst(Str(Field(p, key)), '/')
  {
    if Truthy(p, key) then
      var a :- AddressField(Str(Field(p, key)));
      IPv4.FormatParse(BeforeFirst(Str(Field(p, key)), '/'));
      Ok(Some(a))
    else
      Ok(None)
  }

  /** `IP4Link.from_nmshow`: address, gateway and DNS server, each taken
      before any `/`; an unparsable address raises. */
  function LinkFromNmshow(p: Payload): (r: Raises<IP4Link>)
    ensures r.Ok? <==> AddressField(Str(Field(p, "IP4.ADDRESS[1]"))).Ok?
                       && OptionalAddress(p, "IP4.GATEWAY").Ok?
                       && OptionalAddress(p, "IP4.DNS[1]").Ok?
    ensures r.Ok? ==> Format(r.value.address) == BeforeFirst(Str(Field(p, "IP4.ADDRESS[1]")), '/')
    ensures r.Ok? ==> (r.value.gateway.None? <==> !Truthy(p, "IP4.GATEWAY"))
    ensures r.Ok? && r.value.gateway.Some? ==>
      Format(r.value.gateway.value) == BeforeFirst(Str(Field(p, "IP4.GATEWAY")), '/')
    ensures r.Ok? ==> (r.value.dns.None? <==> !Truthy(p, "IP4.DNS[1]"))
    ensures r.Ok? && r.value.dns.Some? ==>
      Format(r.value.dns.value) == BeforeFirst(Str(Field(p, "IP4.DNS[1]")), '/')
  {
    var address :- AddressField(Str(Field(p, "IP4.ADDRESS[1]")));
    var gateway :- OptionalAddress(p, "IP4.GATEWAY");
    var dns :- OptionalAddress(p, "IP4.DNS[1]");
    IPv4.FormatParse(BeforeFirst(Str(Field(p, "IP4.ADDRESS[1]")), '/'));
    Ok(IP4Link(address, gateway, dns))
  }

  /** An address written the way `nmcli` writes it (`<address>/<prefix>`),
      with no gateway or DNS field, reads back as that address alone. */
  lemma LinkFromNmshowRoundTrip(address: Address, prefix: Prefix)
    ensures LinkFromNmshow(map["IP4.ADDRESS[1]" := Some(Format(address) + "/" + FormatNat(prefix))])
         == Ok(IP4Link(address, None, None))
  {
    var p := map["IP4.ADDRESS[1]" := Some(Format(address) + "/" + FormatNat(prefix))];
    assert Str(Field(p, "IP4.ADDRESS[1]")) == Format(address) + "/" + FormatNat(prefix);
    AddressFieldOfCidr(address, prefix);
    RoundTripPayloadFields(address, prefix);
    LinkOfAddressOnly(p, address);
  }

  /** The fields `nmcli device show` writes for a link: the address with
      its prefix, and the gateway and DNS server only when there is one. */
  function LinkPayload(l: IP4Link, prefix: Prefix): Payload
  {
    var p := map["IP4.ADDRESS[1]" := Some(Format(l.address) + "/" + FormatNat(prefix))];
    var p := if l.gateway.Some? then p["IP4.GATEWAY" := Some(Format(l.gateway.value))] else p;
    if l.dns.Some? then p["IP4.DNS[1]" := Some(Format(l.dns.value))] else p
  }

  /** Any link written out as `nmcli` writes it reads back as that link:
      gateway and DNS server included, and absent exactly when absent. */
  lemma LinkPayloadRoundTrip(l: IP4Link, prefix: Prefix)
    ensures LinkFromNmshow(LinkPayload(l, prefix)) == Ok(l)
  {
    var p := LinkPayload(l, prefix);
    LinkPayloadFields(l, prefix);
    AddressFieldOfCidr(l.address, prefix);
    if l.gateway.Some? {
      AddressFieldOfFormat(l.gateway.value);
    }
    if l.dns.Some? {
      AddressFieldOfFormat(l.dns.value);
    }
  }

  /** Each field of a link's payload, read back. */
  lemma LinkPayloadFields(l: IP4Link, prefix: Prefix)
    ensures var p := LinkPayload(l, prefix);
      && Field(p, "IP4.ADDRESS[1]") == Some(Format(l.address) + "/" + FormatNat(prefix))
      && Field(p, "IP4.GATEWAY") == (if l.gateway.Some? then Some(Format(l.gateway.value)) else None)
      && Field(p, "IP4.DNS[1]") == (if l.dns.Some? then Some(Format(l.dns.value)) else None)
  {
    assert |"IP4.GATEWAY"| == 11 && |"IP4.ADDRESS[1]"| == 14 && |"IP4.DNS[1]"| == 10;
  }

  /** An address written alone reads back as itself. */
  lemma AddressFieldOfFormat(x: Address)
    ensures Format(x) != "" && AddressField(Format(x)) == Ok(x)
  {
    FormatAlphabet(x);
    assert '/' !in Format(x);
    IPv4.ParseFormat(x);
  }

  /** A payload whose address field reads as `address` and that has no
      gateway or DNS field gives the link of that address alone. */
  lemma LinkOfAddressOnly(p: Payload, address: Address)
    requires AddressField(Str(Field(p, "IP4.ADDRESS[1]"))) == Ok(address)
    requires "IP4.GATEWAY" !in p && "IP4.DNS[1]" !in p
    ensures LinkFromNmshow(p) == Ok(IP4Link(address, None, None))
  {
  }

  /** The round trip's payload has no gateway or DNS field. */
  lemma RoundTripPayloadFields(address: Address, prefix: Prefix)
    ensures var p := map["IP4.ADDRESS[1]" := Some(Format(address) + "/" + FormatNat(prefix))];
      "IP4.GATEWAY" !in p && "IP4.DNS[1]" !in p
  {
    assert |"IP4.GATEWAY"| != |"IP4.ADDRESS[1]"|;
    assert |"IP4.DNS[1]"| != |"IP4.ADDRESS[1]"|;
  }

  /** The address field of `<address>/<prefix>` text is the address. */
  lemma AddressFieldOfCidr(address: Address, prefix: Prefix)
    ensures AddressField(Format(address) + "/" + FormatNat(prefix)) == Ok(address)
  {
    FormatAlphabet(address);
    assert '/' !in Format(address);
    IndexOfAfterFree(Format(address), '/', FormatNat(prefix));
    assert BeforeFirst(Format(address) + "/" + FormatNat(prefix), '/') == Format(address);
    IPv4.ParseFormat(address);
  }

  /** `WirelessDevice.from_nmshow`: the fields in declaration order; the MTU
      and the addresses may fail to parse. */
  function DeviceFromNmshow(p: Payload): (r: Raises<WirelessDevice>)
    ensures r.Ok? <==> ParseInt(Str(Field(p, "GENERAL.MTU"))).Ok?
                       && (Truthy(p, "IP4.ADDRESS[1]") ==> LinkFromNmshow(p).Ok?)
    ensures r.Ok? ==> r.value.ifname == Str(Field(p, "GENERAL.DEVICE"))
    ensures r.Ok? ==> r.value.hwaddr == Lower(Str(Field(p, "GENERAL.HWADDR")))
    ensures r.Ok? ==> ParseInt(Str(Field(p, "GENERAL.MTU"))) == Ok(r.value.mtu)
    ensures r.Ok? ==> (r.value.ip4.Some? <==> Truthy(p, "IP4.ADDRESS[1]"))
    ensures r.Ok? && Truthy(p, "IP4.ADDRESS[1]") ==> LinkFromNmshow(p) == Ok(r.value.ip4.value)
    ensures r.Ok? ==> (r.value.conpath.Some? <==> Truthy(p, "GENERAL.CON-PATH"))
    ensures r.Ok? ==> r.value.state == Str(Field(p, "GENERAL.STATE"))
    ensures r.Ok? ==> r.value.connection == Field(p, "GENERAL.CONNECTION")
    ensures r.Ok? && r.value.conpath.Some? ==> r.value.conpath.value == Str(Field(p, "GENERAL.CON-PATH"))
    ensures r.Ok? && Truthy(p, "GENERAL.VENDOR") ==> r.value.vendor == Str(Field(p, "GENERAL.VENDOR"))
    ensures r.Ok? && !Truthy(p, "GENERAL.VENDOR") ==> r.value.vendor == ""
  {
    var mtu :- ParseInt(Str(Field(p, "GENERAL.MTU")));
    var ip4 :- if Truthy(p, "IP4.ADDRESS[1]") then
                 var link :- LinkFromNmshow(p);
                 Ok(Some(link))
               else
                 Ok(None);
    Ok(WirelessDevice(
      ifname := Str(Field(p, "GENERAL.DEVICE")),
      hwaddr := Lower(Str(Field(p, "GENERAL.HWADDR"))),
      mtu := mtu,
      state := Str(Field(p, "GENERAL.STATE")),
      connection := Field(p, "GENERAL.CONNECTION"),
      conpath := if Truthy(p, "GENERAL.CON-PATH") then Field(p, "GENERAL.CON-PATH") else None,
      ip4 := ip4,
      vendor := Field(p, "GENERAL.VENDOR").GetOr("")))
  }

  /** `WirelessDevice.refresh` as the checks see it: `nmcli device show`
      runs again (`show` is its outcome), then the MTU and the IPv4 link are
      read in the order `from_nmshow` reads them; the result is the new
      `ip4`. */
  function Refresh(show: Raises<Payload>): (r: Raises<Option<IP4Link>>)
    ensures show.Raise? ==> r == Raise(show.error)
    ensures show.Ok? ==> (r.Ok? <==> ParseInt(Str(Field(show.value, "GENERAL.MTU"))).Ok?
                                      && (Truthy(show.value, "IP4.ADDRESS[1]") ==> LinkFromNmshow(show.value).Ok?))
    ensures show.Ok? && ParseInt(Str(Field(show.value, "GENERAL.MTU"))).Raise? ==>
      r == Raise(ParseInt(Str(Field(show.value, "GENERAL.MTU"))).error)
    ensures r.Ok? ==> (r.value.Some? <==> Truthy(show.value, "IP4.ADDRESS[1]"))
    ensures r.Ok? && r.value.Some? ==> LinkFromNmshow(show.value) == Ok(r.value.value)
  {
    var p :- show;
    var _ :- ParseInt(Str(Field(p, "GENERAL.MTU")));
    if Truthy(p, "IP4.ADDRESS[1]") then
      var link :- LinkFromNmshow(p);
      Ok(Some(link))
    else
      Ok(None)
  }

  /** Refreshing from a payload reads the link that building the device from
      it reads, and fails exactly when and as that does. */
  lemma RefreshAsFromNmshow(p: Payload)
    ensures Refresh(Ok(p)).Ok? <==> DeviceFromNmshow(p).Ok?
    ensures DeviceFromNmshow(p).Ok? ==> Refresh(Ok(p)).value == DeviceFromNmshow(p).value.ip4
    ensures DeviceFromNmshow(p).Raise? ==> Refresh(Ok(p)).error == DeviceFromNmshow(p).error
  {
  }

  /** The `ip4link` property: the IPv4 link, or an error when there is none. */
  function Ip4Link(d: WirelessDevice): (r: Raises<IP4Link>)
    ensures r.Ok? <==> d.ip4.Some?
    ensures r.Ok? ==> r.value == d.ip4.value
    ensures r.Raise? ==> r.error == "No IPv4 Link"
  {
    if d.ip4.None? then Raise("No IPv4 Link") else Ok(d.ip4.value)
  }

  // ---------------------------------------------------------------------
  // Natural-order name key

  /** Length of the maximal prefix of `s` whose characters are all digits
      (`digits`) or all non-digits (`!digits`). */
  function RunLength(s: string, digits: bool): (k: nat)
    ensures k <= |s|
    ensures forall i :: 0 <= i < k ==> IsDigit(s[i]) == digits
    ensures k < |s| ==> IsDigit(s[k]) != digits
  {
    if |s| > 0 && IsDigit(s[0]) == digits then 1 + RunLength(s[1..], digits) else 0
  }

  /** A non-empty run whose characters are all of one class. */
  predicate Uniform(run: string)
  {
    |run| > 0 && forall i :: 0 <= i < |run| ==> IsDigit(run[i]) == IsDigit(run[0])
  }

  /** The run is made of digits (judged by its first character). */
  predicate DigitRun(run: string)
  {
    |run| > 0 && IsDigit(run[0])
  }

  function Concat(parts: seq<string>): string
  {
    if |parts| == 0 then "" else parts[0] + Concat(parts[1..])
  }

  /** `re.findall(r"(\d+)|(\D+)", s)`: the maximal runs of digits and of
      non-digits, left to right. The runs put back together give `s`, and
      neighbouring runs are of different classes (so each is maximal). */
  function Runs(s: string): (runs: seq<string>)
    ensures Concat(runs) == s
    ensures forall i :: 0 <= i < |runs| ==> Uniform(runs[i])
    ensures forall i :: 0 < i < |runs| ==> DigitRun(runs[i]) != DigitRun(runs[i - 1])
    ensures |s| > 0 ==> |runs| > 0 && DigitRun(runs[0]) == IsDigit(s[0])
    decreases |s|
  {
    if |s| == 0 then
      []
    else
      var k := RunLength(s, IsDigit(s[0]));
      var rest := Runs(s[k..]);
      RunsCons(s, k, rest);
      [s[..k]] + rest
  }

  /** A maximal first run put before the runs of the remainder gives the
      runs of the whole. */
  lemma RunsCons(s: string, k: nat, rest: seq<string>)
    requires 0 < k <= |s|
    requires forall i :: 0 <= i < k ==> IsDigit(s[i]) == IsDigit(s[0])
    requires k < |s| ==> IsDigit(s[k]) != IsDigit(s[0])
    requires Concat(rest) == s[k..]
    requires forall i :: 0 <= i < |rest| ==> Uniform(rest[i])
    requires forall i :: 0 < i < |rest| ==> DigitRun(rest[i]) != DigitRun(rest[i - 1])
    requires |s[k..]| > 0 ==> |rest| > 0 && DigitRun(rest[0]) == IsDigit(s[k..][0])
    ensures var runs := [s[..k]] + rest;
      && Concat(runs) == s
      && (forall i :: 0 <= i < |runs| ==> Uniform(runs[i]))
      && (forall i :: 0 < i < |runs| ==> DigitRun(runs[i]) != DigitRun(runs[i - 1]))
      && DigitRun(runs[0]) == IsDigit(s[0])
  {
    var runs := [s[..k]] + rest;
    assert runs[1..] == rest;
    assert s == s[..k] + s[k..];
    assert Uniform(runs[0]);
    forall i | 0 < i < |runs| ensures DigitRun(runs[i]) != DigitRun(runs[i - 1]) {
      assert runs[i] == rest[i - 1];
      if i == 1 {
        assert s[k..][0] == s[k];
      }
    }
  }

  /** One element of the name key: a digit run as its number, any other run
      as itself. */
  datatype KeyPart = Num(n: nat) | Text(t: string)

  /** `wirelessdevice_name_key`: the ifname's runs, digit runs as integers. */
  function NameKey(ifname: string): (key: seq<KeyPart>)
    ensures |key| == |Runs(ifname)|
    ensures forall i :: 0 <= i < |key| ==>
      var run := Runs(ifname)[i];
      if DigitRun(run) then key[i] == Num(Value(run)) else key[i] == Text(run)
  {
    var runs := Runs(ifname);
    seq(|runs|, i requires 0 <= i < |runs| =>
      if DigitRun(runs[i]) then Num(Value(runs[i])) else Text(runs[i]))
  }

  /** Python's `<` on two strings: code-point lexicographic order. */
  predicate TextLess(a: string, b: string)
  {
    if |a| == 0 then |b| > 0
    else if |b| == 0 then false
    else if a[0] != b[0] then a[0] < b[0]
    else TextLess(a[1..], b[1..])
  }

  /** Python's `<` on two name keys (tuples): the first differing position
      decides; an int compared with a str raises `TypeError`; otherwise the
      shorter key is smaller. */
  function KeyLess(a: seq<KeyPart>, b: seq<KeyPart>): Raises<bool>
  {
    if |a| == 0 || |b| == 0 then Ok(|a| < |b|)
    else if a[0] == b[0] then KeyLess(a[1..], b[1..])
    else PartLess(a[0], b[0])
  }

  /** `<` on two key elements: numbers and strings compare among
      themselves; an int against a str raises `TypeError`. */
  function PartLess(x: KeyPart, y: KeyPart): Raises<bool>
  {
    match (x, y)
    case (Num(m), Num(n)) => Ok(m < n)
    case (Text(m), Text(n)) => Ok(TextLess(m, n))
    case (Num(_), Text(_)) => Raise("'<' not supported between instances of 'int' and 'str'")
    case (Text(_), Num(_)) => Raise("'<' not supported between instances of 'str' and 'int'")
  }

  /** List `<` as Python defines it: past the common prefix, the first
      differing elements decide; when one key is a prefix of the other, the
      shorter is smaller. */
  lemma {:induction false} KeyLessAtFirstDifference(a: seq<KeyPart>, b: seq<KeyPart>, i: nat)
    requires i <= |a| && i <= |b| && a[..i] == b[..i]
    requires i < |a| && i < |b| ==> a[i] != b[i]
    ensures KeyLess(a, b) == if i == |a| || i == |b| then Ok(|a| < |b|) else PartLess(a[i], b[i])
    decreases i
  {
    if i > 0 {
      assert a[0] == b[0] by {
        assert a[..i][0] == a[0] && b[..i][0] == b[0];
      }
      assert a[1..][..i - 1] == a[..i][1..] && b[1..][..i - 1] == b[..i][1..];
      KeyLessAtFirstDifference(a[1..], b[1..], i - 1);
    }
  }

  /** No key is smaller than itself, and comparing it never raises. */
  lemma KeyLessIrreflexive(a: seq<KeyPart>)
    ensures KeyLess(a, a) == Ok(false)
  {
    KeyLessAtFirstDifference(a, a, |a|);
  }

  /** Keys whose parts alternate in the same rhythm (text, number, text, …
      or number, text, …) never compare an int with a str. */
  predicate SameShape(a: seq<KeyPart>, b: seq<KeyPart>)
  {
    forall i :: 0 <= i < |a| && i < |b| ==> a[i].Num? == b[i].Num?
  }

  lemma {:induction false} KeyLessTotal(a: seq<KeyPart>, b: seq<KeyPart>)
    requires SameShape(a, b)
    ensures KeyLess(a, b).Ok?
    decreases |a|
  {
    if |a| > 0 && |b| > 0 && a[0] == b[0] {
      assert SameShape(a[1..], b[1..]) by {
        forall i | 0 <= i < |a[1..]| && i < |b[1..]| ensures a[1..][i].Num? == b[1..][i].Num? {
          assert a[1..][i] == a[i + 1] && b[1..][i] == b[i + 1];
        }
      }
      KeyLessTotal(a[1..], b[1..]);
    }
  }

  /** Run classes alternate, so the class of run `i` is fixed by the class of
      the first character and the parity of `i`. */
  lemma {:induction false} RunClassByParity(s: string, i: nat)
    requires i < |Runs(s)|
    ensures DigitRun(Runs(s)[i]) == (IsDigit(s[0]) == (i % 2 == 0))
    decreases i
  {
    if i > 0 {
      RunClassByParity(s, i - 1);
    }
  }

  /** Two ifnames that begin with the same class of character (in practice
      both with a letter, as in `wlan0`) have keys `<` can always compare, so
      sorting by the key cannot raise. */
  lemma NameKeysComparable(x: string, y: string)
    requires |x| > 0 && |y| > 0 && IsDigit(x[0]) == IsDigit(y[0])
    ensures KeyLess(NameKey(x), NameKey(y)).Ok?
  {
    var a := NameKey(x);
    var b := NameKey(y);
    forall i | 0 <= i < |a| && i < |b| ensures a[i].Num? == b[i].Num? {
      RunClassByParity(x, i);
      RunClassByParity(y, i);
    }
    KeyLessTotal(a, b);
  }

  /** The point of the key: `wlan9` sorts before `wlan10`, which plain string
      order would put first. */
  lemma NaturalOrderExample()
    ensures KeyLess(NameKey("wlan9"), NameKey("wlan10")) == Ok(true)
    ensures TextLess("wlan10", "wlan9")
  {
    RunsOfWlan9();
    RunsOfWlan10();
    assert "10"[..1] == "1";
    assert Value("10") == 10;
  }

  /** A name that starts with a digit and one that starts with a letter do
      not compare: `<` raises `TypeError`, naming the left operand's type
      first. */
  lemma MixedKeysRaise()
    ensures KeyLess(NameKey("9wlan"), NameKey("wlan9")) == Raise("'<' not supported between instances of 'int' and 'str'")
    ensures KeyLess(NameKey("wlan9"), NameKey("9wlan")) == Raise("'<' not supported between instances of 'str' and 'int'")
  {
    RunsOfWlan9();
    RunsOf9Wlan();
    assert Value("9") == 9;
  }

  lemma RunsOf9Wlan()
    ensures Runs("9wlan") == ["9", "wlan"]
  {
    assert RunLength("", false) == 0;
    assert "wlan"[4..] == "" && "wlan"[..4] == "wlan";
    assert RunLength("wlan", false) == 4;
    assert Runs("wlan") == ["wlan"];
    assert RunLength("wlan", true) == 0;
    assert "9wlan"[1..] == "wlan";
    assert RunLength("9wlan", true) == 1;
    assert "9wlan"[..1] == "9";
  }

  lemma RunsOfWlan9()
    ensures Runs("wlan9") == ["wlan", "9"]
  {
    assert RunLength("", true) == 0;
    assert RunLength("9", true) == 1;
    assert "9"[1..] == "";
    assert "9"[..1] == "9";
    assert Runs("9") == ["9"];
    assert RunLength("wlan9", false) == 4;
    assert "wlan9"[..4] == "wlan" && "wlan9"[4..] == "9";
  }

  lemma RunsOfWlan10()
    ensures Runs("wlan10") == ["wlan", "10"]
  {
    assert RunLength("", true) == 0;
    assert RunLength("0", true) == 1;
    assert "0"[1..] == "";
    assert "10"[1..] == "0";
    assert RunLength("10", true) == 2;
    assert "10"[2..] == "" && "10"[..2] == "10";
    assert Runs("10") == ["10"];
    assert RunLength("wlan10", false) == 4;
    assert "wlan10"[..4] == "wlan" && "wlan10"[4..] == "10";
  }

  // ---------------------------------------------------------------------
  // Device filter and selection

  /** `fnmatch.fnmatch(name, pattern)`, whose glob semantics are abstracted. */
  type Glob = (string, string) -> bool

  datatype Exclusions = Exclusions(ifnames: seq<string>, vendors: seq<string>, hwaddrs: seq<string>)

  /** One condition per pattern: the lower-cased pattern does not match `x`. */
  function Clear(x: string, patterns: seq<string>, glob: Glob): (cs: seq<bool>)
    ensures |cs| == |patterns|
  {
    seq(|patterns|, i requires 0 <= i < |patterns| => !glob(x, Lower(patterns[i])))
  }

  /** Python's `all(conditions)` */
  predicate AllTrue(cs: seq<bool>)
  {
    forall i :: 0 <= i < |cs| ==> cs[i]
  }

  lemma AllTrueAppend(a: seq<bool>, b: seq<bool>)
    ensures AllTrue(a + b) <==> AllTrue(a) && AllTrue(b)
  {
    if AllTrue(a) && AllTrue(b) {
      forall i | 0 <= i < |a + b| ensures (a + b)[i] {
        if i >= |a| {
          assert (a + b)[i] == b[i - |a|];
        }
      }
    } else if !AllTrue(a) {
      var i :| 0 <= i < |a| && !a[i];
      assert (a + b)[i] == a[i];
    } else {
      var i :| 0 <= i < |b| && !b[i];
      assert (a + b)[|a| + i] == b[i];
    }
  }

  /** Every condition of a pattern list holds exactly when no pattern in it
      matches. */
  lemma ClearIff(x: string, patterns: seq<string>, glob: Glob)
    ensures AllTrue(Clear(x, patterns, glob)) <==> forall p :: p in patterns ==> !glob(x, Lower(p))
  {
    var cs := Clear(x, patterns, glob);
    if AllTrue(cs) {
      forall p | p in patterns ensures !glob(x, Lower(p)) {
        var i :| 0 <= i < |patterns| && patterns[i] == p;
        assert cs[i];
      }
    } else {
      var i :| 0 <= i < |cs| && !cs[i];
      assert patterns[i] in patterns;
    }
  }

  /** The condition list `matches` builds: the type test, then one entry per
      ifname, vendor and hardware-address pattern, in that order. */
  function Conditions(e: Payload, ex: Exclusions, glob: Glob): (cs: seq<bool>)
    ensures |cs| == 1 + |ex.ifnames| + |ex.vendors| + |ex.hwaddrs|
  {
    [Field(e, "GENERAL.TYPE") == Some("wifi")]
    + Clear(Str(Field(e, "GENERAL.DEVICE")), ex.ifnames, glob)
    + Clear(Lower(Field(e, "GENERAL.VENDOR").GetOr("")), ex.vendors, glob)
    + Clear(Lower(Str(Field(e, "GENERAL.HWADDR"))), ex.hwaddrs, glob)
  }

  /** `matches(entry)`: `all(conditions)` */
  predicate Matches(e: Payload, ex: Exclusions, glob: Glob)
  {
    AllTrue(Conditions(e, ex, glob))
  }

  /** A device is kept exactly when it is a WiFi device and no exclusion
      pattern matches its name, its lower-cased vendor or its lower-cased
      hardware address (patterns are lower-cased, the device name is not). */
  lemma MatchesIff(e: Payload, ex: Exclusions, glob: Glob)
    ensures Matches(e, ex, glob) <==>
      && Field(e, "GENERAL.TYPE") == Some("wifi")
      && (forall p :: p in ex.ifnames ==> !glob(Str(Field(e, "GENERAL.DEVICE")), Lower(p)))
      && (forall p :: p in ex.vendors ==> !glob(Lower(Field(e, "GENERAL.VENDOR").GetOr("")), Lower(p)))
      && (forall p :: p in ex.hwaddrs ==> !glob(Lower(Str(Field(e, "GENERAL.HWADDR"))), Lower(p)))
  {
    var t := [Field(e, "GENERAL.TYPE") == Some("wifi")];
    var a := Clear(Str(Field(e, "GENERAL.DEVICE")), ex.ifnames, glob);
    var b := Clear(Lower(Field(e, "GENERAL.VENDOR").GetOr("")), ex.vendors, glob);
    var c := Clear(Lower(Str(Field(e, "GENERAL.HWADDR"))), ex.hwaddrs, glob);
    AllTrueAppend(t + a + b, c);
    AllTrueAppend(t + a, b);
    AllTrueAppend(t, a);
    assert AllTrue(t) <==> t[0];
    ClearIff(Str(Field(e, "GENERAL.DEVICE")), ex.ifnames, glob);
    ClearIff(Lower(Field(e, "GENERAL.VENDOR").GetOr("")), ex.vendors, glob);
    ClearIff(Lower(Str(Field(e, "GENERAL.HWADDR"))), ex.hwaddrs, glob);
  }

  /** `d` is the device some kept entry describes. */
  predicate FromEntries(d: WirelessDevice, entries: seq<Payload>, ex: Exclusions, glob: Glob)
  {
    exists e :: e in entries && Matches(e, ex, glob) && DeviceFromNmshow(e) == Ok(d)
  }

  /** An entry that matches but does not read as a device. */
  predicate Malformed(e: Payload, ex: Exclusions, glob: Glob)
  {
    Matches(e, ex, glob) && DeviceFromNmshow(e).Raise?
  }

  /** Where reading the entries first fails: the index of the first
      malformed entry, or `|entries|`. */
  function FirstMalformed(entries: seq<Payload>, ex: Exclusions, glob: Glob): (i: nat)
    ensures i <= |entries|
    ensures forall j :: 0 <= j < i ==> !Malformed(entries[j], ex, glob)
    ensures i < |entries| ==> Malformed(entries[i], ex, glob)
  {
    if |entries| == 0 then 0
    else if Malformed(entries[0], ex, glob) then 0
    else
      var i := FirstMalformed(entries[1..], ex, glob);
      assert forall j :: 1 <= j < 1 + i ==> entries[j] == entries[1..][j - 1];
      1 + i
  }

  /** The matching entries of `nmcli device show`, as devices, in order;
      like the list comprehension, each entry is matched and read before the
      next, so the first matching entry that fails to read raises. */
  function Keep(entries: seq<Payload>, ex: Exclusions, glob: Glob): (r: Raises<seq<WirelessDevice>>)
    ensures r.Ok? ==> |r.value| <= |entries|
    ensures r.Ok? ==> forall d :: d in r.value ==> FromEntries(d, entries, ex, glob)
    ensures r.Ok? ==> forall e :: e in entries && Matches(e, ex, glob) ==>
      DeviceFromNmshow(e).Ok? && DeviceFromNmshow(e).value in r.value
  {
    if |entries| == 0 then
      Ok([])
    else if Matches(entries[0], ex, glob) then
      var d :- DeviceFromNmshow(entries[0]);
      var rest :- Keep(entries[1..], ex, glob);
      Ok([d] + rest)
    else
      Keep(entries[1..], ex, glob)
  }

  /** Reading the entries fails exactly when some matching entry is
      malformed, and then with the error of the first one. */
  lemma {:induction false} KeepRaisesAtFirstMalformed(entries: seq<Payload>, ex: Exclusions, glob: Glob)
    ensures Keep(entries, ex, glob).Raise? <==> FirstMalformed(entries, ex, glob) < |entries|
    ensures Keep(entries, ex, glob).Raise? ==>
      Keep(entries, ex, glob).error == DeviceFromNmshow(entries[FirstMalformed(entries, ex, glob)]).error
    decreases |entries|
  {
    if |entries| > 0 && !Malformed(entries[0], ex, glob) {
      KeepRaisesAtFirstMalformed(entries[1..], ex, glob);
      var rest := Keep(entries[1..], ex, glob);
      assert Keep(entries, ex, glob).Raise? <==> rest.Raise?;
      assert rest.Raise? ==> Keep(entries, ex, glob).error == rest.error;
      var i := FirstMalformed(entries[1..], ex, glob);
      if i < |entries[1..]| {
        assert entries[1..][i] == entries[i + 1];
      }
    }
  }

  /** `order` lists every index below `n` exactly once. */
  predicate IsPermutation(order: seq<nat>, n: nat)
  {
    && |order| == n
    && (forall i :: 0 <= i < n ==> order[i] < n)
    && (forall i, j :: 0 <= i < j < n ==> order[i] != order[j])
  }

  /** Python's `s[:n]` for any integer `n` (a negative `n` counts from the
      end). */
  function Truncate<T>(s: seq<T>, n: int): (r: seq<T>)
    ensures n >= 0 ==> |r| == if n < |s| then n else |s|
    ensures n < 0 ==> |r| == if -n < |s| then |s| + n else 0
    ensures r <= s
  {
    if n >= |s| then s
    else if n >= 0 then s[..n]
    else if -n < |s| then s[..|s| + n]
    else []
  }

  /** `{device.ifname: device for device in devices}`: later devices win. */
  function ByIfname(devices: seq<WirelessDevice>): (m: map<string, WirelessDevice>)
    ensures m.Keys == set d | d in devices :: d.ifname
    ensures forall k :: k in m ==> m[k] in devices && m[k].ifname == k
    ensures |m| <= |devices|
  {
    if |devices| == 0 then map[]
    else
      var last := devices[|devices| - 1];
      var m := ByIfname(devices[..|devices| - 1]);
      assert forall d :: d in devices <==> d in devices[..|devices| - 1] || d == last;
      m[last.ifname := last]
  }

  /** `get_wireless_devices`: filter, then (with a non-zero `max_devices`)
      take the first `max_devices` of the devices rearranged by `order`
      — which stands for the name-key sort followed by `random.shuffle` —
      and key the result by ifname. */
  function GetWirelessDevices(entries: seq<Payload>, ex: Exclusions, glob: Glob,
                              maxDevices: int, order: seq<nat>): (r: Raises<map<string, WirelessDevice>>)
    requires Keep(entries, ex, glob).Ok? ==> IsPermutation(order, |Keep(entries, ex, glob).value|)
    ensures r.Raise? <==> FirstMalformed(entries, ex, glob) < |entries|
    ensures r.Raise? ==> r.error == DeviceFromNmshow(entries[FirstMalformed(entries, ex, glob)]).error
    ensures r.Ok? ==> forall k :: k in r.value ==>
      r.value[k].ifname == k && FromEntries(r.value[k], entries, ex, glob)
    ensures r.Ok? && maxDevices == 0 ==> forall e :: e in entries && Matches(e, ex, glob) ==>
      (DeviceFromNmshow(e).Ok? && DeviceFromNmshow(e).value.ifname in r.value)
    ensures r.Ok? && maxDevices > 0 ==> |r.value| <= maxDevices
  {
    KeepRaisesAtFirstMalformed(entries, ex, glob);
    var kept :- Keep(entries, ex, glob);
    if maxDevices == 0 then
      ByIfnameFrom(kept, entries, ex, glob);
      Ok(ByIfname(kept))
    else
      var chosen := Choose(kept, order, maxDevices);
      ByIfnameFrom(chosen, entries, ex, glob);
      Ok(ByIfname(chosen))
  }

  /** `random.shuffle(devices); devices[:max_devices]` after the sort:
      the first `max_devices` of the devices rearranged by `order`. */
  function Choose(kept: seq<WirelessDevice>, order: seq<nat>, maxDevices: int): (chosen: seq<WirelessDevice>)
    requires IsPermutation(order, |kept|)
    ensures forall d :: d in chosen ==> d in kept
    ensures maxDevices >= 0 ==> |chosen| == if maxDevices < |kept| then maxDevices else |kept|
  {
    var arranged := seq(|kept|, i requires 0 <= i < |kept| => kept[order[i]]);
    var chosen := Truncate(arranged, maxDevices);
    assert forall d :: d in chosen ==> d in arranged;
    chosen
  }

  /** Keying devices that kept entries describe by ifname keeps that
      description. */
  lemma ByIfnameFrom(devices: seq<WirelessDevice>, entries: seq<Payload>, ex: Exclusions, glob: Glob)
    requires forall d :: d in devices ==> FromEntries(d, entries, ex, glob)
    ensures forall k :: k in ByIfname(devices) ==>
      ByIfname(devices)[k].ifname == k && FromEntries(ByIfname(devices)[k], entries, ex, glob)
  {
  }

  // ---------------------------------------------------------------------
  // Commands

  /** `CompletedProcess`: the argv, the exit status and stripped output. */
  datatype CompletedProcess = CompletedProcess(args: seq<string>, returncode: int, stdout: string)
  {
    /** The `succeedeed` property. */
    predicate Succeeded()
    {
      returncode == 0
    }
  }

  /** `run_command`: the process itself is an oracle that yields an exit
      status and raw output; stdout and stderr share `output`, stripped. */
  function RunCommand(args: seq<string>, returncode: int, output: string): (p: CompletedProcess)
    ensures p.args == args && p.returncode == returncode
    ensures p.stdout == Strip(output)
  {
    CompletedProcess(args, returncode, if output != "" then Strip(output) else "")
  }

  /** The `nmcli` argv `connect_device` runs. */
  function ConnectArgs(ifname: string, ssid: string, passphrase: Option<string>): (args: seq<string>)
    ensures |args| == (if passphrase.Some? && passphrase.value != "" then 9 else 7)
    ensures args[..5] == ["nmcli", "device", "wifi", "connect", ssid]
    ensures args[|args| - 2..] == ["ifname", ifname]
    ensures |args| == 9 ==> args[5..7] == ["password", passphrase.value]
  {
    var args := ["nmcli", "device", "wifi", "connect", ssid];
    var args := if passphrase.Some? && passphrase.value != "" then args + ["password", passphrase.value] else args;
    args + ["ifname", ifname]
  }

  /** Reads back the SSID, passphrase and ifname from a `connect_device`
      argv. */
  function ParseConnectArgs(args: seq<string>): Option<(string, Option<string>, string)>
  {
    if |args| == 7 && args[..4] == ["nmcli", "device", "wifi", "connect"] && args[5] == "ifname" then
      Some((args[4], None, args[6]))
    else if |args| == 9 && args[..4] == ["nmcli", "device", "wifi", "connect"]
            && args[5] == "password" && args[7] == "ifname" then
      Some((args[4], Some(args[6]), args[8]))
    else
      None
  }

  /** The argv carries exactly the inputs: an empty or missing passphrase is
      left out, any other is passed after `password`. */
  lemma ConnectArgsRoundTrip(ifname: string, ssid: string, passphrase: Option<string>)
    ensures ParseConnectArgs(ConnectArgs(ifname, ssid, passphrase)) ==
      Some((ssid, if passphrase.Some? && passphrase.value != "" then passphrase else None, ifname))
  {
    var args := ConnectArgs(ifname, ssid, passphrase);
    assert args[..4] == args[..5][..4];
  }

  /** How a command line reads an option that takes a value: the word after
      the first occurrence of `flag`, if one follows. */
  function OptionValue(args: seq<string>, flag: string): Option<string>
  {
    if |args| < 2 then None
    else if args[0] == flag then Some(args[1])
    else OptionValue(args[1..], flag)
  }

  /** The `ping` argv `ping_host` runs: IPv4 only, four echo requests,
      sent from `ifname`, to `host`. */
  function PingArgs(ifname: string, host: string): (args: seq<string>)
    ensures |args| > 0 && args[0] == "ping" && "-4" in args
    ensures OptionValue(args, "-c") == Some("4")
    ensures OptionValue(args, "-I") == Some(ifname)
    ensures |args| > 0 && args[|args| - 1] == host
  {
    var args := ["ping", "-4", "-c", "4", "-I", ifname, host];
    assert OptionValue(args[2..], "-c") == Some("4");
    assert OptionValue(args[4..], "-I") == Some(ifname);
    assert OptionValue(args[2..], "-I") == Some(ifname) by {
      assert args[2..][1..][1..] == args[4..];
    }
    args
  }

  /** The last line of output that is not blank is non-empty once the
      output is stripped. */
  lemma LastLineOfStripped(output: string)
    ensures !AllSpace(output) ==> LastLine(Strip(output)) != ""
  {
    var t := Strip(output);
    if t != "" {
      LineBreakIsSpace(t[|t| - 1]);
    }
  }

  /** What `ping_host` reads from the output: nothing for blank output,
      otherwise a non-empty last line. */
  lemma PingFeedback(output: string)
    ensures var t := Strip(output);
      && (t != "" ==> LastLine(Strip(t)) != "" && IsSuffix(LastLine(Strip(t)), t))
      && (t == "" <==> AllSpace(output))
  {
    StripIdempotent(output);
    LastLineOfStripped(output);
  }

  /** `ping_host`: success is a zero exit status; the feedback is the last
      line of the (stripped) output, or "" when there is none. */
  function PingHost(ifname: string, host: string, returncode: int, output: string): (r: (bool, string))
    ensures r.0 <==> returncode == 0
    ensures r.1 == "" <==> AllSpace(output)
    ensures !AllSpace(output) ==> r.1 == LastLine(Strip(output))
    ensures forall i :: 0 <= i < |r.1| ==> !IsLineBreak(r.1[i])
    ensures IsSuffix(r.1, Strip(output))
  {
    var ps := RunCommand(PingArgs(ifname, host), returncode, output);
    var lastLine := if ps.stdout != "" then LastLine(Strip(ps.stdout)) else "";
    PingFeedback(output);
    (ps.Succeeded(), lastLine)
  }
}
